=== FILE: README.md ===
# Immediate-mode GUI toolkit core, modelled in Dafny

This project models the logic of a small immediate-mode GUI toolkit, leaving
out its imgui, GLFW and OpenGL plumbing. The toolkit exists in two
generations, and both are modelled because they behave differently.

- **Current generation** (`sdk/` and `user_interface/`):
  - the interpolation helpers `math.linear` and `math.clamp`;
  - `vector` and `color`;
  - the event bus `c_event`;
  - the animation cache `c_animations`;
  - the icon buttons;
  - the scene `c_scene`;
  - the application root `c_ui`.
- **Older generation** (`gui/`):
  - the tuple conversion and tuple-driven event operators of `gui_types.py`;
  - the animation cache of `gui_render.py`;
  - `c_button`, `c_scene` and `c_gui`.

## Modelling conventions

- **Data and errors.** Python objects become immutable datatypes, and every operation is a pure function. An operation that mutates an object returns the new state. Python exceptions become `Result.Err` (module `Wrappers`), with the exception class and key kept. Python's negative list indexing is `Wrappers.PyIndex`.
- **Events.** An event is a registry of handlers, kept in first-registration order (`order` plus a `handlers` map), and a data bag. Handlers are opaque ids. Calling an event yields a trace of calls, each carrying the bag snapshot when the handler accepts arguments.
- **Scenes and roots.** Scenes and roots return a trace of effects instead of running callbacks. Each effect is an application handler called, a widget callback fired, or a widget drawn.
- **Numbers.** Floats are modelled as `real`. The per-frame delta time that imgui supplies is a parameter. GLFW results (init success, the window handle) are parameters of `Ui.Initialize`. The old root keeps the window handle as a state field.

Each source component is one module:
- `MathOps`, `Vectors`, `Colors` and `Events` model the sdk files.
- `Animation`, `Widgets`, `Scenes` and `Ui` model the `user_interface` files.
- `LegacyTypes`, `LegacyAnimation`, `LegacyScene` and `LegacyGui` model the `gui` files.

Where the older generation's code does the same as the current one, one member models both. The table cites the current source for it. The old counterparts are:

| member | old source |
|---|---|
| `MathOps.Linear` | gui/gui_types.py:23-38 |
| `MathOps.Clamp` | gui/gui_types.py:41-52 (maximum checked first, then minimum) |
| `Vectors.Linear` | gui/gui_types.py:175-185 (vector `lerp`) |
| `Vectors.IsInBounds` | gui/gui_types.py:207-218 (inclusive edges) |
| `Colors.Mul` | gui/gui_types.py:107-112 (alpha only) |
| `Colors.Lieaner` | gui/gui_types.py:128-138 (colour `lerp`) |
| `Events.Lookup` | gui/gui_types.py:325-334 (the accessor) |
| `Events.Invoke` | gui/gui_types.py:336-348 (the call) |
| `Animation.New` | gui/gui_render.py:405-411 |
| `Animation.SetInterpolation` | gui/gui_render.py:413-419 (`update`) |
| `Animation.Store` | gui/gui_render.py:421-431 (`value`) |
| `Animation.Prepare` | gui/gui_render.py:433-443 (`cache`) |

## Model

| member | source | states |
|---|---|---|
| Wrappers.PyIndex | user_interface/ui.py:257-258 | `list[i]`: an in-range index selects that element, a negative one counts from the end, anything else raises IndexError |
| MathOps.Linear | sdk/math_operations.py:7-23 | equal endpoints return the end; otherwise the step `s + (e-s)*w` is returned, or the end itself when the step lands strictly within `hold` of it |
| MathOps.LinearZeroWeight | sdk/math_operations.py:15-23 | with weight 0 and the endpoints at least `hold` apart the start is returned unchanged |
| MathOps.LinearBetween | sdk/math_operations.py:15-23 | for any weight in [0,1] and any hold, of either sign, the result lies between start and end, inclusive |
| MathOps.StepBetween | sdk/math_operations.py:15-17 | for a weight in [0,1] the unsnapped step lies between start and end |
| MathOps.LinearApproaches | sdk/math_operations.py:15-23 | for a weight in [0,1] one step never moves further from the target |
| MathOps.LinearSnapsWhenClose | sdk/math_operations.py:15-23 | for a weight in [0,1], when start is already strictly within `hold` of the end (`|start - end| < hold`), the end is returned exactly |
| MathOps.LinearFullWeight | sdk/math_operations.py:15-23 | weight 1 reaches the end in one step |
| MathOps.Clamp | sdk/math_operations.py:26-37 | the maximum when the value exceeds it, else the minimum when below it, else the value |
| MathOps.ClampInRange | sdk/math_operations.py:26-37 | for `min <= max` the result lies in [min, max] |
| MathOps.ClampIdempotent | sdk/math_operations.py:26-37 | clamping a clamped value changes nothing |
| MathOps.ClampInt | user_interface/ui.py:260 | `math.clamp` on integer indices agrees with the real-valued clamp |
| MathOps.ClampIntInRange | user_interface/ui.py:260 | a clamped index lies in [lo, hi], and an index already in range is kept |
| Vectors.Origin | sdk/vector.py:17-24 | the default vector is (0, 0, 0) |
| Vectors.Unpack | sdk/vector.py:47-52 | `unpack` gives a 3-tuple whose entries are x, y and z, in that order |
| Vectors.Raw | sdk/vector.py:26-38 | `raw` fails on fewer than two entries, takes x and y from the tuple, and takes z only from a three-entry tuple, keeping its own z otherwise |
| Vectors.UnpackRoundTrip | sdk/vector.py:26-52 | `raw` of an `unpack` rebuilds the vector, and a vector equals its own unpacked tuple |
| Vectors.Copy | sdk/vector.py:40-45 | the copy equals the original component-wise |
| Vectors.IsInBounds | sdk/vector.py:61-72 | true exactly when `start.x <= x <= start.x + width` and `start.y <= y <= start.y + height`, edges included |
| Vectors.Linear | sdk/vector.py:74-85 | `math.linear` applied to x, y and z independently, with one weight and hold |
| Vectors.LinearEnds | sdk/vector.py:74-85 | weight 1 reaches the other vector; interpolating a vector toward itself keeps it |
| Vectors.Arith | sdk/vector.py:94-168 | a vector operand acts component-wise, a number is broadcast to all three components, and any other operand raises |
| Vectors.ArithComponentWise | sdk/vector.py:94-149 | `+`, `-` and `*` with a vector give the component-wise sum, difference and product |
| Vectors.DivComponentWise | sdk/vector.py:151-168 | `/` by a vector succeeds iff no component is zero, giving the component-wise quotient; dividing by the number 0 raises ZeroDivisionError |
| Vectors.AddSubRoundTrip | sdk/vector.py:94-130 | subtracting what was added gives the vector back |
| Vectors.Eq | sdk/vector.py:170-187 | `==` against a vector compares all three components, against a three-entry tuple compares with its entries, against anything else raises |
| Vectors.EqShortTuple | sdk/vector.py:170-187 | a tuple shorter than three raises IndexError exactly when its entries match the vector's leading components |
| Colors.White | sdk/color.py:17-25 | the default colour is (255, 255, 255, 255) |
| Colors.AlphaOverride | sdk/color.py:27-32 | keeps r, g, b and replaces only alpha |
| Colors.AlphaOverrideLastWins | sdk/color.py:27-32 | a second override replaces the first; overriding with the own alpha is the identity |
| Colors.Copy | sdk/color.py:41-46 | the copy has identical channels |
| Colors.Lieaner | sdk/color.py:48-58 | each of the four channels is interpolated independently with `math.linear` |
| Colors.LieanerEnds | sdk/color.py:48-58 | weight 1 reaches the other colour; a colour interpolated toward itself stays |
| Colors.Mul | sdk/color.py:60-65 | `*` scales alpha only; r, g, b are unchanged |
| Colors.MulComposes | sdk/color.py:60-65 | multiplying by 1 changes nothing, and two multiplications compose into one by the product |
| Events.New | sdk/event.py:14-23 | a new event has no handlers and an empty data bag |
| Events.Lookup | sdk/event.py:25-34 | the accessor returns the stored value of a key, or None for a key never set; it never fails |
| Events.Put | sdk/event.py:36-41 | `+ (key, value)` stores the value under the key, overwriting, leaving other keys and all handlers untouched |
| Events.PutAll | sdk/event.py:36-41 | after a series of `+` each key holds the value stored last for it, and unnamed keys keep their values |
| Events.Set | sdk/event.py:43-51 | `set` registers the handler with its argument mode; a new name is appended to the call order, and an existing name is replaced in place with no second entry |
| Events.SetNewAppends | sdk/event.py:43-72 | after registering a new name, invoking yields the former calls followed by one call to the new handler |
| Events.SetExistingReplaces | sdk/event.py:43-72 | re-registering a name changes only that name's call in the trace; the trace length is unchanged |
| Events.Unset | sdk/event.py:53-58 | `unset` reads a misspelt attribute, so it always raises AttributeError |
| Events.UnsetNeverRemoves | sdk/event.py:53-58 | for every registry and registered name, `unset` raises while the intended removal takes the name out |
| Events.Without | gui/gui_types.py:374-379 | removing a name from the call order keeps exactly the other names |
| Events.WithoutAbsent | gui/gui_types.py:374-379 | removing a name that is not in the call order leaves it unchanged |
| Events.WithoutAt | gui/gui_types.py:374-379 | removing the name at position k from a duplicate-free order leaves the names before and after k in their order |
| Events.WithoutDistinct | gui/gui_types.py:374-379 | removing a name keeps the order free of duplicates |
| Events.Remove | sdk/event.py:53-58 | the removal `unset` evidently intends: a registered name leaves the registry and the order, the rest is kept; a missing name raises KeyError |
| Events.RemoveKeepsValid | sdk/event.py:53-58 | removing a registered handler leaves a well-formed registry |
| Events.InvokeNames | sdk/event.py:60-72 | one call per listed name, in list order |
| Events.Invoke | sdk/event.py:60-72 | each registered handler is called exactly once, in first-registration order; handlers allowing arguments get the bag, the others none |
| Events.InvokeCovers | sdk/event.py:60-72 | every registered handler's call is among the calls, and call i is the call of the i-th listed name |
| Events.Fire | sdk/event.py:74-78 | calling the event object is the same as `invoke` |
| Events.BagPersists | sdk/event.py:60-72 | invoking never clears the bag: a stored value reaches every later call until overwritten |
| LegacyTypes.AsTuple | gui/gui_types.py:227-239 | the old `as_tuple` reads x and y from the tuple, and z from its third entry only when 2 is one of the entries; too few entries raise IndexError |
| LegacyTypes.AsTupleAgreesWithRaw | gui/gui_types.py:227-239 | `as_tuple` agrees with `raw` exactly when "2 is an entry" coincides with "three entries" |
| LegacyTypes.AsTupleDropsThird | gui/gui_types.py:227-239 | (1, 1, 5) loses its z, which `raw` keeps |
| LegacyTypes.AsTupleRaisesOnPairWithTwo | gui/gui_types.py:227-239 | a pair holding a 2 raises, where `raw` converts it |
| LegacyTypes.Add | gui/gui_types.py:350-372 | a 2-tuple stores data, a 3-tuple registers or overwrites a handler under its name, any other length raises "Invalid data structure added" |
| LegacyTypes.Sub | gui/gui_types.py:374-379 | `-` deletes the handler by name, its new order being `Events.Without` of the old (with `Events.WithoutAt`: the remaining names in their order); a missing name raises KeyError |
| LegacyTypes.AddThenSub | gui/gui_types.py:350-379 | adding a new handler then subtracting it restores the event; subtracting an unregistered name raises |
| LegacyTypes.WithoutAppended | gui/gui_types.py:374-379 | appending an absent name and removing it gives the order back |
| Animation.New | user_interface/animation.py:20-26 | a fresh cache is empty, with interpolation 0 |
| Animation.SetInterpolation | user_interface/animation.py:28-36 | the factor is stored verbatim and read back; the cache is untouched |
| Animation.Value | user_interface/animation.py:38-46 | reading returns the stored value, and a key never prepared raises KeyError |
| Animation.Store | user_interface/animation.py:38-46 | `value(k, v)` overwrites only `k`; every other key reads as before |
| Animation.Prepare | user_interface/animation.py:48-54 | writes only when the key is absent |
| Animation.PrepareFirstWins | user_interface/animation.py:48-54 | a second prepare leaves the first value in place |
| Animation.LinearTo | user_interface/animation.py:72 | `math.linear` succeeds only on a cached number |
| Animation.Preform | user_interface/animation.py:63-78 | an unprepared key raises; a number target succeeds exactly when the cached value is a number (a cached vector or colour fails inside `math.linear`), and then stores and returns `linear(old, target, speed*interpolation, hold)`; any other target succeeds exactly when both the cached value and the target are vectors, since `.linear` raises on a cached number and on a colour (whose method is spelled `lieaner`), and then the cache is unchanged and the cached value is returned |
| Animation.PreformConverged | user_interface/animation.py:63-78 | a target equal to the current value is returned with the cache unchanged |
| Animation.PreformSnaps | user_interface/animation.py:63-78 | a step landing within `hold` of the target stores and returns the target |
| Animation.PreformApproaches | user_interface/animation.py:63-78 | with speed times interpolation in [0,1] a number never moves away from its target |
| Animation.ConvergesInOneFrame | user_interface/animation.py:63-78 | whenever speed times interpolation is exactly 1 (speed 10 at a frame of 0.1, say), any cached number reaches any target in one call, whatever the hold, and stays there on every later call |
| Animation.PreformVectorNeverMoves | user_interface/animation.py:75-78 | a cached vector stays put even when the weight is 1 |
| Animation.PreformComposite | user_interface/animation.py:75-78 | the composite path as intended: a vector or colour of matching kind is interpolated, stored and returned |
| Animation.PreformCompositeReaches | user_interface/animation.py:75-78 | with weight 1 the intended composite path reaches the target vector |
| LegacyAnimation.Preform | gui/gui_render.py:445-462 | the old `preform`: numbers as in the current generation; a vector or colour of matching kind is interpolated, stored and returned; a mismatched kind raises |
| LegacyAnimation.CompositeAsIntended | gui/gui_render.py:457-459 | the old composite path succeeds exactly when the intended current one does, with equal results |
| LegacyAnimation.GenerationsDiverge | gui/gui_render.py:457-459 | with a weight-1 frame the old cache reaches a vector target, the current one does not move |
| LegacyAnimation.PreformColorSettled | gui/gui_render.py:457-459 | a colour already at its target stays there with the cache unchanged |
| Widgets.Digits | user_interface/widgets.py:75-76 | the decimal digits of the attach index: reading them back gives the index (`DigitsValue`), there is no leading zero unless the index is 0, and there are at least two from 10 on |
| Widgets.DigitsInjective | user_interface/widgets.py:75-76 | different indices have different digit strings |
| Widgets.HandlerNamesDistinct | user_interface/widgets.py:66-76 | buttons at different indices register under different `ButtonIcon::<index>` names |
| Widgets.NewIconButton | user_interface/widgets.py:45-86 | a new icon button is not hovered and keeps its position, size and callback, with Background 50 and Underline 0 |
| Widgets.NewIconTextButton | user_interface/widgets.py:194-241 | as the icon button, and Width is prepared to the size |
| Widgets.SetPosition | user_interface/widgets.py:123-132 | `position(v)` replaces x and y and keeps z and everything else |
| Widgets.HitWidth | user_interface/widgets.py:138-148 | the icon button hit-tests with its size, the icon-text button with its current animated Width |
| Widgets.NumberArg | user_interface/widgets.py:138-148 | a coordinate is read from the bag, failing when missing or not a number |
| Widgets.OnMousePosition | user_interface/widgets.py:138-148 | hovered becomes the inclusive rect test of the cursor against position and hit width, and nothing else changes; it fails exactly when there is no bag, x or y is not a number, or the hit width cannot be read |
| Widgets.HoverUsesAnimatedWidth | user_interface/widgets.py:315-326 | the icon-text button hit-tests with its animated Width, not its hovered target |
| Widgets.OnMouseInput | user_interface/widgets.py:150-167 | the callback fires exactly when the button is hovered, the button is left, the action is press and a callback is set |
| Widgets.PressFiresOnlyOnLeftPress | user_interface/widgets.py:150-167 | a hovered left press fires; a right press or a release does not |
| Widgets.Animate | user_interface/widgets.py:113-121 | a cached number is moved toward its target and stored |
| Widgets.Draw | user_interface/widgets.py:90-121 | Background moves toward 150 when hovered else 50, Underline toward 255 else 0, Width toward `size + textWidth + 12` else `size`, and the fill alpha is the animated Background times the fade |
| Scenes.KindOf | user_interface/scene.py:89-97 | an event name selects its event |
| Scenes.KindNameRoundTrip | user_interface/scene.py:89-97 | exactly six events exist: draw, keyboard_input, char_input, mouse_position, mouse_input, mouse_scroll |
| Scenes.New | user_interface/scene.py:34-60 | index -1, not shown, no elements, six empty events, Fade prepared to 0 |
| Scenes.SetEvent | user_interface/scene.py:188-201 | an unknown name is a silent no-op; a known one registers the handler with arguments allowed |
| Scenes.AttachElement | user_interface/scene.py:203-209 | appends the element and returns its position, the previous element count |
| Scenes.AttachButton | user_interface/widgets.py:66-76 | a button is attached at the next index and registers mouse-position and mouse-input handlers |
| Scenes.AttachButtonRegisters | user_interface/widgets.py:66-76 | after attaching, the two scene events call the button's handlers under `ButtonIcon::<index>` |
| Scenes.AttachIconButton | user_interface/widgets.py:45-86 | the attached icon button has the attach index and its initial state |
| Scenes.AttachIconTextButton | user_interface/widgets.py:194-241 | the attached icon-text button has the attach index and its initial state |
| Scenes.Index | user_interface/scene.py:211-218 | `index()` returns the stored index, `index(v)` overwrites it |
| Scenes.Show | user_interface/scene.py:220-228 | `show()` returns the stored flag, `show(v)` overwrites it |
| Scenes.IndexShowRoundTrip | user_interface/scene.py:211-228 | a written index or flag reads back, and writing one leaves the other |
| Scenes.ElementAsWritten | user_interface/scene.py:251-259 | `element(i)` tests membership among the elements, so it returns None for any widget |
| Scenes.ElementAt | user_interface/scene.py:251-259 | the lookup `element` evidently intends: the element at an in-range index, None otherwise |
| Scenes.AttachThenElement | user_interface/scene.py:203-259 | the index `attach_element` returns finds the attached element |
| Scenes.RunCall | user_interface/scene.py:99-186 | an application handler is recorded as called; a button's position handler replaces that button by its `Widgets.OnMousePosition` result (the hover update) and fails exactly when that fails; its input handler changes no button and yields `Pressed(c)` exactly when `Widgets.OnMouseInput` fires callback c; only `hovered` ever changes, and a call that receives the bag a button handler needs always succeeds |
| Scenes.RunCalls | user_interface/scene.py:99-186 | running the calls keeps the element count and changes only `hovered`; the application calls in the trace are exactly those in the invocation, in order; when every call can run, the whole run succeeds |
| Scenes.RunCallsSingle | user_interface/scene.py:99-186 | a single call run as a list runs exactly as `RunCall` |
| Scenes.RunCallsAppend | user_interface/scene.py:99-186 | running the calls is running each in turn: one call runs as `RunCall`, and `a + b` runs `b` on the result of `a` |
| Scenes.RunCallsHover | user_interface/scene.py:99-186 | after the calls, a button is hovered exactly as the cursor test of the bag says if some call was its position handler, and keeps its flag otherwise |
| Scenes.RunCallsPresses | user_interface/scene.py:152-169 | without position calls the elements are unchanged, every call succeeds, and the presses in the trace are exactly the firings, in order |
| Scenes.Fired | user_interface/widgets.py:150-167 | a call fires a callback exactly when it is a button's input handler and that button's `Widgets.OnMouseInput` returns the callback |
| Scenes.FiringsMember | user_interface/widgets.py:150-167 | a press is among the firings exactly when some call fires it |
| Scenes.FiredCall | user_interface/widgets.py:150-167 | a call fires only as the input handler of a hovered button holding that callback, given the left button pressed |
| Scenes.HoveredCallFires | user_interface/widgets.py:150-167 | a left press given to the input handler of a hovered button with a callback fires that callback |
| Scenes.PressedOf | user_interface/scene.py:152-169 | the presses of a trace are exactly its `Pressed` entries |
| Scenes.PressedOfAppend | user_interface/scene.py:152-169 | the presses of a joined trace are those of each part, in order |
| Scenes.HandlesPositionCalled | user_interface/scene.py:135-150 | a button's position handler is registered exactly when invoking the event calls it |
| Scenes.RunEventHover | user_interface/scene.py:135-150 | after a successful run of the event, each button is hovered by the cursor test if its position handler is registered, and keeps its flag otherwise |
| Scenes.RunEventPresses | user_interface/scene.py:152-169 | with no position handler registered, a successful run changes no element, every handler's call succeeds, and the presses are the firings |
| Scenes.RunEventSucceeds | user_interface/scene.py:99-186 | when every button handler takes the bag and either no position handler is registered or the cursor fields are numbers and the widgets are ready, the run succeeds |
| Scenes.RunEvent | user_interface/scene.py:99-186 | the hover, press and success facts of one event run together |
| Scenes.CalledOfAppend | user_interface/scene.py:99-186 | the application calls of a joined trace are those of each part, in order |
| Scenes.RunCallsAppOnly | user_interface/scene.py:99-186 | with only application handlers the elements are untouched and the trace is the calls |
| Scenes.AppCallsCarry | user_interface/scene.py:99-186 | every application call that takes arguments receives the event's bag |
| Scenes.InvokeAppOnly | user_interface/scene.py:99-186 | an event holding only application handlers always runs |
| Scenes.Run | user_interface/scene.py:99-186 | invoking a scene event stores it, calls its handlers in order with the bag, and keeps the scene's validity; each button ends hovered exactly by the cursor test if its position handler is registered and keeps its flag otherwise; with no position handler the elements are unchanged and the presses are the firings; it succeeds when every button handler takes the bag and the cursor can be read |
| Scenes.RunKeeps | user_interface/scene.py:99-186 | a successful run keeps the scene valid and ready, and every application handler gets the event's bag |
| Scenes.KeyboardEvent | user_interface/scene.py:99-118 | window, key, scancode, action and mods are stored in the keyboard event, its registry untouched |
| Scenes.KeyboardInput | user_interface/scene.py:99-118 | on success the filled keyboard event is the one stored and its application handlers are called exactly as one invocation lists them, each with the stored fields; with only application handlers it always succeeds |
| Scenes.CharEvent | user_interface/scene.py:120-133 | window and char are stored in the char event, its registry untouched |
| Scenes.CharInput | user_interface/scene.py:120-133 | on success the filled char event is stored and invoked once, its application calls carrying window and char; with only application handlers it always succeeds |
| Scenes.MousePositionEvent | user_interface/scene.py:135-150 | window, x and y are stored in the mouse-position event |
| Scenes.MousePosition | user_interface/scene.py:135-150 | on success the filled mouse-position event is stored and invoked once, its application calls carrying window, x and y; each button whose position handler is registered ends hovered exactly when the cursor lies on it, others keep their flag, and nothing else in any element changes; the other events and the animations are untouched; it succeeds with only application handlers, or on a ready scene whose button handlers take the bag |
| Scenes.MouseInputEvent | user_interface/scene.py:152-169 | window, button, action and mods are stored in the mouse-input event |
| Scenes.MouseInput | user_interface/scene.py:152-169 | on success the filled mouse-input event is stored and invoked once, its application calls carrying window, button, action and mods; with no position handler registered the elements are unchanged, a left press on a hovered button whose input handler is registered fires its callback, and every press fired comes from such a button; other events and the animations are untouched; it succeeds with only application handlers or with button handlers that take the bag |
| Scenes.InputHandlerTookArgs | user_interface/scene.py:152-169 | when a mouse-input event without position handlers runs, each registered button input handler received the bag |
| Scenes.HoveredButtonFires | user_interface/widgets.py:150-167 | a left press on a hovered button whose input handler is registered puts its callback's press in the trace |
| Scenes.PressFromHoveredButton | user_interface/widgets.py:150-167 | every press in the trace comes from a left press on a hovered button with that callback whose input handler is registered |
| Scenes.MouseInputPresses | user_interface/widgets.py:150-167 | both directions of the press rule for a mouse-input event |
| Scenes.ScrollEvent | user_interface/scene.py:171-186 | window and both offsets are stored in the scroll event, its registry untouched |
| Scenes.MouseScroll | user_interface/scene.py:171-186 | on success the filled scroll event is stored and invoked once, its application calls carrying window and both offsets; with only application handlers it always succeeds |
| Scenes.SoleCursorHandler | user_interface/widgets.py:66-76 | a button's position handler alone on mouse_position is called once, with x and y of the cursor |
| Scenes.CursorInsideHovers | user_interface/widgets.py:138-148 | after attaching an icon button (with or without a callback), a cursor at its position succeeds and leaves the button hovered |
| Scenes.SoleButtonClick | user_interface/widgets.py:150-167 | with a hovered button's input handler alone on mouse_input, a left press succeeds and fires its callback |
| Scenes.ClickPresses | user_interface/widgets.py:66-76 | attaching an icon button with a callback to a scene without mouse handlers, moving the cursor onto it and pressing the left button fires the callback |
| Scenes.DrawElements | user_interface/scene.py:76-77 | elements are drawn in attachment order, all with the same fade: element i afterwards is what its own draw returns, and draw i records that draw's background under index i |
| Scenes.FadeStep | user_interface/scene.py:62-82 | the fade is `preform("Fade", 1 if shown else 0)` at speed 10 |
| Scenes.DrawsAfterHandlers | user_interface/scene.py:62-82 | appending draws keeps the handler calls and ends the trace with the draws |
| Scenes.DrawElementsStep | user_interface/scene.py:76-77 | drawing the first element and then the rest is drawing the whole list in order |
| Scenes.DrawEvent | user_interface/scene.py:72-73 | the draw event keeps its handlers and order and holds the scene under "scene" |
| Scenes.HandledElement | user_interface/scene.py:72-74 | an element as the draw handlers leave it differs from the original at most in its hovered flag, and not at all without a position handler for it |
| Scenes.DrawContentsFrame | user_interface/scene.py:72-77 | after the handlers run, drawing the elements makes each one what its own draw returns from its post-handler state |
| Scenes.DrawContentsCons | user_interface/scene.py:72-77 | the successful frame keeps the scene's other fields and ends its trace with the element draws |
| Scenes.FrameDrawsSameScene | user_interface/scene.py:62-82 | which elements a frame draws, and how, depends only on the elements and the draw event, not on the fade or the show flag |
| Scenes.DrawContents | user_interface/scene.py:72-77 | the draw event (with the scene in its bag) fires before any element is drawn; each element then ends as its own draw at the frame's fade leaves it, taken after the handlers' hover update, and the trailing draws record each element's computed background in order |
| Scenes.Draw | user_interface/scene.py:62-82 | a frame moves Fade toward the shown flag, fires the draw event, then draws every element with that fade; each element ends as its draw leaves it, and each trailing draw records the background that draw computed |
| Ui.KindOf | user_interface/ui.py:280-304 | an application event name selects its event |
| Ui.KindNameRoundTrip | user_interface/ui.py:280-304 | every one of the eleven application events has a name selecting it |
| Ui.New | user_interface/ui.py:50-67 | no window, no data, no scenes, active index 0, no error, no events |
| Ui.Initialize | user_interface/ui.py:69-163 | creating the window fails with the recorded message when GLFW or the window fails; on success the data and window exist |
| Ui.InitializeEvents | user_interface/ui.py:280-316 | all eleven events are (re)created empty, and the flag is recorded exactly when the data dict exists |
| Ui.NewScene | user_interface/ui.py:234-247 | appends a new scene whose index is its position |
| Ui.NewScenesNumbered | user_interface/ui.py:234-247 | the k-th scene created has index k |
| Ui.ActiveScene | user_interface/ui.py:257-258 | `active_scene()` returns the scene at the active index and raises when it is past the end |
| Ui.SetActive | user_interface/ui.py:260 | `active_scene(i)` clamps the index into [0, len(scenes)]: i when in range, 0 below, len(scenes) above |
| Ui.NextScene | user_interface/ui.py:262-267 | one up, clamped into [0, len(scenes)]: from the last scene or beyond it stays at len(scenes) |
| Ui.PreviousScene | user_interface/ui.py:269-274 | one down, clamped into [0, len(scenes)]: 0 from the first scene or below, len(scenes) from far above |
| Ui.ActivePastEnd | user_interface/ui.py:257-274 | stepping past the last scene reaches index len(scenes), where `active_scene()` raises |
| Ui.SetActiveWithin | user_interface/ui.py:260 | the clamp as intended, into [0, len(scenes) - 1] |
| Ui.ActiveWithinAlwaysValid | user_interface/ui.py:257-274 | with the intended clamp `active_scene()` never raises on a non-empty queue |
| Ui.SetEvent | user_interface/ui.py:467-484 | an unknown name records "Invalid Event Name" and returns False, registering nothing; a known name registers with arguments allowed and returns True |
| Ui.InvalidNameReported | user_interface/ui.py:467-484 | after a failed `set_event`, `ui("last error")` reports it |
| Ui.Fill | user_interface/ui.py:318-465 | each callback stores the window and each of its raw fields under its own key (key, scancode, action, mods; char; x, y; button, action, mods; offsets; width, height; positions; maximized); no other bag value and no registration changes |
| Ui.ForwardToScene | user_interface/ui.py:318-416 | the active scene handles the input first, and raises when the active index is past the end; it succeeds exactly when the active scene's own handling does, storing that scene's result in place and attributing its effects to it |
| Ui.SceneStep | user_interface/ui.py:318-416 | each forwarded input goes to the matching scene callback, which keeps the scene valid, its index and its flag |
| Ui.SceneStepSucceeds | user_interface/ui.py:318-416 | a scene whose event for the input holds only application handlers handles it without error |
| Ui.ForwardSucceeds | user_interface/ui.py:318-416 | forwarding succeeds when the active scene exists and its event for the input holds only application handlers |
| Ui.HandleInput | user_interface/ui.py:318-465 | keyboard, char, mouse and scroll input reach the active scene before the application event, and the input succeeds exactly when forwarding does; window resize, position and maximize are not forwarded and always succeed; on success the root is unchanged except for the scenes and the application event, which is replaced by the filled one |
| Ui.SceneBeforeApp | user_interface/ui.py:318-416 | in a forwarded input's trace, every scene effect precedes every application call |
| Ui.DrawOne | user_interface/ui.py:538-547 | a scene is shown exactly when its index is the active one, then drawn; a ready scene whose draw event holds only application handlers is drawn without error and stays ready |
| Ui.DrawOneFades | user_interface/scene.py:62-82 | what drawing one scene does: the fade steps toward 1 when the scene is the active one and toward 0 otherwise, the trace ends with one draw per element at that fade recording the background each element's draw computed, each element ends as that draw left it, and its application calls are those of the draw event with the scene stored |
| Ui.DrawOuts | user_interface/ui.py:538-547 | one entry per scene, each the scene drawn on its own |
| Ui.DrawOutsCons | user_interface/ui.py:538-547 | the drawn list of a non-empty list is the first scene drawn followed by the rest |
| Ui.EffectsOf | user_interface/ui.py:538-547 | the effects attributed to one scene, in order |
| Ui.EffectsOfPrepend | user_interface/ui.py:538-547 | putting one scene's effects before a trace of later scenes gives that scene exactly those effects and leaves every other scene's effects as they were |
| Ui.AttributedPrepend | user_interface/ui.py:538-547 | putting one drawn scene before a list of drawn scenes keeps each scene's entry and its own effects |
| Ui.DrawAllCons | user_interface/ui.py:538-547 | drawing the first scene in front of the rest keeps the shown flags, the grouping and each scene's effects |
| Ui.DrawAll | user_interface/ui.py:538-547 | each scene shown iff active and the trace grouped by scene in queue order; it succeeds exactly when every scene can be drawn, and then scene k of the result and its effects in the trace are exactly scene k drawn on its own |
| Ui.DrawScenes | user_interface/ui.py:538-547 | each frame every scene gets `show = (index == active)` and all are drawn in creation order; it succeeds exactly when every scene can be drawn (in particular when all are ready with only application draw handlers), and then each scene of the result and its effects are that scene drawn on its own |
| Ui.NoSceneShownPastEnd | user_interface/ui.py:260-274 | with the active index at len(scenes), the frame shows no scene |
| Ui.Run | user_interface/ui.py:486-495 | on a well-formed root, `run` raises before looping when there is no window or events were not initialised |
| Ui.SetupOrder | user_interface/ui.py:69-95 | the run checks pass only after window creation and event initialisation |
| Ui.Call | user_interface/ui.py:612-622 | "last error" gives the last error text; "active scene" gives the active scene and fails exactly when that lookup does; any other key raises until `initialize_events` has run, because the constructor never creates the events table; after that an event name gives its event and anything else gives None |
| LegacyScene.NewButton | gui/gui.py:91-136 | a new button is not hovered and caches "hovered" 0 and "text_color" white |
| LegacyScene.SetPosition | gui/gui.py:164-173 | `position(v)` replaces x and y only |
| LegacyScene.OnMousePosition | gui/gui.py:179-188 | hovered becomes the inclusive rect test of the cursor against position, size.x and size.y |
| LegacyScene.OnMouseButtons | gui/gui.py:190-195 | the button handler does nothing |
| LegacyScene.Tick | gui/gui.py:152-162 | a button frame stores the frame time as its interpolation |
| LegacyScene.KindOf | gui/gui.py:343-356 | a scene event name selects its event |
| LegacyScene.KindNameRoundTrip | gui/gui.py:343-356 | exactly six events exist: draw, keyboard, char, mouse_pos, mouse_buttons, scroll |
| LegacyScene.New | gui/gui.py:220-246 | index -1, not shown, no buttons, six empty events, Fade cached at 0 |
| LegacyScene.RegisterEvent | gui/gui.py:423-428 | an unknown event name raises KeyError; a known one registers with arguments allowed |
| LegacyScene.AddButton | gui/gui.py:274-286 | the button is stored under its id, replacing a same-id one, and `Button:<id>` is registered on mouse_pos and mouse_buttons |
| LegacyScene.UiLookup | gui/gui.py:333-337 | `ui(id)` returns the button stored under the id, None otherwise |
| LegacyScene.AddButtonReplaces | gui/gui.py:274-286 | adding under an existing id replaces the button without a second registration |
| LegacyScene.Index | gui/gui.py:299-308 | `index()` returns the stored index, `index(v)` overwrites it |
| LegacyScene.Show | gui/gui.py:310-318 | `show()` returns None rather than the flag; `show(v)` overwrites it |
| LegacyScene.ShowNeverReports | gui/gui.py:310-318 | after `show(True)`, `show()` still gives None |
| LegacyScene.RunCall | gui/gui.py:179-195 | a button's position handler replaces that button by its `OnMousePosition` result (the hover update) and fails exactly when that fails; its buttons handler changes nothing; an application handler is recorded; only `hovered` ever changes, and a call given the bag it needs always succeeds |
| LegacyScene.RunCalls | gui/gui.py:358-421 | the trace is exactly the application calls of the invocation, in order; only `hovered` changes; when every call can run, the whole run succeeds |
| LegacyScene.RunCallsSingle | gui/gui.py:358-421 | one call runs as `RunCall` |
| LegacyScene.RunCallsAppend | gui/gui.py:358-421 | `a + b` runs `b` on the result of running `a` |
| LegacyScene.RunCallsHover | gui/gui.py:179-188 | after the calls, a button is hovered exactly as the cursor test of the bag says if some call was its position handler, and keeps its flag otherwise |
| LegacyScene.RunEvent | gui/gui.py:179-188 | after a successful run of an event, each button is hovered by the cursor test if its position handler is registered, and the run succeeds when button handlers take the bag and the cursor can be read (or no position handler is registered) |
| LegacyScene.RunCallsAppOnly | gui/gui.py:358-421 | with only application handlers the buttons are untouched |
| LegacyScene.InvokeAppOnly | gui/gui.py:358-421 | an event holding only application handlers always runs |
| LegacyScene.Fire | gui/gui.py:358-421 | invoking an event stores it and records its application calls; each button ends hovered by the cursor test exactly if its position handler is registered and keeps its flag otherwise, nothing else changes; it succeeds when button handlers take the bag and the cursor can be read or no position handler is registered |
| LegacyScene.HandleInput | gui/gui.py:358-421 | each callback stores its raw fields (as `Ui.Fill` states them) in its event and invokes it once; on a cursor move each button with a registered position handler ends hovered exactly when the cursor lies in its rectangle, the others keep their flag; with no position handler the buttons are unchanged; it succeeds with only application handlers, or with button handlers that take the bag on a cursor move or with no position handler |
| LegacyScene.FireInput | gui/gui.py:358-421 | the hover, unchanged-buttons and success facts of handling one input |
| LegacyScene.FireCursorHover | gui/gui.py:389-398 | on a cursor move each button with a registered position handler ends hovered exactly when the cursor lies in its rectangle |
| LegacyScene.FireInputKeeps | gui/gui.py:358-421 | with no position handler registered, handling an input changes no button |
| LegacyScene.FireInputSucceeds | gui/gui.py:358-421 | handling an input succeeds when button handlers take the bag and it is a cursor move or no position handler is registered |
| LegacyScene.AppCallsCarry | gui/gui.py:358-421 | application calls that take arguments receive the event's bag |
| LegacyScene.SoleCursorHandler | gui/gui.py:283 | a button's position handler alone on mouse_pos is called once with the cursor bag |
| LegacyScene.CursorInsideHovers | gui/gui.py:179-188 | after adding a button, a cursor at its position hovers it |
| LegacyScene.DrawTrace | gui/gui.py:261-264 | one draw per button id in insertion order, all with the same fade |
| LegacyScene.DrawButtons | gui/gui.py:140-162 | every listed button runs its frame |
| LegacyScene.FadeStep | gui/gui.py:258-259 | the fade is `preform("Fade", 1 if shown else 0, 6)` |
| LegacyScene.NoPositionKeepsButtons | gui/gui.py:179-195 | an event without position handlers leaves every button as it was |
| LegacyScene.SceneDraw | gui/gui.py:248-268 | the buttons are drawn first, in insertion order, and the draw event (with the scene in its bag) fires afterwards; the buttons end as their draws left them, except for hover flags a position handler on the draw event sets, and exactly as drawn when there is none |
| LegacyScene.ButtonsBeforeHandlers | gui/gui.py:248-268 | in a frame's trace every button draw precedes every draw-event call |
| LegacyGui.KindOf | gui/gui.py:802-823 | an application event name selects its event |
| LegacyGui.KindNameRoundTrip | gui/gui.py:802-823 | each of the eleven application events has a name selecting it |
| LegacyGui.New | gui/gui.py:461-481 | no window, no scenes, active index 0, no error, an empty events dict |
| LegacyGui.CreateScene | gui/gui.py:640-656 | appends a new scene whose index is its position |
| LegacyGui.CreatedScenesNumbered | gui/gui.py:640-656 | the k-th scene created has index k |
| LegacyGui.ActiveScene | gui/gui.py:658-666 | `scenes[active]` with Python indexing: a negative index counts from the end, others out of range raise |
| LegacyGui.NextScene | gui/gui.py:668-675 | one up, with no bounds check |
| LegacyGui.PreviousScene | gui/gui.py:677-684 | one down, with no bounds check |
| LegacyGui.SteppingUnbounded | gui/gui.py:658-684 | stepping past the last scene makes `active_scene()` raise, and stepping back from the first selects the last |
| LegacyGui.InitializeEvents | gui/gui.py:802-836 | all eleven events are recreated empty; the flag is recorded only when the data dict exists, which otherwise raises |
| LegacyGui.RegisterEvent | gui/gui.py:943-948 | an unknown name, or any name before `initialize_events`, raises KeyError; a known one registers with arguments allowed |
| LegacyGui.ReinitializeDropsHandlers | gui/gui.py:802-823 | initialising the events again drops every handler registered before |
| LegacyGui.ForwardToScene | gui/gui.py:838-908 | the active scene handles the input first, raising when `active_scene()` does; it succeeds exactly when the active position exists and that scene's handling succeeds |
| LegacyGui.HandleInput | gui/gui.py:838-941 | keyboard, char, mouse and scroll input reach the active scene before the application event, and the input succeeds exactly when forwarding does (always when the active scene's event holds only application handlers); the window callbacks only fire their event; on success only the scenes and the filled application event change |
| LegacyGui.SceneBeforeApp | gui/gui.py:838-908 | in a forwarded input's trace every effect of the selected scene precedes every application call |
| LegacyGui.DrawOne | gui/gui.py:787-796 | a scene is shown exactly when its index is the active one, then drawn; a ready scene whose draw event holds only application handlers is drawn without error |
| LegacyGui.DrawOneFades | gui/gui.py:248-268 | what drawing one scene does: the fade steps toward 1 when it is the active one and toward 0 otherwise, and the trace is one draw per button at that fade followed by the draw event's application calls |
| LegacyGui.DrawOneButtons | gui/gui.py:258-266 | one scene's buttons after its frame are as their draws left them, up to hover flags a position handler on the draw event sets, and exactly as drawn with no position handler |
| LegacyGui.DrawOuts | gui/gui.py:787-796 | one entry per scene, each the scene drawn on its own |
| LegacyGui.DrawOutsCons | gui/gui.py:787-796 | the drawn list of a non-empty list is the first scene drawn followed by the rest |
| LegacyGui.DrawAllCons | gui/gui.py:787-796 | drawing the first scene in front of the rest keeps the shown flags, the grouping and each scene's effects |
| LegacyGui.DrawAll | gui/gui.py:787-796 | each scene shown iff active and the trace grouped by scene in queue order; it succeeds exactly when every scene can be drawn, and then scene k of the result and its effects are exactly scene k drawn on its own |
| LegacyGui.DrawScenes | gui/gui.py:787-796 | each frame every scene gets `show = (index == active)` and all are drawn in order; it succeeds exactly when every scene can be drawn, and then each scene of the result and its effects are that scene drawn on its own |
| LegacyGui.BackFromFirstHidesAll | gui/gui.py:677-684 | stepping back from the first scene routes input to the last scene while the frame shows none |
| LegacyGui.Run | gui/gui.py:690-701 | `run` raises before looping when there is no window or `initialize_events` was not called |
| LegacyGui.GetWindowSizeAsWritten | gui/gui.py:966-971 | the window size goes through `as_tuple`, so a width or height of 2 raises |
| LegacyGui.GetWindowSize | user_interface/ui.py:605-610 | the window size through `raw`, as the current generation does: always the pair |
| LegacyGui.NarrowWindowSize | gui/gui.py:966-971 | a window two pixels wide raises as written and is reported as (2, h) as intended |

## Left out

- Drawing is not modelled: imgui draw lists, `c_render`, fonts, images (`c_image`) and the widget draw bodies. A draw is recorded as an effect carrying the fade or colour it would use.
- Window, GLFW and OpenGL set-up and teardown are not modelled (`create_window`, the backend, `load_assets`, `maximize`, `exit`, unload). Their outcomes are parameters of `Ui.Initialize`. In `LegacyGui` they are the window and data-dict state fields.
- The `run` frame loop (polling, frames, buffer swaps) is not modelled. Only its precondition checks are.
- Ui.InitializeEvents: the source installs the eight GLFW callbacks on `_application` (user_interface/ui.py:306-313) before it writes the flag, and before `create_window` that handle is None. What GLFW does with it is outside the model; the model goes straight from the fresh events to the data-dict check.
- `LegacyGui.InitializeEvents`: before `create_window` the source hands a missing window to GLFW. What GLFW then does is outside the model. The model reports the missing data dict as AttributeError after replacing the events.
- The frame time that imgui supplies is a parameter. The frame-rate counter is left out.
- Coordinates, colours and weights are `real`. IEEE rounding is not modelled.
- The single-line text input is an empty stub in both generations and is not modelled. The same holds for `add_text_input`.
- `safe_call` (in sdk/safe.py and gui/gui_types.py) only catches exceptions. The model surfaces those exceptions as `Result.Err`.
- `color.__call__` (imgui colour packing) and the `__str__` methods are not modelled.
- Handlers are opaque ids and their side effects are not modelled. An application handler appears in the trace only as "called".
- Widgets.NumberArg, LegacyScene.OnMousePosition: a missing or non-number coordinate is modelled as TypeError. The source may fail inside the `is_in_bounds` comparisons with whatever Python raises for the value it received, but not always: the test returns False as soon as x is out of range, so a bad y next to an out-of-range x leaves the button not hovered instead of raising.
- LegacyScene.SetPosition: the source writes x and y into the button's vector object, which the caller may share. Aliasing is not modelled; the button gets the new coordinates.
- LegacyTypes.Add: the old `+` mutates the event and evaluates to None. The model returns the mutated event.
- Vectors.Arith: operands that are neither vectors nor numbers are one error case, not distinguished by Python type.
- The button press callback's own effects are not modelled. A fired callback appears in the trace as `Pressed`.

## Findings

| source | as written | input that shows it | evidently intended | confidence | as-written member | corrected member |
|---|---|---|---|---|---|---|
| user_interface/ui.py:260-274 | the active index is clamped into [0, len(scenes)] | one scene and `next_scene()`: the active index becomes 1 and `active_scene()` raises IndexError | clamp into [0, len(scenes) - 1] | not executed | Ui.ActivePastEnd | Ui.ActiveWithinAlwaysValid |
| gui/gui_types.py:227-239 | `as_tuple` reads z when 2 is an entry (`2 in vec`) | `(2, 5)` raises IndexError; `(1, 1, 5)` drops z | read z when the tuple has three entries, as the current `raw` does | not executed | LegacyTypes.AsTupleRaisesOnPairWithTwo | Vectors.UnpackRoundTrip |
| gui/gui.py:966-971 | the window size is converted with `as_tuple` | a window 2 pixels wide: `get_window_size()` raises IndexError | return the (width, height) pair | not executed | LegacyGui.NarrowWindowSize | LegacyGui.GetWindowSize |
| sdk/event.py:53-58 | `unset` deletes from `_event_function`, an attribute never assigned | `set(f, "h")` then `unset("h")` raises AttributeError | remove the handler from the registry and the call order | not executed | Events.UnsetNeverRemoves | Events.RemoveKeepsValid |
| user_interface/scene.py:251-259 | `element(i)` tests `i in self._ui`, membership among the elements | attach one button, `element(0)` returns None | return the element at an in-range index | not executed | Scenes.ElementAsWritten | Scenes.AttachThenElement |
| user_interface/animation.py:75-78 | the composite path calls `.linear` and discards its result | a cached vector (0,0,0), target (1,1,1), weight 1: the value stays (0,0,0) | store and return the interpolated value, as the older cache does | not executed | Animation.PreformVectorNeverMoves | Animation.PreformCompositeReaches |
| gui/gui.py:310-318 | `show()` with no argument returns the argument, None | `show(True)` then `show()` gives None | return the stored flag, as the current scene does | not executed | LegacyScene.ShowNeverReports | Scenes.IndexShowRoundTrip |

=== FILE: animation.dfy ===
/** The animation cache of the current generation (`c_animations` in
    user_interface/animation.py): named values, each prepared once and then
    advanced toward a target every frame by `MathOps.Linear`, scaled by the
    frame's interpolation factor. */
module Animation {
  import opened Wrappers
  import MathOps
  import Vectors
  import Colors

  /** A cached value: a number (`int` or `float`), a vector or a colour. */
  datatype Animated = Num(n: real) | Vec(v: Vectors.Vector) | Col(c: Colors.Color)

  datatype Animations = Animations(cache: map<string, Animated>, interpolation: real)

  /** The defaults of `preform`: speed 10 and hold 0.01. */
  const DefaultSpeed: real := 10.0
  const DefaultHold: real := 0.01

  /** A fresh handler: nothing cached, interpolation factor 0. */
  function New(): (a: Animations)
    ensures a.cache == map[] && a.interpolation == 0.0
  {
    Animations(map[], 0.0)
  }

  /** `interpolation(v)` stores the factor that `interpolation()` returns;
      `update()` does the same with the frame's delta time, which the model
      takes as this argument. */
  function SetInterpolation(a: Animations, factor: real): (r: Animations)
    ensures r.interpolation == factor && r.cache == a.cache
  {
    a.(interpolation := factor)
  }

  /** `value(k)`: the cached value; an unprepared key raises `KeyError`. */
  function Value(a: Animations, key: string): (r: Result<Animated>)
    ensures r.Ok? <==> key in a.cache
    ensures r.Ok? ==> r.value == a.cache[key]
    ensures r.Err? ==> r.error == KeyError(key)
  {
    if key in a.cache then Ok(a.cache[key]) else Err(KeyError(key))
  }

  /** `value(k, v)` with `v` not None: overwrite (or create) the entry. */
  function Store(a: Animations, key: string, v: Animated): (r: Animations)
    ensures Value(r, key) == Ok(v)
    ensures forall k :: k != key ==> Value(r, k) == Value(a, k)
    ensures r.interpolation == a.interpolation
  {
    a.(cache := a.cache[key := v])
  }

  /** `prepare(k, v)`: write only when the key is absent. */
  function Prepare(a: Animations, key: string, v: Animated): (r: Animations)
    ensures key in a.cache ==> r == a
    ensures key !in a.cache ==> r == Store(a, key, v)
  {
    if key in a.cache then a else Store(a, key, v)
  }

  /** A second `prepare` of the same key never replaces the first value. */
  lemma PrepareFirstWins(a: Animations, key: string, v1: Animated, v2: Animated)
    ensures Prepare(Prepare(a, key, v1), key, v2) == Prepare(a, key, v1)
    ensures key !in a.cache ==> Value(Prepare(Prepare(a, key, v1), key, v2), key) == Ok(v1)
  {
  }

  const BadComparand: string := "Invalid other data type. Must be vector / tuple"

  /** `math.linear(cached, target, ...)` for a number target and a cached value
      of any kind: a cached vector raises from `vector.__eq__`, a cached colour
      raises `TypeError` from `number - color`. */
  function LinearTo(cached: Animated, target: real, weight: real, hold: real): (r: Result<real>)
    ensures r.Ok? <==> cached.Num?
    ensures cached.Num? ==> r.value == MathOps.Linear(cached.n, target, weight, hold)
  {
    match cached
    case Num(n) => Ok(MathOps.Linear(n, target, weight, hold))
    case Vec(_) => Err(Raised(BadComparand))
    case Col(_) => Err(TypeError)
  }

  /** `preform(k, target, speed, hold)` as written.  A number target stores and
      returns `Linear(cached, target, speed * interpolation, hold)`.  Any other
      target calls `.linear` on the cached object and throws the result away:
      only a cached vector has that method (the colour's is spelled
      `lieaner`), and it needs a vector target; when it succeeds the cache is
      unchanged and the old value is returned.  An unprepared key raises. */
  function Preform(a: Animations, key: string, target: Animated, speed: real, hold: real): (r: Result<(Animations, Animated)>)
    ensures key !in a.cache ==> r == Err(KeyError(key))
    ensures key in a.cache && target.Num? ==>
      (r.Ok? <==> a.cache[key].Num?)
    ensures key in a.cache && target.Num? && a.cache[key].Num? ==>
      var n := MathOps.Linear(a.cache[key].n, target.n, speed * a.interpolation, hold);
      r == Ok((Store(a, key, Num(n)), Num(n)))
    ensures key in a.cache && !target.Num? ==>
      (r.Ok? <==> a.cache[key].Vec? && target.Vec?)
    ensures key in a.cache && !target.Num? && r.Ok? ==> r.value == (a, a.cache[key])
  {
    if key !in a.cache then Err(KeyError(key))
    else
      var cached := a.cache[key];
      match target
      case Num(t) =>
        (match LinearTo(cached, t, speed * a.interpolation, hold)
         case Err(e) => Err(e)
         case Ok(n) => Ok((Store(a, key, Num(n)), Num(n))))
      case _ =>
        if !cached.Vec? then Err(AttributeError("linear"))
        else if !target.Vec? then Err(AttributeError("x"))
        else
          // the interpolated vector is computed and discarded
          var _ := Vectors.Linear(cached.v, target.v, speed * a.interpolation, hold);
          Ok((a, cached))
  }

  /** Preforming toward the value already cached returns it unchanged and
      leaves the cache as it was. */
  lemma PreformConverged(a: Animations, key: string, v: real, speed: real, hold: real)
    requires Value(a, key) == Ok(Num(v))
    ensures Preform(a, key, Num(v), speed, hold) == Ok((a, Num(v)))
  {
    assert Store(a, key, Num(v)) == a;
  }

  /** Once the cached number is strictly within `hold` of the target, and the
      frame weight `speed * interpolation` is in [0, 1], one `preform` lands on
      the target exactly. */
  lemma PreformSnaps(a: Animations, key: string, current: real, target: real, speed: real, hold: real)
    requires Value(a, key) == Ok(Num(current))
    requires MathOps.Abs(current - target) < hold
    requires 0.0 <= speed * a.interpolation <= 1.0
    ensures Preform(a, key, Num(target), speed, hold).Ok?
    ensures Preform(a, key, Num(target), speed, hold).value.1 == Num(target)
  {
    MathOps.LinearSnapsWhenClose(current, target, speed * a.interpolation, hold);
  }

  /** A frame weight in [0, 1] never moves a cached number away from its target. */
  lemma PreformApproaches(a: Animations, key: string, current: real, target: real, speed: real, hold: real)
    requires Value(a, key) == Ok(Num(current))
    requires 0.0 <= speed * a.interpolation <= 1.0
    ensures Preform(a, key, Num(target), speed, hold).Ok?
    ensures var n := Preform(a, key, Num(target), speed, hold).value.1.n;
      MathOps.Abs(n - target) <= MathOps.Abs(current - target)
  {
    MathOps.LinearApproaches(current, target, speed * a.interpolation, hold);
  }

  /** A frame whose speed times interpolation is exactly 1 (the default
      speed 10 with a frame of 0.1, say) takes any cached number straight to
      its target, whatever the hold, and every later such call stays there. */
  lemma ConvergesInOneFrame(a: Animations, key: string, current: real, target: real, speed: real, hold: real)
    requires Value(a, key) == Ok(Num(current))
    requires speed * a.interpolation == 1.0
    ensures var r := Preform(a, key, Num(target), speed, hold);
      r.Ok? && r.value.1 == Num(target)
      && Preform(r.value.0, key, Num(target), speed, hold) == Ok((r.value.0, Num(target)))
  {
    MathOps.LinearFullWeight(current, target, hold);
    var n := MathOps.Linear(current, target, speed * a.interpolation, hold);
    assert n == target;
    var r := Preform(a, key, Num(target), speed, hold);
    assert r.Ok? && r.value.1 == Num(n);
    assert r == Ok((Store(a, key, Num(target)), Num(target)));
    PreformConverged(r.value.0, key, target, speed, hold);
  }

  /** The composite path as written: a cached vector never moves, whatever the
      target and weight. */
  lemma PreformVectorNeverMoves(v: Vectors.Vector, w: Vectors.Vector)
    requires v != w
    ensures var a := SetInterpolation(Prepare(New(), "p", Vec(v)), 0.1);
      Preform(a, "p", Vec(w), DefaultSpeed, DefaultHold) == Ok((a, Vec(v)))
  {
  }

  /** The composite path as evidently intended: the interpolated vector or
      colour is stored and returned, like the number path does. */
  function PreformComposite(a: Animations, key: string, target: Animated, speed: real, hold: real): (r: Result<(Animations, Animated)>)
    requires !target.Num?
    ensures key !in a.cache ==> r == Err(KeyError(key))
    ensures r.Ok? <==> key in a.cache && ((a.cache[key].Vec? && target.Vec?) || (a.cache[key].Col? && target.Col?))
    ensures r.Ok? ==> Value(r.value.0, key) == Ok(r.value.1)
    ensures r.Ok? ==> forall k :: k != key ==> Value(r.value.0, k) == Value(a, k)
    ensures r.Ok? && target.Vec? ==> r.value.1 == Vec(Vectors.Linear(a.cache[key].v, target.v, speed * a.interpolation, hold))
    ensures r.Ok? && target.Col? ==> r.value.1 == Col(Colors.Lieaner(a.cache[key].c, target.c, speed * a.interpolation, hold))
  {
    if key !in a.cache then Err(KeyError(key))
    else
      var cached := a.cache[key];
      var w := speed * a.interpolation;
      if cached.Vec? && target.Vec? then
        var n := Vec(Vectors.Linear(cached.v, target.v, w, hold));
        Ok((Store(a, key, n), n))
      else if cached.Col? && target.Col? then
        var n := Col(Colors.Lieaner(cached.c, target.c, w, hold));
        Ok((Store(a, key, n), n))
      else Err(AttributeError("linear"))
  }

  /** With the intended composite path a full-weight frame reaches the target
      vector, which the as-written path never does. */
  lemma PreformCompositeReaches(v: Vectors.Vector, w: Vectors.Vector)
    ensures var a := SetInterpolation(Prepare(New(), "p", Vec(v)), 0.1);
      PreformComposite(a, "p", Vec(w), DefaultSpeed, DefaultHold).Ok?
      && PreformComposite(a, "p", Vec(w), DefaultSpeed, DefaultHold).value.1 == Vec(w)
  {
    Vectors.LinearEnds(v, w, DefaultHold);
  }
}

=== FILE: color.dfy ===
/** The RGBA colour of the SDK (sdk/color.py).  Channels are nominally
    0..255; nothing in the source enforces that range, so neither does the
    model.  Packing into an imgui u32 is not modelled. */
module Colors {
  import MathOps

  datatype Color = Color(r: real, g: real, b: real, a: real)

  /** The default constructor `color()`: opaque white. */
  function White(): (c: Color)
    ensures c.r == 255.0 && c.g == 255.0 && c.b == 255.0 && c.a == 255.0
  {
    Color(255.0, 255.0, 255.0, 255.0)
  }

  /** `alpha_override`: the same colour with alpha replaced. */
  function AlphaOverride(c: Color, alpha: real): (r: Color)
    ensures r.r == c.r && r.g == c.g && r.b == c.b
    ensures r.a == alpha
  {
    c.(a := alpha)
  }

  /** `copy`: a new colour with identical channels. */
  function Copy(c: Color): (r: Color)
    ensures r == c
  {
    Color(c.r, c.g, c.b, c.a)
  }

  /** `lieaner` (the source's spelling; the class has no `linear`): each of the
      four channels goes through `MathOps.Linear` on its own. */
  function Lieaner(c: Color, other: Color, weight: real, hold: real): (r: Color)
    ensures r.r == MathOps.Linear(c.r, other.r, weight, hold)
    ensures r.g == MathOps.Linear(c.g, other.g, weight, hold)
    ensures r.b == MathOps.Linear(c.b, other.b, weight, hold)
    ensures r.a == MathOps.Linear(c.a, other.a, weight, hold)
  {
    Color(MathOps.Linear(c.r, other.r, weight, hold),
          MathOps.Linear(c.g, other.g, weight, hold),
          MathOps.Linear(c.b, other.b, weight, hold),
          MathOps.Linear(c.a, other.a, weight, hold))
  }

  /** `__mul__`: scales alpha only; red, green and blue are untouched. */
  function Mul(c: Color, k: real): (r: Color)
    ensures r.r == c.r && r.g == c.g && r.b == c.b
    ensures r.a == c.a * k
  {
    Color(c.r, c.g, c.b, c.a * k)
  }

  /** Scaling by one is the identity, and two scalings compose into one. */
  lemma MulComposes(c: Color, k1: real, k2: real)
    ensures Mul(c, 1.0) == c
    ensures Mul(Mul(c, k1), k2) == Mul(c, k1 * k2)
  {
    assert c.a * k1 * k2 == c.a * (k1 * k2);
  }

  /** Overriding alpha twice keeps only the second value, and overriding with
      the colour's own alpha changes nothing. */
  lemma AlphaOverrideLastWins(c: Color, a1: real, a2: real)
    ensures AlphaOverride(AlphaOverride(c, a1), a2) == AlphaOverride(c, a2)
    ensures AlphaOverride(c, c.a) == c
  {
  }

  /** A full weight reaches the other colour; a colour never drifts toward itself. */
  lemma LieanerEnds(c: Color, other: Color, hold: real)
    ensures Lieaner(c, other, 1.0, hold) == other
    ensures Lieaner(c, c, 0.5, hold) == c
  {
  }
}

=== FILE: event.dfy ===
/** The event bus (`c_event` in sdk/event.py, `event` in gui/gui_types.py):
    a registry of named handlers kept in first-registration order, plus a
    key/value data bag that a producer fills before invoking the handlers.

    Handlers are opaque values of the type parameter `H`; invoking the event
    yields the trace of calls it makes, each with the accessor it passes. */
module Events {
  import opened Wrappers

  /** A value stored in a data bag: a number, a handle to an outside object
      (a window), or the object that owns the event (a scene, the root). */
  datatype Datum = Num(n: real) | Handle(h: int) | Owner

  type Bag = map<string, Datum>

  /** One registration: the callable and whether it receives the accessor. */
  datatype Entry<H> = Entry(call: H, allowArgs: bool)

  /** `order` lists the registered names in first-registration order, the
      order in which a Python dict iterates its keys. */
  datatype Event<H> = Event(order: seq<string>, handlers: map<string, Entry<H>>, data: Bag)

  ghost predicate Distinct(s: seq<string>)
  {
    forall i, j :: 0 <= i < j < |s| ==> s[i] != s[j]
  }

  /** The registry is a dict: every registered name appears once in `order`. */
  ghost predicate Valid<H>(e: Event<H>)
  {
    && Distinct(e.order)
    && (forall n :: n in e.handlers <==> n in e.order)
  }

  /** A freshly constructed event: no handlers, an empty bag. */
  function New<H>(): (e: Event<H>)
    ensures Valid(e)
    ensures e.order == [] && e.data == map[]
  {
    Event([], map[], map[])
  }

  /** The accessor `__get` reading a bag: the stored value, or None for a key
      that was never set; it never fails. */
  function Lookup(bag: Bag, key: string): (r: Option<Datum>)
    ensures r.Some? <==> key in bag
    ensures r.Some? ==> r.value == bag[key]
  {
    if key in bag then Some(bag[key]) else None
  }

  function Get<H>(e: Event<H>, key: string): Option<Datum>
  {
    Lookup(e.data, key)
  }

  /** `event + (key, value)`: store one bag value, overwriting an earlier one;
      the handlers are untouched. */
  function Put<H>(e: Event<H>, key: string, value: Datum): (r: Event<H>)
    ensures r.order == e.order && r.handlers == e.handlers
    ensures Get(r, key) == Some(value)
    ensures forall k :: k != key ==> Get(r, k) == Get(e, k)
  {
    e.(data := e.data[key := value])
  }

  /** The value a sequence of fields leaves for `key`: the last one set. */
  function LastSet(fields: seq<(string, Datum)>, key: string): Option<Datum>
  {
    if fields == [] then None
    else if fields[|fields| - 1].0 == key then Some(fields[|fields| - 1].1)
    else LastSet(fields[..|fields| - 1], key)
  }

  /** A producer storing several fields, in order, before an invocation. */
  function PutAll<H>(e: Event<H>, fields: seq<(string, Datum)>): (r: Event<H>)
    ensures r.order == e.order && r.handlers == e.handlers
    ensures forall k :: Get(r, k) == (if LastSet(fields, k).Some? then LastSet(fields, k) else Get(e, k))
  {
    if fields == [] then e
    else
      var last := fields[|fields| - 1];
      Put(PutAll(e, fields[..|fields| - 1]), last.0, last.1)
  }

  /** `set(fn, name, allow_arguments)` (and the old `event + (fn, name, allow)`):
      register under `name`.  A name already present keeps its place in the
      order and gets the new callable and argument mode. */
  function Set<H>(e: Event<H>, fn: H, name: string, allowArgs: bool): (r: Event<H>)
    ensures Valid(e) ==> Valid(r)
    ensures r.data == e.data
    ensures name in e.handlers ==> r.order == e.order
    ensures name !in e.handlers ==> r.order == e.order + [name]
    ensures name in r.handlers && r.handlers[name] == Entry(fn, allowArgs)
    ensures forall n :: n != name ==> (n in r.handlers <==> n in e.handlers)
    ensures forall n :: n != name && n in e.handlers ==> r.handlers[n] == e.handlers[n]
  {
    var order := if name in e.handlers then e.order else e.order + [name];
    Event(order, e.handlers[name := Entry(fn, allowArgs)], e.data)
  }

  /** `unset(name)` as written: it deletes from `_event_function`, an attribute
      that is never assigned (the constructor assigns `_event_functions`), so
      it raises whatever the registry holds. */
  function Unset<H>(e: Event<H>, name: string): (r: Result<Event<H>>)
    ensures r.Err? && r.error.AttributeError?
  {
    Err(AttributeError("_event_function"))
  }

  /** Whatever the registry holds, `unset` leaves a registered handler in
      place (it raises), while the intended removal takes it out. */
  lemma UnsetNeverRemoves<H>(e: Event<H>, name: string)
    requires Valid(e) && name in e.handlers
    ensures Unset(e, name).Err?
    ensures Remove(e, name).Ok? && name !in Remove(e, name).value.handlers
  {
  }

  /** `order` with `x` taken out. */
  function Without(s: seq<string>, x: string): (r: seq<string>)
    ensures forall n :: n in r <==> n in s && n != x
  {
    if s == [] then []
    else if s[0] == x then Without(s[1..], x)
    else [s[0]] + Without(s[1..], x)
  }

  /** A name that is not in the list leaves it unchanged. */
  lemma {:induction false} WithoutAbsent(s: seq<string>, x: string)
    requires x !in s
    ensures Without(s, x) == s
    decreases |s|
  {
    if s != [] {
      assert s[1..] + [] == s[1..];
      WithoutAbsent(s[1..], x);
      assert [s[0]] + s[1..] == s;
    }
  }

  /** In a list without repetitions, taking out the name at position `k`
      removes exactly that position: the names before and after it keep
      their order. */
  lemma {:induction false} WithoutAt(s: seq<string>, k: int)
    requires Distinct(s) && 0 <= k < |s|
    ensures Without(s, s[k]) == s[..k] + s[k + 1..]
    decreases k
  {
    var x := s[k];
    assert Distinct(s[1..]) by {
      forall i, j | 0 <= i < j < |s[1..]|
        ensures s[1..][i] != s[1..][j]
      {
        assert s[1..][i] == s[i + 1] && s[1..][j] == s[j + 1];
      }
    }
    if k == 0 {
      assert x !in s[1..] by {
        forall j | 0 <= j < |s[1..]| ensures s[1..][j] != x {
          assert s[1..][j] == s[j + 1];
        }
      }
      WithoutAbsent(s[1..], x);
      assert s[..0] + s[1..] == s[1..];
    } else {
      assert s[0] != x;
      assert s[1..][k - 1] == x;
      WithoutAt(s[1..], k - 1);
      assert s[1..][..k - 1] == s[1..k];
      assert s[1..][k..] == s[k + 1..];
      assert [s[0]] + s[1..k] == s[..k];
    }
  }

  /** Taking a name out of a list without repetitions leaves none. */
  lemma {:induction false} WithoutDistinct(s: seq<string>, x: string)
    requires Distinct(s)
    ensures Distinct(Without(s, x))
  {
    if s != [] {
      assert Distinct(s[1..]) by {
        forall i, j | 0 <= i < j < |s[1..]|
          ensures s[1..][i] != s[1..][j]
        {
          assert s[1..][i] == s[i + 1] && s[1..][j] == s[j + 1];
        }
      }
      WithoutDistinct(s[1..], x);
      if s[0] != x {
        var rest := Without(s[1..], x);
        assert s[0] !in s[1..];
        assert s[0] !in rest;
        var r := [s[0]] + rest;
        forall i, j | 0 <= i < j < |r|
          ensures r[i] != r[j]
        {
          if i == 0 {
            assert r[j] == rest[j - 1];
            assert r[j] in rest;
          } else {
            assert r[i] == rest[i - 1] && r[j] == rest[j - 1];
          }
        }
      }
    }
  }

  /** Deleting a registration by name, as the old `event - name` does and as
      `unset` evidently intends: a missing name raises `KeyError`; otherwise
      the name leaves the registry, everything else keeps its order and the
      bag is untouched. */
  function Remove<H>(e: Event<H>, name: string): (r: Result<Event<H>>)
    ensures r.Ok? <==> name in e.handlers
    ensures r.Err? ==> r.error == KeyError(name)
    ensures r.Ok? ==> name !in r.value.handlers && name !in r.value.order
    ensures r.Ok? ==> r.value.data == e.data && r.value.order == Without(e.order, name)
    ensures r.Ok? ==> forall n :: n != name && n in e.handlers ==> n in r.value.handlers && r.value.handlers[n] == e.handlers[n]
  {
    if name !in e.handlers then Err(KeyError(name))
    else Ok(Event(Without(e.order, name), e.handlers - {name}, e.data))
  }

  /** Removing a registration keeps the registry a dict. */
  lemma RemoveKeepsValid<H>(e: Event<H>, name: string)
    requires Valid(e) && name in e.handlers
    ensures Remove(e, name).Ok? && Valid(Remove(e, name).value)
  {
    WithoutDistinct(e.order, name);
  }

  /** One handler call: the callable and, for a handler registered with
      `allow_args`, the accessor's bag (a handler without it gets no arguments). */
  datatype Call<H> = Call(handler: H, args: Option<Bag>)

  function CallOf<H>(e: Event<H>, name: string): Call<H>
    requires name in e.handlers
  {
    var en := e.handlers[name];
    Call(en.call, if en.allowArgs then Some(e.data) else None)
  }

  function InvokeNames<H>(e: Event<H>, names: seq<string>): (r: seq<Call<H>>)
    requires forall n :: n in names ==> n in e.handlers
    ensures |r| == |names|
    ensures forall i :: 0 <= i < |names| ==> r[i] == CallOf(e, names[i])
  {
    if names == [] then []
    else [CallOf(e, names[0])] + InvokeNames(e, names[1..])
  }

  /** `invoke()`: every registered handler called once, in first-registration
      order, with the accessor when it allows arguments and with nothing
      otherwise.  Invoking does not touch the bag. */
  function Invoke<H>(e: Event<H>): (r: seq<Call<H>>)
    requires Valid(e)
    ensures |r| == |e.order|
    ensures forall i :: 0 <= i < |r| ==> r[i].handler == e.handlers[e.order[i]].call
    ensures forall i :: 0 <= i < |r| ==> (r[i].args.Some? <==> e.handlers[e.order[i]].allowArgs)
    ensures forall i :: 0 <= i < |r| && r[i].args.Some? ==> r[i].args.value == e.data
  {
    InvokeNames(e, e.order)
  }

  /** `__call__`: calling the event object is the same as `invoke()`. */
  function Fire<H>(e: Event<H>): (r: seq<Call<H>>)
    requires Valid(e)
    ensures r == Invoke(e)
  {
    InvokeNames(e, e.order)
  }

  /** Invocation calls every registered handler, and nothing else. */
  lemma InvokeCovers<H>(e: Event<H>)
    requires Valid(e)
    ensures forall n :: n in e.handlers ==> CallOf(e, n) in Invoke(e)
    ensures forall i :: 0 <= i < |Invoke(e)| ==> e.order[i] in e.handlers && Invoke(e)[i] == CallOf(e, e.order[i])
  {
    forall n | n in e.handlers ensures CallOf(e, n) in Invoke(e) {
      var i :| 0 <= i < |e.order| && e.order[i] == n;
      assert Invoke(e)[i] == CallOf(e, n);
    }
  }

  /** Registering a new name adds exactly one call, at the end. */
  lemma {:induction false} SetNewAppends<H>(e: Event<H>, fn: H, name: string, allowArgs: bool)
    requires Valid(e) && name !in e.handlers
    ensures Invoke(Set(e, fn, name, allowArgs)) == Invoke(e) + [Call(fn, if allowArgs then Some(e.data) else None)]
  {
    var r := Set(e, fn, name, allowArgs);
    var lhs := Invoke(r);
    var rhs := Invoke(e) + [Call(fn, if allowArgs then Some(e.data) else None)];
    assert |lhs| == |rhs|;
    forall i | 0 <= i < |lhs|
      ensures lhs[i] == rhs[i]
    {
      if i < |e.order| {
        assert e.order[i] in e.handlers;
        assert e.order[i] != name;
        assert CallOf(r, r.order[i]) == CallOf(e, e.order[i]);
      }
    }
  }

  /** Re-registering a name replaces that one call in place; every other call
      and the number of calls stay the same. */
  lemma {:induction false} SetExistingReplaces<H>(e: Event<H>, fn: H, name: string, allowArgs: bool, i: int)
    requires Valid(e) && name in e.handlers
    requires 0 <= i < |e.order|
    ensures |Invoke(Set(e, fn, name, allowArgs))| == |Invoke(e)|
    ensures e.order[i] == name ==> Invoke(Set(e, fn, name, allowArgs))[i] == Call(fn, if allowArgs then Some(e.data) else None)
    ensures e.order[i] != name ==> Invoke(Set(e, fn, name, allowArgs))[i] == Invoke(e)[i]
  {
    var r := Set(e, fn, name, allowArgs);
    assert e.order[i] in e.handlers;
    assert r.order[i] == e.order[i];
    assert Invoke(r)[i] == CallOf(r, e.order[i]);
  }

  /** Values stay in the bag after an invocation: a value stored once is what
      every accessor of this and any later invocation reads, until the same key
      is stored again. */
  lemma BagPersists<H>(e: Event<H>, key: string, v: Datum, other: string, w: Datum)
    requires Valid(e) && other != key
    ensures var e1 := Put(e, key, v);
      forall c :: c in Invoke(e1) && c.args.Some? ==> Lookup(c.args.value, key) == Some(v)
    ensures var e2 := Put(Put(e, key, v), other, w);
      forall c :: c in Invoke(e2) && c.args.Some? ==> Lookup(c.args.value, key) == Some(v)
  {
    var e1 := Put(e, key, v);
    forall c | c in Invoke(e1) && c.args.Some?
      ensures Lookup(c.args.value, key) == Some(v)
    {
      var i :| 0 <= i < |Invoke(e1)| && Invoke(e1)[i] == c;
    }
    var e2 := Put(e1, other, w);
    forall c | c in Invoke(e2) && c.args.Some?
      ensures Lookup(c.args.value, key) == Some(v)
    {
      var i :| 0 <= i < |Invoke(e2)| && Invoke(e2)[i] == c;
    }
  }
}

=== FILE: legacy_animation.dfy ===
/** The older generation's animation cache (`c_animations` in
    gui/gui_render.py).  It keeps the same state as the current one
    (`Animation.Animations`): `update(v)` is `Animation.SetInterpolation`,
    `value` is `Animation.Value`/`Animation.Store` and `cache` is
    `Animation.Prepare`.  Only `preform` differs: its composite path stores
    the interpolated vector or colour. */
module LegacyAnimation {
  import opened Wrappers
  import MathOps
  import Vectors
  import Colors
  import Animation

  /** The old `preform`.  A number target behaves as in the current
      generation.  Any other target calls `.lerp` on the cached value (only
      vectors and colours have it) and both stores and returns the result;
      the target must be of the same kind, else reading its first field
      raises. */
  function Preform(a: Animation.Animations, key: string, target: Animation.Animated, speed: real, hold: real): (r: Result<(Animation.Animations, Animation.Animated)>)
    ensures key !in a.cache ==> r == Err(KeyError(key))
    ensures target.Num? ==> r == Animation.Preform(a, key, target, speed, hold)
    ensures !target.Num? ==>
      (r.Ok? <==> key in a.cache && ((a.cache[key].Vec? && target.Vec?) || (a.cache[key].Col? && target.Col?)))
    ensures r.Ok? && target.Vec? ==>
      r.value.1 == Animation.Vec(Vectors.Linear(a.cache[key].v, target.v, speed * a.interpolation, hold))
    ensures r.Ok? && target.Col? ==>
      r.value.1 == Animation.Col(Colors.Lieaner(a.cache[key].c, target.c, speed * a.interpolation, hold))
    ensures r.Ok? ==> Animation.Value(r.value.0, key) == Ok(r.value.1)
    ensures r.Ok? ==> forall k :: k != key ==> Animation.Value(r.value.0, k) == Animation.Value(a, k)
    ensures r.Ok? ==> r.value.0.interpolation == a.interpolation
  {
    if key !in a.cache then Err(KeyError(key))
    else
      var cached := a.cache[key];
      var w := speed * a.interpolation;
      match target
      case Num(_) =>
        // the scalar path is the same code in both generations
        Animation.Preform(a, key, target, speed, hold)
      case Vec(t) =>
        (match cached
         case Vec(v) =>
           var n := Animation.Vec(Vectors.Linear(v, t, w, hold));
           Ok((Animation.Store(a, key, n), n))
         case Col(_) => Err(AttributeError("r"))
         case Num(_) => Err(AttributeError("lerp")))
      case Col(t) =>
        (match cached
         case Col(c) =>
           var n := Animation.Col(Colors.Lieaner(c, t, w, hold));
           Ok((Animation.Store(a, key, n), n))
         case Vec(_) => Err(AttributeError("x"))
         case Num(_) => Err(AttributeError("lerp")))
  }

  /** The old composite path is the composite path the current generation
      evidently intends: both succeed on the same inputs and then agree. */
  lemma CompositeAsIntended(a: Animation.Animations, key: string, target: Animation.Animated, speed: real, hold: real)
    requires !target.Num?
    ensures Preform(a, key, target, speed, hold).Ok? <==> Animation.PreformComposite(a, key, target, speed, hold).Ok?
    ensures Preform(a, key, target, speed, hold).Ok? ==>
      Preform(a, key, target, speed, hold) == Animation.PreformComposite(a, key, target, speed, hold)
  {
  }

  /** The two generations part ways on a cached vector: with a full-weight
      frame the old cache lands on the target, the current one stays put. */
  lemma GenerationsDiverge(v: Vectors.Vector, w: Vectors.Vector)
    requires v != w
    ensures var a := Animation.SetInterpolation(Animation.Prepare(Animation.New(), "p", Animation.Vec(v)), 0.1);
      && Preform(a, "p", Animation.Vec(w), Animation.DefaultSpeed, Animation.DefaultHold).Ok?
      && Preform(a, "p", Animation.Vec(w), Animation.DefaultSpeed, Animation.DefaultHold).value.1 == Animation.Vec(w)
      && Animation.Preform(a, "p", Animation.Vec(w), Animation.DefaultSpeed, Animation.DefaultHold).value.1 == Animation.Vec(v)
  {
    Vectors.LinearEnds(v, w, Animation.DefaultHold);
    Animation.PreformVectorNeverMoves(v, w);
  }

  /** A cached colour at its target stays there frame after frame. */
  lemma PreformColorSettled(a: Animation.Animations, key: string, c: Colors.Color, speed: real, hold: real)
    requires Animation.Value(a, key) == Ok(Animation.Col(c))
    ensures Preform(a, key, Animation.Col(c), speed, hold) == Ok((a, Animation.Col(c)))
  {
    Colors.LieanerEnds(c, c, hold);
    assert Colors.Lieaner(c, c, speed * a.interpolation, hold) == c;
    assert Animation.Store(a, key, Animation.Col(c)) == a;
  }
}

=== FILE: legacy_gui.dfy ===
/** The older generation's application root (`c_gui` in gui/gui.py): a
    queue of scenes with an unchecked active index, eleven application
    events that exist only once `initialize_events` has run, the per-frame
    scene pass and the checks `run` makes before its loop.  Window creation
    is GLFW and OpenGL work and is not modelled: the window handle and the
    presence of the shared data dict are state fields. */
module LegacyGui {
  import opened Wrappers
  import Vectors
  import Events
  import LegacyTypes
  import LegacyScene
  import Ui
  import MathOps
  import Animation

  /** The application events `initialize_events` creates, and their keys. */
  datatype Kind =
    | PreDraw | PostDraw | Unload
    | Keyboard | CharInput | MousePos | MouseButtons | MouseScroll
    | WindowSize | WindowPos | WindowMax

  function KindName(k: Kind): string
  {
    match k
    case PreDraw => "pre_draw"
    case PostDraw => "post_draw"
    case Unload => "unload"
    case Keyboard => "keyboard"
    case CharInput => "char_input"
    case MousePos => "mouse_pos"
    case MouseButtons => "mouse_buttons"
    case MouseScroll => "mouse_scroll"
    case WindowSize => "window_size"
    case WindowPos => "window_pos"
    case WindowMax => "window_max"
  }

  function KindOf(name: string): (r: Option<Kind>)
    ensures r.Some? ==> KindName(r.value) == name
  {
    if name == "pre_draw" then Some(PreDraw)
    else if name == "post_draw" then Some(PostDraw)
    else if name == "unload" then Some(Unload)
    else if name == "keyboard" then Some(Keyboard)
    else if name == "char_input" then Some(CharInput)
    else if name == "mouse_pos" then Some(MousePos)
    else if name == "mouse_buttons" then Some(MouseButtons)
    else if name == "mouse_scroll" then Some(MouseScroll)
    else if name == "window_size" then Some(WindowSize)
    else if name == "window_pos" then Some(WindowPos)
    else if name == "window_max" then Some(WindowMax)
    else None
  }

  /** Every event's key selects it. */
  lemma KindNameRoundTrip(k: Kind)
    ensures KindOf(KindName(k)) == Some(k)
  {
  }

  type GuiEvents = map<Kind, Events.Event<nat>>

  /** `_application`, whether `_data` exists, whether it records that events
      were initialised, the scene queue, the active index, `_last_error` and
      the events dict (empty until `initialize_events`). */
  datatype Gui = Gui(window: Option<int>, hasData: bool, eventsInitialized: bool,
                     scenes: seq<LegacyScene.Scene>, active: int, lastError: string, events: GuiEvents)

  /** Every scene is valid and stores its position as its index. */
  ghost predicate Numbered(scenes: seq<LegacyScene.Scene>)
  {
    forall k :: 0 <= k < |scenes| ==> LegacyScene.Valid(scenes[k]) && scenes[k].index == k
  }

  /** All eleven application events exist. */
  ghost predicate AllEvents(m: GuiEvents)
  {
    forall k: Kind :: k in m
  }

  /** The scenes are numbered, every event present is a dict registry, a
      window implies the data dict (`create_window` makes it first), and the
      initialised flag implies the data dict and all events. */
  ghost predicate Valid(g: Gui)
  {
    && Numbered(g.scenes)
    && (forall k :: k in g.events ==> Events.Valid(g.events[k]))
    && (g.window.Some? ==> g.hasData)
    && (g.eventsInitialized ==> g.hasData && AllEvents(g.events))
  }

  /** The constructor: no window, no data dict, no scenes, active index 0,
      no error and an empty events dict. */
  function New(): (g: Gui)
    ensures Valid(g)
    ensures g.window.None? && !g.hasData && !g.eventsInitialized
    ensures g.scenes == [] && g.active == 0 && g.lastError == "" && g.events == map[]
  {
    Gui(None, false, false, [], 0, "", map[])
  }

  // ---------------------------------------------------------------------
  // Scenes

  /** `create_scene`: append a new scene and number it with its position
      (`list.index` finds the fresh object at the end). */
  function CreateScene(g: Gui): (r: (Gui, nat))
    requires Valid(g)
    ensures Valid(r.0)
    ensures r.1 == |g.scenes| && |r.0.scenes| == |g.scenes| + 1
    ensures r.0.scenes[..|g.scenes|] == g.scenes
    ensures r.0.scenes[r.1] == LegacyScene.New().(index := r.1)
    ensures r.0 == g.(scenes := r.0.scenes)
  {
    var s := LegacyScene.Index(LegacyScene.New(), Some(|g.scenes|)).0;
    (g.(scenes := g.scenes + [s]), |g.scenes|)
  }

  /** The k-th scene created, counting from 0, has index k. */
  lemma CreatedScenesNumbered(g: Gui)
    requires Valid(g) && g.scenes == []
    ensures var (g1, i) := CreateScene(g);
      var (g2, j) := CreateScene(g1);
      i == 0 && j == 1 && g2.scenes[0].index == 0 && g2.scenes[1].index == 1
  {
  }

  /** `active_scene()`: `scenes[active]` with Python indexing, so a negative
      index counts from the end and anything else out of range raises. */
  function ActiveScene(g: Gui): (r: Result<LegacyScene.Scene>)
    ensures r.Ok? <==> -|g.scenes| <= g.active < |g.scenes|
    ensures 0 <= g.active < |g.scenes| ==> r == Ok(g.scenes[g.active])
    ensures -|g.scenes| <= g.active < 0 ==> r == Ok(g.scenes[|g.scenes| + g.active])
  {
    PyIndex(g.scenes, g.active)
  }

  /** `next_scene`: one up, with no bounds check. */
  function NextScene(g: Gui): (r: Gui)
    ensures r.active == g.active + 1 && r == g.(active := r.active)
  {
    g.(active := g.active + 1)
  }

  /** `previous_scene`: one down, with no bounds check. */
  function PreviousScene(g: Gui): (r: Gui)
    ensures r.active == g.active - 1 && r == g.(active := r.active)
  {
    g.(active := g.active - 1)
  }

  /** Stepping is unbounded: next then previous is the identity, stepping
      past the last scene makes `active_scene()` raise, and stepping back from
      the first scene selects the last one through the negative index. */
  lemma SteppingUnbounded(g: Gui)
    requires |g.scenes| > 0
    ensures PreviousScene(NextScene(g)) == g && NextScene(PreviousScene(g)) == g
    ensures g.active == |g.scenes| - 1 ==> ActiveScene(NextScene(g)) == Err(IndexError)
    ensures g.active == 0 ==> ActiveScene(PreviousScene(g)) == Ok(g.scenes[|g.scenes| - 1])
  {
  }

  // ---------------------------------------------------------------------
  // Events

  function FreshEvents(): (m: GuiEvents)
    ensures AllEvents(m)
    ensures forall k: Kind :: Events.Valid(m[k]) && m[k].order == [] && m[k].data == map[]
  {
    var e := Events.New<nat>();
    var m := map[PreDraw := e, PostDraw := e, Unload := e, Keyboard := e, CharInput := e, MousePos := e,
                 MouseButtons := e, MouseScroll := e, WindowSize := e, WindowPos := e, WindowMax := e];
    EveryKind(m, e);
    m
  }

  /** A map that binds every one of the eleven kinds to `v`. */
  lemma EveryKind<V>(m: map<Kind, V>, v: V)
    requires m == map[PreDraw := v, PostDraw := v, Unload := v, Keyboard := v, CharInput := v, MousePos := v,
                      MouseButtons := v, MouseScroll := v, WindowSize := v, WindowPos := v, WindowMax := v]
    ensures forall k: Kind :: k in m && m[k] == v
  {
    forall k: Kind ensures k in m && m[k] == v {
      match k
      case PreDraw =>
      case PostDraw =>
      case Unload =>
      case Keyboard =>
      case CharInput =>
      case MousePos =>
      case MouseButtons =>
      case MouseScroll =>
      case WindowSize =>
      case WindowPos =>
      case WindowMax =>
    }
  }

  /** `initialize_events`: every event is (re)created empty, the GLFW
      callbacks are installed (not modelled), and the flag is written into
      the data dict, which raises `AttributeError` when `create_window` never
      made one; the events are replaced even then. */
  function InitializeEvents(g: Gui): (r: (Gui, Option<Error>))
    requires Valid(g)
    ensures Valid(r.0) && r.0.events == FreshEvents()
    ensures r.1.None? <==> g.hasData
    ensures r.1.Some? ==> r.1.value == AttributeError("_data")
    ensures r.0.eventsInitialized == (g.hasData || g.eventsInitialized)
    ensures r.0 == g.(events := FreshEvents(), eventsInitialized := r.0.eventsInitialized)
  {
    var g1 := g.(events := FreshEvents());
    if g.hasData then (g1.(eventsInitialized := true), None)
    else (g1, Some(AttributeError("_data")))
  }

  /** `register_event`: the event is looked up by key, so a name that is
      not an event, or any name before `initialize_events`, raises `KeyError`. */
  function RegisterEvent(g: Gui, event: string, fn: nat, name: string): (r: Result<Gui>)
    requires Valid(g)
    ensures r.Ok? <==> KindOf(event).Some? && KindOf(event).value in g.events
    ensures r.Err? ==> r.error == KeyError(event)
    ensures r.Ok? ==> Valid(r.value)
    ensures r.Ok? ==> var k := KindOf(event).value;
      r.value == g.(events := g.events[k := Events.Set(g.events[k], fn, name, true)])
  {
    match KindOf(event)
    case None => Err(KeyError(event))
    case Some(k) =>
      if k !in g.events then Err(KeyError(event))
      else Ok(g.(events := g.events[k := Events.Set(g.events[k], fn, name, true)]))
  }

  /** Calling `initialize_events` again drops every handler registered so far. */
  lemma ReinitializeDropsHandlers(g: Gui, fn: nat, name: string)
    requires Valid(g) && g.eventsInitialized
    ensures RegisterEvent(g, "keyboard", fn, name).Ok?
    ensures var g1 := RegisterEvent(g, "keyboard", fn, name).value;
      Events.Invoke(InitializeEvents(g1).0.events[Keyboard]) == []
  {
    assert KindOf("keyboard") == Some(Keyboard);
  }

  // ---------------------------------------------------------------------
  // Input

  /** The application event an input goes to. */
  function InputKind(i: Ui.Input): Kind
  {
    match i
    case Key(_, _, _, _, _) => Keyboard
    case Char(_, _) => CharInput
    case CursorPos(_, _, _) => MousePos
    case MouseButton(_, _, _, _) => MouseButtons
    case Scroll(_, _, _) => MouseScroll
    case Resize(_, _, _) => WindowSize
    case Moved(_, _, _) => WindowPos
    case Maximize(_, _) => WindowMax
  }

  /** The forwarding half of an input callback: `active_scene()` (which may
      raise, or pick a scene through a negative index) handles the input. */
  function ForwardToScene(g: Gui, i: Ui.Input): (r: Result<(seq<LegacyScene.Scene>, seq<Ui.RootEffect<LegacyScene.Effect>>)>)
    requires Valid(g) && Ui.Forwarded(i)
    ensures ActiveScene(g).Err? ==> r == Err(IndexError)
    ensures r.Ok? <==>
      PyPosition(|g.scenes|, g.active).Some?
      && LegacyScene.HandleInput(g.scenes[PyPosition(|g.scenes|, g.active).value], i).Ok?
    ensures r.Ok? ==> Numbered(r.value.0) && |r.value.0| == |g.scenes|
    ensures r.Ok? ==>
      var p := PyPosition(|g.scenes|, g.active);
      p.Some? && LegacyScene.HandleInput(g.scenes[p.value], i).Ok?
      && r.value.0 == g.scenes[p.value := LegacyScene.HandleInput(g.scenes[p.value], i).value.0]
      && r.value.1 == Ui.Lift(p.value, LegacyScene.HandleInput(g.scenes[p.value], i).value.1)
  {
    match PyPosition(|g.scenes|, g.active)
    case None => Err(IndexError)
    case Some(p) =>
      match LegacyScene.HandleInput(g.scenes[p], i)
      case Err(e) => Err(e)
      case Ok((s1, effs)) => Ok((g.scenes[p := s1], Ui.Lift(p, effs)))
  }

  /** The application half: the input's fields stored in its event, then one
      call per handler in registration order. */
  function AppTrace(g: Gui, i: Ui.Input): seq<Ui.RootEffect<LegacyScene.Effect>>
    requires Valid(g) && AllEvents(g.events)
  {
    Ui.AppEffects(Events.Invoke(Ui.Fill(g.events[InputKind(i)], i)))
  }

  /** The GLFW callbacks `initialize_events` installs.  Keyboard, char,
      cursor, mouse-button and scroll input go to the active scene first;
      then the application event is filled and invoked.  The window
      callbacks only fill and invoke their event. */
  function HandleInput(g: Gui, i: Ui.Input): (r: Result<(Gui, seq<Ui.RootEffect<LegacyScene.Effect>>)>)
    requires Valid(g) && AllEvents(g.events)
    ensures r.Ok? ==> Valid(r.value.0) && AllEvents(r.value.0.events)
    ensures r.Ok? ==> r.value.0.active == g.active && |r.value.0.scenes| == |g.scenes|
    ensures Ui.Forwarded(i) && ActiveScene(g).Err? ==> r == Err(IndexError)
    ensures !Ui.Forwarded(i) ==> r.Ok? && r.value.0.scenes == g.scenes && r.value.1 == AppTrace(g, i)
    ensures Ui.Forwarded(i) && r.Ok? ==>
      ForwardToScene(g, i).Ok?
      && r.value.0.scenes == ForwardToScene(g, i).value.0
      && r.value.1 == ForwardToScene(g, i).value.1 + AppTrace(g, i)
    ensures Ui.Forwarded(i) ==> (r.Ok? <==> ForwardToScene(g, i).Ok?)
    ensures (&& Ui.Forwarded(i) && PyPosition(|g.scenes|, g.active).Some?
             && LegacyScene.AppOnly(g.scenes[PyPosition(|g.scenes|, g.active).value].events[LegacyScene.InputKind(i)]))
            ==> r.Ok?
    ensures r.Ok? ==> r.value.0 == g.(scenes := r.value.0.scenes,
                                      events := g.events[InputKind(i) := Ui.Fill(g.events[InputKind(i)], i)])
  {
    var k := InputKind(i);
    var ev := Ui.Fill(g.events[k], i);
    var events := g.events[k := ev];
    assert AllEvents(events) && forall j :: j in events ==> Events.Valid(events[j]);
    if !Ui.Forwarded(i) then
      Ok((g.(events := events), AppTrace(g, i)))
    else
      match ForwardToScene(g, i)
      case Err(e) => Err(e)
      case Ok((scenes, pre)) => Ok((g.(scenes := scenes, events := events), pre + AppTrace(g, i)))
  }

  /** A forwarded input's trace: everything the active scene did comes
      first, then the application handlers, and every scene effect belongs
      to the scene `active_scene()` selected (a negative index counting from
      the end). */
  lemma SceneBeforeApp(g: Gui, i: Ui.Input)
    requires Valid(g) && AllEvents(g.events) && Ui.Forwarded(i)
    ensures HandleInput(g, i).Ok? ==>
      && PyPosition(|g.scenes|, g.active).Some?
      && Ui.SceneThenApp(HandleInput(g, i).value.1, PyPosition(|g.scenes|, g.active).value)
  {
    if HandleInput(g, i).Ok? {
      var p := PyPosition(|g.scenes|, g.active).value;
      var step := LegacyScene.HandleInput(g.scenes[p], i);
      Ui.LiftThenApp(p, step.value.1, Events.Invoke(Ui.Fill(g.events[InputKind(i)], i)));
    }
  }

  // ---------------------------------------------------------------------
  // Frame

  /** `after` is `before` with every scene still valid and numbered alike,
      and shown exactly when its index is the active one. */
  ghost predicate ShownIfActive(before: seq<LegacyScene.Scene>, after: seq<LegacyScene.Scene>, active: int)
  {
    && |after| == |before|
    && forall k :: 0 <= k < |before| ==>
      LegacyScene.Valid(after[k]) && after[k].index == before[k].index && after[k].show == (before[k].index == active)
  }

  lemma ShownIfActivePrepend(before: seq<LegacyScene.Scene>, s1: LegacyScene.Scene, rest: seq<LegacyScene.Scene>, active: int)
    requires before != []
    requires LegacyScene.Valid(s1) && s1.index == before[0].index && s1.show == (before[0].index == active)
    requires ShownIfActive(before[1..], rest, active)
    ensures ShownIfActive(before, [s1] + rest, active)
  {
    var after := [s1] + rest;
    forall k | 0 <= k < |before|
      ensures LegacyScene.Valid(after[k]) && after[k].index == before[k].index && after[k].show == (before[k].index == active)
    {
      if k > 0 {
        assert after[k] == rest[k - 1] && before[k] == before[1..][k - 1];
      }
    }
  }

  /** One scene of the frame: shown exactly when its index is the active
      one, then drawn. */
  function DrawOne(s: LegacyScene.Scene, active: int, dt: real): (r: Result<(LegacyScene.Scene, seq<LegacyScene.Effect>)>)
    requires LegacyScene.Valid(s)
    ensures r.Ok? ==> LegacyScene.Valid(r.value.0) && r.value.0.index == s.index && r.value.0.show == (s.index == active)
    ensures LegacyScene.Ready(s) && LegacyScene.AppOnly(s.events[LegacyScene.Draw]) ==> r.Ok?
  {
    LegacyScene.SceneDraw(LegacyScene.Show(s, Some(s.index == active)).0, dt)
  }

  /** What drawing one scene of the frame does: its fade steps toward 1
      when it is the active one and toward 0 otherwise, and its trace is one
      draw per button in creation order at that fade, then the application
      calls of its draw event with the scene stored. */
  lemma DrawOneFades(s: LegacyScene.Scene, active: int, dt: real)
    requires LegacyScene.Valid(s) && DrawOne(s, active, dt).Ok?
    ensures LegacyScene.Ready(s)
    ensures var r := DrawOne(s, active, dt).value;
      var fade := MathOps.Linear(s.anim.cache[LegacyScene.Fade].n, LegacyScene.FadeTarget(s.index == active),
                                 LegacyScene.FadeSpeed * dt, Animation.DefaultHold);
      && Animation.Value(r.0.anim, LegacyScene.Fade) == Ok(Animation.Num(fade))
      && r.1 == LegacyScene.DrawTrace(s.ids, fade)
                + LegacyScene.AppCalls(Events.Invoke(Events.Put(s.events[LegacyScene.Draw], "scene", Events.Owner)))
  {
  }

  /** One scene's buttons after its frame: as their draws left them, up to
      the hover flags a position handler on the draw event sets. */
  lemma DrawOneButtons(s: LegacyScene.Scene, active: int, dt: real)
    requires LegacyScene.Valid(s) && DrawOne(s, active, dt).Ok?
    ensures LegacyScene.HoverOnly(LegacyScene.DrawnButtons(s, dt), DrawOne(s, active, dt).value.0.buttons)
    ensures LegacyScene.NoPositionHandler(s.events[LegacyScene.Draw]) ==>
      DrawOne(s, active, dt).value.0.buttons == LegacyScene.DrawnButtons(s, dt)
  {
  }

  /** Every scene of the list can be drawn. */
  ghost predicate AllDrawable(scenes: seq<LegacyScene.Scene>, active: int, dt: real)
    requires forall k :: 0 <= k < |scenes| ==> LegacyScene.Valid(scenes[k])
  {
    forall k :: 0 <= k < |scenes| ==> DrawOne(scenes[k], active, dt).Ok?
  }

  lemma AllDrawableSplit(scenes: seq<LegacyScene.Scene>, active: int, dt: real)
    requires scenes != [] && forall k :: 0 <= k < |scenes| ==> LegacyScene.Valid(scenes[k])
    ensures AllDrawable(scenes, active, dt) <==> DrawOne(scenes[0], active, dt).Ok? && AllDrawable(scenes[1..], active, dt)
  {
    assert forall k :: 1 <= k < |scenes| ==> scenes[1..][k - 1] == scenes[k];
  }

  /** What each scene of the list gives when drawn on its own. */
  function DrawOuts(scenes: seq<LegacyScene.Scene>, active: int, dt: real): (r: seq<(LegacyScene.Scene, seq<LegacyScene.Effect>)>)
    requires forall k :: 0 <= k < |scenes| ==> LegacyScene.Valid(scenes[k])
    requires AllDrawable(scenes, active, dt)
    ensures |r| == |scenes|
    ensures forall k :: 0 <= k < |scenes| ==> r[k] == DrawOne(scenes[k], active, dt).value
  {
    seq(|scenes|, k requires 0 <= k < |scenes| => DrawOne(scenes[k], active, dt).value)
  }

  lemma DrawOutsShift(scenes: seq<LegacyScene.Scene>, active: int, dt: real, k: nat)
    requires 1 <= k < |scenes| && forall k :: 0 <= k < |scenes| ==> LegacyScene.Valid(scenes[k])
    requires AllDrawable(scenes, active, dt) && AllDrawable(scenes[1..], active, dt)
    ensures DrawOuts(scenes, active, dt)[k] == DrawOuts(scenes[1..], active, dt)[k - 1]
  {
    assert scenes[1..][k - 1] == scenes[k];
  }

  lemma DrawOutsCons(scenes: seq<LegacyScene.Scene>, active: int, dt: real)
    requires scenes != [] && forall k :: 0 <= k < |scenes| ==> LegacyScene.Valid(scenes[k])
    requires AllDrawable(scenes, active, dt)
    ensures AllDrawable(scenes[1..], active, dt)
    ensures DrawOuts(scenes, active, dt) == [DrawOne(scenes[0], active, dt).value] + DrawOuts(scenes[1..], active, dt)
  {
    AllDrawableSplit(scenes, active, dt);
    var a := DrawOuts(scenes, active, dt);
    var rest := DrawOuts(scenes[1..], active, dt);
    forall k | 1 <= k < |a| ensures a[k] == rest[k - 1] {
      DrawOutsShift(scenes, active, dt, k);
    }
    Ui.ShiftByOne(a, DrawOne(scenes[0], active, dt).value, rest);
  }

  /** Each scene in list order: `show` set to whether its index is the
      active one, then drawn; `start` is the position of `scenes[0]`. */
  function DrawAll(scenes: seq<LegacyScene.Scene>, start: nat, active: int, dt: real): (r: Result<(seq<LegacyScene.Scene>, seq<Ui.RootEffect<LegacyScene.Effect>>)>)
    requires forall k :: 0 <= k < |scenes| ==> LegacyScene.Valid(scenes[k])
    ensures r.Ok? ==> ShownIfActive(scenes, r.value.0, active)
    ensures r.Ok? ==> Ui.Grouped(r.value.1, start, start + |scenes|)
    ensures r.Ok? <==> AllDrawable(scenes, active, dt)
    ensures r.Ok? ==> Ui.Attributed(DrawOuts(scenes, active, dt), start, r.value.0, r.value.1)
    decreases |scenes|
  {
    if scenes == [] then Ok(([], []))
    else
      AllDrawableSplit(scenes, active, dt);
      match DrawOne(scenes[0], active, dt)
      case Err(e) => Err(e)
      case Ok((s1, effs)) =>
        match DrawAll(scenes[1..], start + 1, active, dt)
        case Err(e) => Err(e)
        case Ok((rest, restEffs)) =>
          DrawAllCons(scenes, start, active, dt, s1, effs, rest, restEffs);
          Ok(([s1] + rest, Ui.Lift(start, effs) + restEffs))
  }

  /** The first scene drawn, put in front of the rest of the list drawn,
      keeps every property of the drawn list. */
  lemma DrawAllCons(scenes: seq<LegacyScene.Scene>, start: nat, active: int, dt: real,
                    s1: LegacyScene.Scene, effs: seq<LegacyScene.Effect>,
                    rest: seq<LegacyScene.Scene>, restEffs: seq<Ui.RootEffect<LegacyScene.Effect>>)
    requires scenes != [] && forall k :: 0 <= k < |scenes| ==> LegacyScene.Valid(scenes[k])
    requires AllDrawable(scenes, active, dt) && DrawOne(scenes[0], active, dt) == Ok((s1, effs))
    requires ShownIfActive(scenes[1..], rest, active) && Ui.Grouped(restEffs, start + 1, start + |scenes|)
    requires AllDrawable(scenes[1..], active, dt)
    requires Ui.Attributed(DrawOuts(scenes[1..], active, dt), start + 1, rest, restEffs)
    ensures ShownIfActive(scenes, [s1] + rest, active)
    ensures Ui.Grouped(Ui.Lift(start, effs) + restEffs, start, start + |scenes|)
    ensures Ui.Attributed(DrawOuts(scenes, active, dt), start, [s1] + rest, Ui.Lift(start, effs) + restEffs)
  {
    Ui.GroupedPrepend(start, effs, restEffs, start + |scenes|);
    ShownIfActivePrepend(scenes, s1, rest, active);
    DrawOutsCons(scenes, active, dt);
    Ui.AttributedPrepend(s1, effs, DrawOuts(scenes[1..], active, dt), start, rest, restEffs, start + |scenes|);
  }

  /** `__draw_scenes`: every scene, in queue order, is shown exactly when
      its index equals the active index, then drawn; the trace is grouped by
      scene in queue order. */
  function DrawScenes(g: Gui, dt: real): (r: Result<(Gui, seq<Ui.RootEffect<LegacyScene.Effect>>)>)
    requires Valid(g)
    ensures r.Ok? ==> Valid(r.value.0) && r.value.0 == g.(scenes := r.value.0.scenes)
    ensures r.Ok? ==> |r.value.0.scenes| == |g.scenes|
    ensures r.Ok? ==> forall k :: 0 <= k < |g.scenes| ==> r.value.0.scenes[k].show == (k == g.active)
    ensures r.Ok? ==> Ui.Grouped(r.value.1, 0, |g.scenes|)
    ensures r.Ok? <==> forall k :: 0 <= k < |g.scenes| ==> DrawOne(g.scenes[k], g.active, dt).Ok?
    ensures (forall k :: 0 <= k < |g.scenes| ==>
               LegacyScene.Ready(g.scenes[k]) && LegacyScene.AppOnly(g.scenes[k].events[LegacyScene.Draw])) ==> r.Ok?
    ensures r.Ok? ==> forall k :: 0 <= k < |g.scenes| ==>
      && r.value.0.scenes[k] == DrawOne(g.scenes[k], g.active, dt).value.0
      && Ui.EffectsOf(r.value.1, k) == DrawOne(g.scenes[k], g.active, dt).value.1
  {
    match DrawAll(g.scenes, 0, g.active, dt)
    case Err(e) => Err(e)
    case Ok((scenes, effs)) => Ok((g.(scenes := scenes), effs))
  }

  /** After stepping back from the first scene, input goes to the last scene
      while the frame shows no scene at all (no index is negative). */
  lemma BackFromFirstHidesAll(g: Gui, dt: real)
    requires Valid(g) && |g.scenes| > 0 && g.active == 0
    ensures ActiveScene(PreviousScene(g)) == Ok(g.scenes[|g.scenes| - 1])
    ensures var r := DrawScenes(PreviousScene(g), dt);
      r.Ok? ==> forall k :: 0 <= k < |g.scenes| ==> !r.value.0.scenes[k].show
  {
  }

  // ---------------------------------------------------------------------
  // Run and window size

  /** The checks `run` makes before its frame loop: the error it raises, or
      none when the loop would start.  The flag is read from the data dict,
      which exists whenever there is a window. */
  function Run(g: Gui): (r: Option<Error>)
    requires Valid(g)
    ensures r.None? <==> g.window.Some? && g.eventsInitialized
    ensures g.window.None? ==> r == Some(Raised(Ui.NoWindow))
    ensures g.window.Some? && !g.eventsInitialized ==> r == Some(Raised(Ui.NoEvents))
  {
    if g.window.None? then Some(Raised(Ui.NoWindow))
    else if !g.eventsInitialized then Some(Raised(Ui.NoEvents))
    else None
  }

  /** `get_window_size` as written: the GLFW size pair goes through
      `as_tuple`, so a width or height of 2 makes it read a third entry. */
  function GetWindowSizeAsWritten(width: int, height: int): (r: Result<Vectors.Vector>)
    ensures r.Err? <==> width == 2 || height == 2
    ensures r.Ok? ==> r.value == Vectors.Vector(width as real, height as real, 0.0)
  {
    var pair := [width as real, height as real];
    assert (2.0 in pair) <==> (width == 2 || height == 2);
    LegacyTypes.AsTuple(Vectors.Origin(), pair)
  }

  /** `get_window_size` as evidently intended: the pair converted by length,
      as the SDK's `raw` does, which never raises for a pair. */
  function GetWindowSize(width: int, height: int): (r: Result<Vectors.Vector>)
    ensures r == Ok(Vectors.Vector(width as real, height as real, 0.0))
  {
    Vectors.Raw(Vectors.Origin(), [width as real, height as real])
  }

  /** A window two pixels wide: the size query raises as written and
      reports (2, h) as intended. */
  lemma NarrowWindowSize(h: int)
    ensures GetWindowSizeAsWritten(2, h) == Err(IndexError)
    ensures GetWindowSize(2, h) == Ok(Vectors.Vector(2.0, h as real, 0.0))
  {
    LegacyTypes.AsTupleRaisesOnPairWithTwo(h as real);
  }
}

=== FILE: legacy_scene.dfy ===
/** The older generation's scene and button (`c_scene` and `c_button` in
    gui/gui.py).  A scene keeps its buttons in a dict keyed by id (modelled
    as an insertion-ordered id list plus a map), six events keyed by short
    names, a show flag and a fade animation.  Compared with the current
    generation: buttons draw before the draw event fires, the fade runs at
    speed 6, `show()` cannot report the flag, an unknown event name raises,
    and a button's press handler does nothing. */
module LegacyScene {
  import opened Wrappers
  import MathOps
  import Vectors
  import Colors
  import Events
  import Animation
  import LegacyAnimation
  import Widgets
  import Ui

  /** `INVALID`, the index of a scene no gui has numbered yet. */
  const Invalid: int := -1
  const Fade: string := "Fade"
  /** The speed the old scene passes to the fade's `preform`. */
  const FadeSpeed: real := 6.0

  // ---------------------------------------------------------------------
  // Buttons

  /** A `c_button`: where it is, its size as a vector, its press callback, the
      `is_hovered` entry of its info dict and its own animations. */
  datatype Button = Button(position: Vectors.Vector, size: Vectors.Vector, callback: Option<nat>,
                           hovered: bool, anim: Animation.Animations)

  /** The constructor and `__setup`: not hovered, "hovered" cached as 0 and
      "text_color" as white. */
  function NewButton(position: Vectors.Vector, size: Vectors.Vector, callback: Option<nat>): (b: Button)
    ensures !b.hovered && b.position == position && b.size == size && b.callback == callback
    ensures Animation.Value(b.anim, "hovered") == Ok(Animation.Num(0.0))
    ensures Animation.Value(b.anim, "text_color") == Ok(Animation.Col(Colors.White()))
    ensures b.anim.interpolation == 0.0
  {
    var a := Animation.Prepare(Animation.New(), "hovered", Animation.Num(0.0));
    Button(position, size, callback, false, Animation.Prepare(a, "text_color", Animation.Col(Colors.White())))
  }

  /** `position(v)` with an argument: only `x` and `y` are copied in. */
  function SetPosition(b: Button, v: Vectors.Vector): (r: Button)
    ensures r.position.x == v.x && r.position.y == v.y && r.position.z == b.position.z
    ensures r == b.(position := r.position)
  {
    b.(position := b.position.(x := v.x, y := v.y))
  }

  /** The button's mouse-position handler: hovered becomes whether the mouse
      lies in the rectangle at the button's position with the button's size
      as width and height, edges included. */
  function OnMousePosition(b: Button, args: Option<Events.Bag>): (r: Result<Button>)
    ensures r.Ok? <==> args.Some? && Widgets.NumberArg(args.value, "x").Ok? && Widgets.NumberArg(args.value, "y").Ok?
    ensures r.Ok? ==> r.value == b.(hovered := r.value.hovered)
    ensures r.Ok? ==> (r.value.hovered <==>
      Vectors.IsInBounds(Vectors.Vector(args.value["x"].n, args.value["y"].n, 0.0), b.position, b.size.x, b.size.y))
  {
    if args.None? then Err(TypeError)
    else
      match (Widgets.NumberArg(args.value, "x"), Widgets.NumberArg(args.value, "y"))
      case (Ok(x), Ok(y)) =>
        Ok(b.(hovered := Vectors.IsInBounds(Vectors.Vector(x, y, 0.0), b.position, b.size.x, b.size.y)))
      case _ => Err(TypeError)
  }

  /** The button's mouse-button handler is empty: a press never reaches the
      callback and changes nothing. */
  function OnMouseButtons(b: Button, args: Option<Events.Bag>): (r: Result<Button>)
    ensures r.Ok? <==> args.Some?
    ensures r.Ok? ==> r.value == b
  {
    if args.None? then Err(TypeError) else Ok(b)
  }

  /** The frame step of a button's `draw`: its animations take the frame time
      as interpolation; nothing else changes (the drawing itself is a stub). */
  function Tick(b: Button, dt: real): (r: Button)
    ensures r.anim.interpolation == dt && r.anim.cache == b.anim.cache
    ensures r == b.(anim := r.anim)
  {
    b.(anim := Animation.SetInterpolation(b.anim, dt))
  }

  // ---------------------------------------------------------------------
  // Scene state

  /** The six scene events and their dict keys. */
  datatype Kind = Draw | Keyboard | Char | MousePos | MouseButtons | Scroll

  function KindName(k: Kind): string
  {
    match k
    case Draw => "draw"
    case Keyboard => "keyboard"
    case Char => "char"
    case MousePos => "mouse_pos"
    case MouseButtons => "mouse_buttons"
    case Scroll => "scroll"
  }

  function KindOf(name: string): (r: Option<Kind>)
    ensures r.Some? ==> KindName(r.value) == name
  {
    if name == "draw" then Some(Draw)
    else if name == "keyboard" then Some(Keyboard)
    else if name == "char" then Some(Char)
    else if name == "mouse_pos" then Some(MousePos)
    else if name == "mouse_buttons" then Some(MouseButtons)
    else if name == "scroll" then Some(Scroll)
    else None
  }

  /** Every event's key selects it, and only the six keys select anything. */
  lemma KindNameRoundTrip(k: Kind, name: string)
    ensures KindOf(KindName(k)) == Some(k)
    ensures KindOf(name).Some? <==> name in {"draw", "keyboard", "char", "mouse_pos", "mouse_buttons", "scroll"}
  {
  }

  /** A handler on a scene event: a button's mouse-position or mouse-button
      method (by button id) or an application callable. */
  datatype Callback = ButtonPosition(button: string) | ButtonPress(button: string) | App(id: nat)

  /** What an old scene does that can be observed: an application handler
      called, or a button drawn with a fade. */
  datatype Effect = Called(id: nat, args: Option<Events.Bag>) | DrewButton(button: string, fade: real)

  datatype Scene = Scene(index: int, show: bool, ids: seq<string>, buttons: map<string, Button>,
                         events: map<Kind, Events.Event<Callback>>, anim: Animation.Animations)

  /** The six events exist and are dict registries, and `ids` lists each
      button id once, in insertion order. */
  ghost predicate Valid(s: Scene)
  {
    && (forall k: Kind :: k in s.events && Events.Valid(s.events[k]))
    && Events.Distinct(s.ids)
    && (forall id :: id in s.buttons <==> id in s.ids)
  }

  /** The fade is a number. */
  ghost predicate Ready(s: Scene)
  {
    Fade in s.anim.cache && s.anim.cache[Fade].Num?
  }

  lemma EveryKind<V>(m: map<Kind, V>)
    requires Draw in m && Keyboard in m && Char in m && MousePos in m && MouseButtons in m && Scroll in m
    ensures forall k: Kind :: k in m
  {
    forall k: Kind ensures k in m {
      match k
      case Draw =>
      case Keyboard =>
      case Char =>
      case MousePos =>
      case MouseButtons =>
      case Scroll =>
    }
  }

  /** A new scene: index `INVALID`, hidden, no buttons, six empty events and
      the fade cached at 0. */
  function New(): (s: Scene)
    ensures Valid(s) && Ready(s)
    ensures s.index == Invalid && !s.show && s.ids == [] && s.buttons == map[]
    ensures forall k: Kind :: s.events[k].order == [] && s.events[k].data == map[]
    ensures Animation.Value(s.anim, Fade) == Ok(Animation.Num(0.0))
  {
    var e := Events.New<Callback>();
    var events := map[Draw := e, Keyboard := e, Char := e, MousePos := e, MouseButtons := e, Scroll := e];
    EveryKind(events);
    Scene(Invalid, false, [], map[], events, Animation.Prepare(Animation.New(), Fade, Animation.Num(0.0)))
  }

  /** `register_event`: the event is looked up by key, so an unknown name
      raises `KeyError`; otherwise the handler is registered with arguments. */
  function RegisterEvent(s: Scene, event: string, fn: Callback, name: string): (r: Result<Scene>)
    requires Valid(s)
    ensures KindOf(event).None? ==> r == Err(KeyError(event))
    ensures KindOf(event).Some? ==>
      r == Ok(s.(events := s.events[KindOf(event).value := Events.Set(s.events[KindOf(event).value], fn, name, true)]))
    ensures r.Ok? ==> Valid(r.value)
  {
    match KindOf(event)
    case None => Err(KeyError(event))
    case Some(k) => Ok(s.(events := s.events[k := Events.Set(s.events[k], fn, name, true)]))
  }

  /** The name a button's handlers are registered under. */
  function HandlerName(id: string): string
  {
    "Button:" + id
  }

  /** `add_button`: store a new button under its id (a dict assignment, so an
      existing id keeps its place and loses its old button), then register
      its two handlers under `Button:<id>` on "mouse_pos" and "mouse_buttons". */
  function AddButton(s: Scene, id: string, position: Vectors.Vector, size: Vectors.Vector, callback: Option<nat>): (r: Scene)
    requires Valid(s)
    ensures Valid(r)
    ensures r.buttons == s.buttons[id := NewButton(position, size, callback)]
    ensures id in s.buttons ==> r.ids == s.ids
    ensures id !in s.buttons ==> r.ids == s.ids + [id]
    ensures r.events[MousePos] == Events.Set(s.events[MousePos], ButtonPosition(id), HandlerName(id), true)
    ensures r.events[MouseButtons] == Events.Set(s.events[MouseButtons], ButtonPress(id), HandlerName(id), true)
    ensures forall k :: k != MousePos && k != MouseButtons ==> r.events[k] == s.events[k]
    ensures r.index == s.index && r.show == s.show && r.anim == s.anim
  {
    var ids := if id in s.buttons then s.ids else s.ids + [id];
    assert Events.Distinct(ids) by {
      if id !in s.buttons {
        forall i, j | 0 <= i < j < |ids| ensures ids[i] != ids[j] {
          if j == |s.ids| { assert ids[i] in s.ids; }
        }
      }
    }
    var s1 := s.(ids := ids, buttons := s.buttons[id := NewButton(position, size, callback)]);
    var mp := s1.events[MousePos];
    var mb := s1.events[MouseButtons];
    var events := s1.events[MousePos := Events.Set(mp, ButtonPosition(id), HandlerName(id), true)]
                           [MouseButtons := Events.Set(mb, ButtonPress(id), HandlerName(id), true)];
    s1.(events := events)
  }

  /** `ui(id)`: the button stored under the id, or None. */
  function UiLookup(s: Scene, id: string): (r: Option<Button>)
    ensures r.Some? <==> id in s.buttons
    ensures r.Some? ==> r.value == s.buttons[id]
  {
    if id in s.buttons then Some(s.buttons[id]) else None
  }

  /** Adding a button under an id already in use replaces it in place: the
      scene still lists the id once and `ui(id)` finds the newer button. */
  lemma AddButtonReplaces(s: Scene, id: string, p1: Vectors.Vector, p2: Vectors.Vector, size: Vectors.Vector, c1: Option<nat>, c2: Option<nat>)
    requires Valid(s)
    ensures var s1 := AddButton(s, id, p1, size, c1);
      var s2 := AddButton(s1, id, p2, size, c2);
      && s2.ids == s1.ids
      && UiLookup(s2, id) == Some(NewButton(p2, size, c2))
      && |Events.Invoke(s2.events[MousePos])| == |Events.Invoke(s1.events[MousePos])|
  {
  }

  /** `index(v)`: with no argument return the index, otherwise store it. */
  function Index(s: Scene, v: Option<int>): (r: (Scene, Option<int>))
    ensures v.None? ==> r.0 == s && r.1 == Some(s.index)
    ensures v.Some? ==> r.1.None? && r.0 == s.(index := v.value)
  {
    if v.None? then (s, Some(s.index)) else (s.(index := v.value), None)
  }

  /** `show(v)` as written: with an argument it stores the flag; without one
      it returns the argument, None, instead of the flag. */
  function Show(s: Scene, v: Option<bool>): (r: (Scene, Option<bool>))
    ensures r.1 == None
    ensures v.None? ==> r.0 == s
    ensures v.Some? ==> r.0 == s.(show := v.value)
    ensures Valid(s) ==> Valid(r.0)
  {
    if v.None? then (s, v) else (s.(show := v.value), None)
  }

  /** The flag a scene stores can never be read back through `show()`, while
      the current generation's `show()` reports it. */
  lemma ShowNeverReports(s: Scene)
    ensures Show(Show(s, Some(true)).0, None).1 == None
    ensures Show(Show(s, Some(true)).0, None).0.show
  {
  }

  // ---------------------------------------------------------------------
  // Running handlers

  /** `after` holds the buttons of `before` with at most their hover flags
      changed. */
  ghost predicate HoverOnly(before: map<string, Button>, after: map<string, Button>)
  {
    && after.Keys == before.Keys
    && forall id :: id in before ==> after[id] == before[id].(hovered := after[id].hovered)
  }

  /** The bag holds a cursor: two numbers under `x` and `y`. */
  predicate HoldsCursor(bag: Events.Bag)
  {
    Widgets.NumberArg(bag, "x").Ok? && Widgets.NumberArg(bag, "y").Ok?
  }

  /** Whether the cursor in a bag lies on the button, by the test its
      position handler makes; false when the bag does not hold two numbers. */
  predicate CursorOn(b: Button, bag: Events.Bag)
  {
    && HoldsCursor(bag)
    && Vectors.IsInBounds(Vectors.Vector(Widgets.NumberArg(bag, "x").value, Widgets.NumberArg(bag, "y").value, 0.0),
                          b.position, b.size.x, b.size.y)
  }

  /** A call that cannot raise: an application callable, or a button handler
      that receives the accessor and, for a position handler, finds two
      numbers there. */
  ghost predicate Callable(c: Events.Call<Callback>)
  {
    || c.handler.App?
    || (c.args.Some? && (c.handler.ButtonPosition? ==> HoldsCursor(c.args.value)))
  }

  /** One handler call.  A button handler whose id has no button does
      nothing (the ids of registered handlers always have one). */
  function RunCall(buttons: map<string, Button>, c: Events.Call<Callback>): (r: Result<(map<string, Button>, seq<Effect>)>)
    ensures r.Ok? ==> r.value.0.Keys == buttons.Keys
    ensures c.handler.App? ==> r == Ok((buttons, [Called(c.handler.id, c.args)]))
    ensures r.Ok? && !c.handler.App? ==> r.value.1 == []
    ensures c.handler.ButtonPress? ==> (r.Ok? <==> c.args.Some?) && (r.Ok? ==> r.value.0 == buttons)
    ensures c.handler.ButtonPosition? && c.handler.button in buttons ==>
      var hit := OnMousePosition(buttons[c.handler.button], c.args);
      (r.Ok? <==> hit.Ok?) && (r.Ok? ==> r.value.0 == buttons[c.handler.button := hit.value])
    ensures c.handler.ButtonPosition? && c.handler.button !in buttons ==> r == Ok((buttons, []))
    ensures r.Ok? ==> HoverOnly(buttons, r.value.0)
    ensures Callable(c) ==> r.Ok?
  {
    match c.handler
    case App(id) => Ok((buttons, [Called(id, c.args)]))
    case ButtonPosition(id) =>
      if id !in buttons then Ok((buttons, []))
      else
        (match OnMousePosition(buttons[id], c.args)
         case Err(e) => Err(e)
         case Ok(b) => Ok((buttons[id := b], [])))
    case ButtonPress(id) =>
      if id !in buttons then (if c.args.Some? then Ok((buttons, [])) else Err(TypeError))
      else
        (match OnMouseButtons(buttons[id], c.args)
         case Err(e) => Err(e)
         case Ok(_) => Ok((buttons, [])))
  }

  /** The application calls among `calls`, in order, as effects. */
  function AppCalls(calls: seq<Events.Call<Callback>>): (r: seq<Effect>)
    ensures forall e :: e in r ==> e.Called?
    ensures |r| <= |calls|
  {
    if calls == [] then []
    else (if calls[0].handler.App? then [Called(calls[0].handler.id, calls[0].args)] else [])
         + AppCalls(calls[1..])
  }

  /** The handlers in order; an exception stops the rest.  The trace is
      exactly the application calls, since button handlers leave none. */
  function RunCalls(buttons: map<string, Button>, calls: seq<Events.Call<Callback>>): (r: Result<(map<string, Button>, seq<Effect>)>)
    ensures r.Ok? ==> r.value.0.Keys == buttons.Keys
    ensures r.Ok? ==> r.value.1 == AppCalls(calls)
    ensures r.Ok? ==> HoverOnly(buttons, r.value.0)
    ensures (forall i :: 0 <= i < |calls| ==> Callable(calls[i])) ==> r.Ok?
    decreases |calls|
  {
    assert forall i :: 1 <= i < |calls| ==> calls[1..][i - 1] == calls[i];
    if calls == [] then Ok((buttons, []))
    else
      match RunCall(buttons, calls[0])
      case Err(e) => Err(e)
      case Ok((bs, eff)) =>
        match RunCalls(bs, calls[1..])
        case Err(e) => Err(e)
        case Ok((bs2, effs)) => Ok((bs2, eff + effs))
  }

  /** Running `calls` after an earlier result, whose error propagates. */
  function RunAfter(r: Result<(map<string, Button>, seq<Effect>)>, calls: seq<Events.Call<Callback>>): Result<(map<string, Button>, seq<Effect>)>
  {
    match r
    case Err(e) => Err(e)
    case Ok((bs, effs)) =>
      match RunCalls(bs, calls)
      case Err(e) => Err(e)
      case Ok((bs2, effs2)) => Ok((bs2, effs + effs2))
  }

  /** Running one call as a list is running that call. */
  lemma RunCallsSingle(buttons: map<string, Button>, c: Events.Call<Callback>)
    ensures RunCalls(buttons, [c]) == RunCall(buttons, c)
  {
    assert [c][1..] == [];
    match RunCall(buttons, c)
    case Err(_) =>
    case Ok((bs, eff)) => assert eff + [] == eff;
  }

  /** Running a concatenation is running its halves one after the other. */
  lemma {:induction false} RunCallsAppend(buttons: map<string, Button>, a: seq<Events.Call<Callback>>, b: seq<Events.Call<Callback>>)
    ensures RunCalls(buttons, a + b) == RunAfter(RunCalls(buttons, a), b)
    decreases |a|
  {
    if a == [] {
      assert a + b == b;
      match RunCalls(buttons, b)
      case Err(_) =>
      case Ok((bs2, effs2)) => assert [] + effs2 == effs2;
    } else {
      assert (a + b)[0] == a[0];
      assert (a + b)[1..] == a[1..] + b;
      match RunCall(buttons, a[0])
      case Err(_) =>
      case Ok((bs, eff)) =>
        RunCallsAppend(bs, a[1..], b);
        match RunCalls(bs, a[1..])
        case Err(_) =>
        case Ok((bs1, effs1)) =>
          match RunCalls(bs1, b)
          case Err(_) =>
          case Ok((bs2, effs2)) => assert eff + (effs1 + effs2) == (eff + effs1) + effs2;
    }
  }

  /** Some call among `calls` is the position handler of button `id`. */
  ghost predicate PositionCalled(calls: seq<Events.Call<Callback>>, id: string)
  {
    exists i :: 0 <= i < |calls| && calls[i].handler == ButtonPosition(id)
  }

  /** After `calls` run, a button is hovered exactly when the cursor in the
      bag they share lies on it, if one of them is its position handler;
      otherwise its flag is what it was. */
  lemma {:induction false} RunCallsHover(buttons: map<string, Button>, calls: seq<Events.Call<Callback>>, bag: Events.Bag, id: string)
    requires forall i :: 0 <= i < |calls| && calls[i].args.Some? ==> calls[i].args.value == bag
    requires id in buttons && RunCalls(buttons, calls).Ok?
    ensures RunCalls(buttons, calls).value.0[id].hovered ==
      if PositionCalled(calls, id) then CursorOn(buttons[id], bag) else buttons[id].hovered
    decreases |calls|
  {
    if calls != [] {
      var c := calls[0];
      assert RunCall(buttons, c).Ok?;
      var bs := RunCall(buttons, c).value.0;
      assert RunCalls(bs, calls[1..]).Ok?;
      assert RunCalls(buttons, calls).value.0 == RunCalls(bs, calls[1..]).value.0;
      forall i | 0 <= i < |calls[1..]| && calls[1..][i].args.Some?
        ensures calls[1..][i].args.value == bag
      {
        assert calls[1..][i] == calls[i + 1];
      }
      RunCallsHover(bs, calls[1..], bag, id);
      assert bs[id] == buttons[id].(hovered := bs[id].hovered);
      if PositionCalled(calls[1..], id) {
        var j :| 0 <= j < |calls[1..]| && calls[1..][j].handler == ButtonPosition(id);
        assert calls[j + 1] == calls[1..][j];
      }
      if c.handler == ButtonPosition(id) {
        assert PositionCalled(calls, id);
        assert bs[id].hovered == CursorOn(buttons[id], bag);
      } else {
        if PositionCalled(calls, id) {
          var j :| 0 <= j < |calls| && calls[j].handler == ButtonPosition(id);
          assert j > 0 && calls[1..][j - 1] == calls[j];
        }
        assert bs[id] == buttons[id];
      }
    }
  }

  /** Some handler of the event is the position handler of button `id`. */
  ghost predicate HandlesPosition(e: Events.Event<Callback>, id: string)
  {
    exists n :: n in e.handlers && e.handlers[n].call == ButtonPosition(id)
  }

  /** No handler of the event is a position handler. */
  ghost predicate NoPositionHandler(e: Events.Event<Callback>)
  {
    forall n :: n in e.handlers ==> !e.handlers[n].call.ButtonPosition?
  }

  /** Every button handler of the event receives the accessor, as every
      button registers them. */
  ghost predicate ButtonsTakeArgs(e: Events.Event<Callback>)
  {
    forall n :: n in e.handlers && !e.handlers[n].call.App? ==> e.handlers[n].allowArgs
  }

  /** Running an event's handlers: each button whose position handler is
      registered is hovered exactly when the cursor in the bag lies on it,
      every other flag stays, and nothing raises when every button handler
      takes the accessor and either no position handler is registered or
      the bag holds a cursor. */
  lemma RunEvent(buttons: map<string, Button>, ev: Events.Event<Callback>)
    requires Events.Valid(ev)
    ensures RunCalls(buttons, Events.Invoke(ev)).Ok? ==> forall id :: id in buttons ==>
      (RunCalls(buttons, Events.Invoke(ev)).value.0[id].hovered ==
        if HandlesPosition(ev, id) then CursorOn(buttons[id], ev.data) else buttons[id].hovered)
    ensures ButtonsTakeArgs(ev) && (NoPositionHandler(ev) || HoldsCursor(ev.data)) ==>
      RunCalls(buttons, Events.Invoke(ev)).Ok?
  {
    var calls := Events.Invoke(ev);
    Events.InvokeCovers(ev);
    if RunCalls(buttons, calls).Ok? {
      forall id | id in buttons
        ensures RunCalls(buttons, calls).value.0[id].hovered ==
          if HandlesPosition(ev, id) then CursorOn(buttons[id], ev.data) else buttons[id].hovered
      {
        if HandlesPosition(ev, id) {
          var n :| n in ev.handlers && ev.handlers[n].call == ButtonPosition(id);
          var i :| 0 <= i < |calls| && calls[i] == Events.CallOf(ev, n);
        }
        if PositionCalled(calls, id) {
          var i :| 0 <= i < |calls| && calls[i].handler == ButtonPosition(id);
          assert ev.order[i] in ev.handlers;
        }
        RunCallsHover(buttons, calls, ev.data, id);
      }
    }
    if ButtonsTakeArgs(ev) && (NoPositionHandler(ev) || HoldsCursor(ev.data)) {
      forall i | 0 <= i < |calls| ensures Callable(calls[i]) {
        assert ev.order[i] in ev.handlers;
      }
    }
  }

  /** Every handler of the event is an application callable. */
  ghost predicate AppOnly(e: Events.Event<Callback>)
  {
    forall n :: n in e.handlers ==> e.handlers[n].call.App?
  }

  /** Application callables alone cannot fail and touch no button. */
  lemma {:induction false} RunCallsAppOnly(buttons: map<string, Button>, calls: seq<Events.Call<Callback>>)
    requires forall i :: 0 <= i < |calls| ==> calls[i].handler.App?
    ensures RunCalls(buttons, calls) == Ok((buttons, AppCalls(calls)))
    decreases |calls|
  {
    if calls != [] {
      assert calls[0].handler.App?;
      RunCallsAppOnly(buttons, calls[1..]);
    }
  }

  lemma InvokeAppOnly(ev: Events.Event<Callback>, buttons: map<string, Button>)
    requires Events.Valid(ev)
    ensures AppOnly(ev) ==> RunCalls(buttons, Events.Invoke(ev)) == Ok((buttons, AppCalls(Events.Invoke(ev))))
  {
    if AppOnly(ev) {
      var calls := Events.Invoke(ev);
      forall i | 0 <= i < |calls| ensures calls[i].handler.App? {
        assert ev.order[i] in ev.handlers;
      }
      RunCallsAppOnly(buttons, calls);
    }
  }

  /** Invoke a scene event whose bag the caller has just filled and run its
      handlers. */
  function Fire(s: Scene, k: Kind, ev: Events.Event<Callback>): (r: Result<(Scene, seq<Effect>)>)
    requires Valid(s)
    requires ev.order == s.events[k].order && ev.handlers == s.events[k].handlers
    ensures r.Ok? ==> Valid(r.value.0) && r.value.0 == s.(events := s.events[k := ev], buttons := r.value.0.buttons)
    ensures r.Ok? ==> r.value.1 == AppCalls(Events.Invoke(ev))
    ensures AppOnly(ev) ==> r == Ok((s.(events := s.events[k := ev]), AppCalls(Events.Invoke(ev))))
    ensures r.Ok? ==> HoverOnly(s.buttons, r.value.0.buttons)
    ensures r.Ok? ==> forall id :: id in s.buttons ==> (r.value.0.buttons[id].hovered ==
      if HandlesPosition(ev, id) then CursorOn(s.buttons[id], ev.data) else s.buttons[id].hovered)
    ensures ButtonsTakeArgs(ev) && (NoPositionHandler(ev) || HoldsCursor(ev.data)) ==> r.Ok?
  {
    InvokeAppOnly(ev, s.buttons);
    RunEvent(s.buttons, ev);
    match RunCalls(s.buttons, Events.Invoke(ev))
    case Err(e) => Err(e)
    case Ok((bs, effs)) => Ok((s.(events := s.events[k := ev], buttons := bs), effs))
  }

  /** The scene event an input goes to. */
  function InputKind(i: Ui.Input): Kind
    requires Ui.Forwarded(i)
  {
    match i
    case Key(_, _, _, _, _) => Keyboard
    case Char(_, _) => Char
    case CursorPos(_, _, _) => MousePos
    case MouseButton(_, _, _, _) => MouseButtons
    case Scroll(_, _, _) => Scroll
  }

  /** The five input callbacks (`keyboard_callback`, `char_callback`,
      `mouse_pos_callback`, `mouse_buttons`, `scroll_callback`): store the
      raw fields in the event's bag, under the same keys as the current
      generation, then invoke it once. */
  function HandleInput(s: Scene, i: Ui.Input): (r: Result<(Scene, seq<Effect>)>)
    requires Valid(s) && Ui.Forwarded(i)
    ensures r.Ok? ==> Valid(r.value.0) && r.value.0.index == s.index && r.value.0.show == s.show && r.value.0.ids == s.ids
    ensures r.Ok? ==> r.value.0.events[InputKind(i)] == Ui.Fill(s.events[InputKind(i)], i)
    ensures r.Ok? ==> r.value.1 == AppCalls(Events.Invoke(Ui.Fill(s.events[InputKind(i)], i)))
    ensures AppOnly(s.events[InputKind(i)]) ==> r.Ok?
    ensures r.Ok? ==> forall e :: e in r.value.1 && e.args.Some? ==>
      Events.Lookup(e.args.value, "window") == Some(Events.Handle(i.window))
    ensures r.Ok? ==> HoverOnly(s.buttons, r.value.0.buttons)
    ensures r.Ok? && i.CursorPos? ==> forall id :: id in s.buttons ==> (r.value.0.buttons[id].hovered ==
      if HandlesPosition(s.events[MousePos], id)
      then Vectors.IsInBounds(Vectors.Vector(i.x, i.y, 0.0), s.buttons[id].position, s.buttons[id].size.x, s.buttons[id].size.y)
      else s.buttons[id].hovered)
    ensures r.Ok? && NoPositionHandler(s.events[InputKind(i)]) ==> r.value.0.buttons == s.buttons
    ensures ButtonsTakeArgs(s.events[InputKind(i)]) && (i.CursorPos? || NoPositionHandler(s.events[InputKind(i)])) ==> r.Ok?
  {
    var k := InputKind(i);
    var ev := Ui.Fill(s.events[k], i);
    FireInput(s, i);
    AppCallsCarry(Events.Invoke(ev), ev.data);
    Fire(s, k, ev)
  }

  /** What an input does to the buttons: a cursor move sets the hover of
      each button whose position handler is registered by the cursor test
      on the move's coordinates, other inputs change no button unless a
      position handler is registered on their event, and the input cannot
      raise when every button handler takes the accessor and it is a cursor
      move or no position handler is registered. */
  lemma FireInput(s: Scene, i: Ui.Input)
    requires Valid(s) && Ui.Forwarded(i)
    ensures var r := Fire(s, InputKind(i), Ui.Fill(s.events[InputKind(i)], i));
      && (r.Ok? && i.CursorPos? ==> forall id :: id in s.buttons ==> (r.value.0.buttons[id].hovered ==
            if HandlesPosition(s.events[MousePos], id)
            then Vectors.IsInBounds(Vectors.Vector(i.x, i.y, 0.0), s.buttons[id].position, s.buttons[id].size.x, s.buttons[id].size.y)
            else s.buttons[id].hovered))
      && (r.Ok? && NoPositionHandler(s.events[InputKind(i)]) ==> r.value.0.buttons == s.buttons)
      && (ButtonsTakeArgs(s.events[InputKind(i)]) && (i.CursorPos? || NoPositionHandler(s.events[InputKind(i)])) ==> r.Ok?)
  {
    FilledRegistry(s, i);
    if i.CursorPos? {
      FireCursorHover(s, i);
    }
    FireInputKeeps(s, i);
    FireInputSucceeds(s, i);
  }

  /** Filling an input into an event keeps its registry, so the handler
      tests read the same on the filled event. */
  lemma FilledRegistry(s: Scene, i: Ui.Input)
    requires Valid(s) && Ui.Forwarded(i)
    ensures var ev := Ui.Fill(s.events[InputKind(i)], i);
      && (forall id :: HandlesPosition(ev, id) == HandlesPosition(s.events[InputKind(i)], id))
      && ButtonsTakeArgs(ev) == ButtonsTakeArgs(s.events[InputKind(i)])
      && NoPositionHandler(ev) == NoPositionHandler(s.events[InputKind(i)])
  {
  }

  lemma FireCursorHover(s: Scene, i: Ui.Input)
    requires Valid(s) && i.CursorPos?
    ensures var r := Fire(s, MousePos, Ui.Fill(s.events[MousePos], i));
      r.Ok? ==> forall id :: id in s.buttons ==> (r.value.0.buttons[id].hovered ==
            if HandlesPosition(s.events[MousePos], id)
            then Vectors.IsInBounds(Vectors.Vector(i.x, i.y, 0.0), s.buttons[id].position, s.buttons[id].size.x, s.buttons[id].size.y)
            else s.buttons[id].hovered)
  {
    var ev := Ui.Fill(s.events[MousePos], i);
    FilledRegistry(s, i);
    assert Widgets.NumberArg(ev.data, "x") == Ok(i.x) && Widgets.NumberArg(ev.data, "y") == Ok(i.y);
  }

  lemma FireInputKeeps(s: Scene, i: Ui.Input)
    requires Valid(s) && Ui.Forwarded(i)
    ensures var r := Fire(s, InputKind(i), Ui.Fill(s.events[InputKind(i)], i));
      r.Ok? && NoPositionHandler(s.events[InputKind(i)]) ==> r.value.0.buttons == s.buttons
  {
    var k := InputKind(i);
    var ev := Ui.Fill(s.events[k], i);
    var r := Fire(s, k, ev);
    FilledRegistry(s, i);
    if r.Ok? && NoPositionHandler(s.events[k]) {
      forall id | id in s.buttons ensures r.value.0.buttons[id] == s.buttons[id] {
        assert !HandlesPosition(ev, id);
      }
    }
  }

  lemma FireInputSucceeds(s: Scene, i: Ui.Input)
    requires Valid(s) && Ui.Forwarded(i)
    ensures var r := Fire(s, InputKind(i), Ui.Fill(s.events[InputKind(i)], i));
      ButtonsTakeArgs(s.events[InputKind(i)]) && (i.CursorPos? || NoPositionHandler(s.events[InputKind(i)])) ==> r.Ok?
  {
    var ev := Ui.Fill(s.events[InputKind(i)], i);
    FilledRegistry(s, i);
    if i.CursorPos? {
      assert Widgets.NumberArg(ev.data, "x") == Ok(i.x) && Widgets.NumberArg(ev.data, "y") == Ok(i.y);
    }
  }

  /** Every application call carries either nothing or the given bag. */
  lemma {:induction false} AppCallsCarry(calls: seq<Events.Call<Callback>>, bag: Events.Bag)
    requires forall i :: 0 <= i < |calls| && calls[i].args.Some? ==> calls[i].args.value == bag
    ensures forall e :: e in AppCalls(calls) && e.args.Some? ==> e.args.value == bag
    decreases |calls|
  {
    if calls != [] {
      AppCallsCarry(calls[1..], bag);
    }
  }

  /** A position handler registered on an event without handlers is the
      only one a cursor move invokes, and it sees the cursor's coordinates. */
  lemma SoleCursorHandler(e: Events.Event<Callback>, id: string, window: int, x: real, y: real)
    requires e.order == [] && Events.Valid(e)
    ensures var calls := Events.Invoke(Ui.Fill(Events.Set(e, ButtonPosition(id), HandlerName(id), true), Ui.CursorPos(window, x, y)));
      && |calls| == 1 && calls[0].handler == ButtonPosition(id) && calls[0].args.Some?
      && Events.Lookup(calls[0].args.value, "x") == Some(Events.Num(x))
      && Events.Lookup(calls[0].args.value, "y") == Some(Events.Num(y))
  {
    var name := HandlerName(id);
    var e0 := Events.Set(e, ButtonPosition(id), name, true);
    assert e0.order == [name] && e0.handlers[name] == Events.Entry(ButtonPosition(id), true);
    var ev := Events.Put(Events.Put(Events.Put(e0, "window", Events.Handle(window)), "x", Events.Num(x)), "y", Events.Num(y));
    assert Ui.Fill(e0, Ui.CursorPos(window, x, y)) == ev;
    assert Events.Invoke(ev)[0] == Events.CallOf(ev, name);
  }

  /** The position handler of a button responds to a cursor inside it: after
      the mouse-position input the button reports hovered. */
  lemma CursorInsideHovers(s: Scene, id: string, position: Vectors.Vector, size: Vectors.Vector, window: int)
    requires Valid(s) && s.events[MousePos].order == [] && size.x >= 0.0 && size.y >= 0.0
    ensures var s1 := AddButton(s, id, position, size, None);
      var r := HandleInput(s1, Ui.CursorPos(window, position.x, position.y));
      r.Ok? && UiLookup(r.value.0, id).Some? && UiLookup(r.value.0, id).value.hovered
  {
    var s1 := AddButton(s, id, position, size, None);
    var i := Ui.CursorPos(window, position.x, position.y);
    SoleCursorHandler(s.events[MousePos], id, window, position.x, position.y);
    var calls := Events.Invoke(Ui.Fill(s1.events[MousePos], i));
    var hit := OnMousePosition(s1.buttons[id], calls[0].args);
    assert hit.Ok? && hit.value.hovered;
    assert RunCall(s1.buttons, calls[0]) == Ok((s1.buttons[id := hit.value], []));
    assert calls[1..] == [];
    assert RunCalls(s1.buttons, calls) == Ok((s1.buttons[id := hit.value], []));
  }

  // ---------------------------------------------------------------------
  // Drawing

  /** The fade target: `self._show and 1 or 0`. */
  function FadeTarget(show: bool): real { if show then 1.0 else 0.0 }

  /** The draws of one frame: one per button id, in dict order, all with the
      same fade. */
  function DrawTrace(ids: seq<string>, fade: real): (r: seq<Effect>)
    ensures |r| == |ids| && forall i :: 0 <= i < |ids| ==> r[i] == DrewButton(ids[i], fade)
  {
    seq(|ids|, i requires 0 <= i < |ids| => DrewButton(ids[i], fade))
  }

  /** Each listed button's `draw`, in order: its animations take the frame
      time; buttons not listed are untouched. */
  function DrawButtons(ids: seq<string>, buttons: map<string, Button>, dt: real): (r: map<string, Button>)
    requires forall i :: 0 <= i < |ids| ==> ids[i] in buttons
    ensures r.Keys == buttons.Keys
    ensures forall id :: id in buttons ==> r[id] == (if id in ids then Tick(buttons[id], dt) else buttons[id])
    decreases |ids|
  {
    if ids == [] then buttons
    else
      var rest := DrawButtons(ids[1..], buttons, dt);
      rest[ids[0] := Tick(buttons[ids[0]], dt)]
  }

  /** The scene's buttons after each has drawn once. */
  function DrawnButtons(s: Scene, dt: real): map<string, Button>
    requires Valid(s)
  {
    DrawButtons(s.ids, s.buttons, dt)
  }

  /** The fade animation of one frame: the frame time becomes the
      interpolation factor and "Fade" steps toward its target at speed 6. */
  function FadeStep(s: Scene, dt: real): (r: Result<(Animation.Animations, real)>)
    ensures r.Ok? <==> Ready(s)
    ensures r.Ok? ==>
      && r.value.1 == MathOps.Linear(s.anim.cache[Fade].n, FadeTarget(s.show), FadeSpeed * dt, Animation.DefaultHold)
      && r.value.0 == Animation.Store(Animation.SetInterpolation(s.anim, dt), Fade, Animation.Num(r.value.1))
  {
    var a1 := Animation.SetInterpolation(s.anim, dt);
    match LegacyAnimation.Preform(a1, Fade, Animation.Num(FadeTarget(s.show)), FadeSpeed, Animation.DefaultHold)
    case Err(e) => Err(e)
    case Ok((a2, v)) => if v.Num? then Ok((a2, v.n)) else Err(TypeError)
  }

  /** `draw()`: the fade steps toward 1 (shown) or 0 (hidden) at speed 6,
      every button draws with that fade in dict order, and only then does the
      draw event run with the scene stored under "scene".  The trace is the
      button draws followed by the draw event's application calls.  Every
      button ends as its draw left it, save that a position handler on the
      draw event may reset its hovered flag. */
  function SceneDraw(s: Scene, dt: real): (r: Result<(Scene, seq<Effect>)>)
    requires Valid(s)
    ensures Ready(s) && AppOnly(s.events[Draw]) ==> r.Ok?
    ensures r.Ok? ==> Ready(s) && Valid(r.value.0) && Ready(r.value.0)
    ensures r.Ok? ==> r.value.0.index == s.index && r.value.0.show == s.show && r.value.0.ids == s.ids
    ensures r.Ok? ==>
      var fade := MathOps.Linear(s.anim.cache[Fade].n, FadeTarget(s.show), FadeSpeed * dt, Animation.DefaultHold);
      && Animation.Value(r.value.0.anim, Fade) == Ok(Animation.Num(fade))
      && r.value.1 == DrawTrace(s.ids, fade) + AppCalls(Events.Invoke(Events.Put(s.events[Draw], "scene", Events.Owner)))
    ensures r.Ok? ==> HoverOnly(DrawnButtons(s, dt), r.value.0.buttons)
    ensures r.Ok? && NoPositionHandler(s.events[Draw]) ==> r.value.0.buttons == DrawnButtons(s, dt)
  {
    match FadeStep(s, dt)
    case Err(e) => Err(e)
    case Ok((a, fade)) =>
      var buttons := DrawButtons(s.ids, s.buttons, dt);
      var s1 := s.(anim := a, buttons := buttons);
      match Fire(s1, Draw, Events.Put(s1.events[Draw], "scene", Events.Owner))
      case Err(e) => Err(e)
      case Ok((s2, effs)) =>
        NoPositionKeepsButtons(Events.Put(s1.events[Draw], "scene", Events.Owner), s1.buttons, s2.buttons);
        Ok((s2, DrawTrace(s.ids, fade) + effs))
  }

  /** Hover updates by an event without position handlers change nothing. */
  lemma NoPositionKeepsButtons(ev: Events.Event<Callback>, before: map<string, Button>, after: map<string, Button>)
    requires HoverOnly(before, after)
    requires forall id :: id in before ==> (after[id].hovered ==
      if HandlesPosition(ev, id) then CursorOn(before[id], ev.data) else before[id].hovered)
    ensures NoPositionHandler(ev) ==> after == before
  {
    if NoPositionHandler(ev) {
      forall id | id in before ensures after[id] == before[id] {
        assert !HandlesPosition(ev, id);
      }
    }
  }

  /** In the old scene every button draw comes before every draw-event call,
      the reverse of the current generation's order. */
  lemma ButtonsBeforeHandlers(s: Scene, dt: real)
    requires Valid(s) && SceneDraw(s, dt).Ok?
    ensures var effs := SceneDraw(s, dt).value.1;
      && |s.ids| <= |effs|
      && (forall i :: 0 <= i < |s.ids| ==> effs[i].DrewButton? && effs[i].button == s.ids[i])
      && (forall i :: |s.ids| <= i < |effs| ==> effs[i].Called?)
  {
    var effs := SceneDraw(s, dt).value.1;
    var fade := MathOps.Linear(s.anim.cache[Fade].n, FadeTarget(s.show), FadeSpeed * dt, Animation.DefaultHold);
    var calls := AppCalls(Events.Invoke(Events.Put(s.events[Draw], "scene", Events.Owner)));
    assert effs == DrawTrace(s.ids, fade) + calls;
    forall i | |s.ids| <= i < |effs| ensures effs[i].Called? {
      assert effs[i] == calls[i - |s.ids|];
      assert effs[i] in calls;
    }
  }
}

=== FILE: legacy_types.dfy ===
/** The older generation's shared types (gui/gui_types.py) where they differ
    from the SDK.  Its `linear`, `clamp`, `vector.lerp`, `vector.is_in_bounds`,
    `color.__mul__`, `color.lerp`, the event accessor and the event call
    behave exactly like the SDK's and are modelled by the same members
    (`MathOps`, `Vectors`, `Colors`, `Events`); what remains is the tuple
    conversion of vectors and the tuple-driven `+`/`-` of events. */
module LegacyTypes {
  import opened Wrappers
  import Vectors
  import Events

  /** `as_tuple` as written: `x` and `y` come from the tuple's first two
      entries, and `z` from its third only when the value 2 is one of the
      entries (`2 in vec` tests membership, not length).  Python compares
      `2 == 2.0`, so any entry equal to two triggers the third read. */
  function AsTuple(v: Vectors.Vector, tpl: seq<real>): (r: Result<Vectors.Vector>)
    ensures r.Ok? <==> |tpl| >= 2 && (2.0 in tpl ==> |tpl| >= 3)
    ensures r.Err? ==> r.error == IndexError
    ensures r.Ok? ==> r.value.x == tpl[0] && r.value.y == tpl[1]
    ensures r.Ok? && 2.0 in tpl ==> r.value.z == tpl[2]
    ensures r.Ok? && 2.0 !in tpl ==> r.value.z == v.z
  {
    if |tpl| < 2 then Err(IndexError)
    else
      var v1 := v.(x := tpl[0], y := tpl[1]);
      if 2.0 in tpl then
        if |tpl| < 3 then Err(IndexError) else Ok(v1.(z := tpl[2]))
      else Ok(v1)
  }

  /** Where the conversion as written agrees with the SDK's `raw`: exactly
      when "2 is an entry" and "there are three entries" coincide. */
  lemma AsTupleAgreesWithRaw(v: Vectors.Vector, tpl: seq<real>)
    requires |tpl| >= 2
    requires (2.0 in tpl) <==> |tpl| == 3
    ensures AsTuple(v, tpl) == Vectors.Raw(v, tpl)
  {
  }

  /** A three-entry tuple without a 2 loses its third entry, which `raw` keeps. */
  lemma AsTupleDropsThird()
    ensures AsTuple(Vectors.Origin(), [1.0, 1.0, 5.0]) == Ok(Vectors.Vector(1.0, 1.0, 0.0))
    ensures Vectors.Raw(Vectors.Origin(), [1.0, 1.0, 5.0]) == Ok(Vectors.Vector(1.0, 1.0, 5.0))
  {
    assert 2.0 !in [1.0, 1.0, 5.0];
  }

  /** A pair holding a 2 (a window two pixels wide) raises, where `raw` converts it. */
  lemma AsTupleRaisesOnPairWithTwo(h: real)
    ensures AsTuple(Vectors.Origin(), [2.0, h]) == Err(IndexError)
    ensures Vectors.Raw(Vectors.Origin(), [2.0, h]) == Ok(Vectors.Vector(2.0, h, 0.0))
  {
    assert [2.0, h][0] == 2.0;
  }

  /** The argument of the old event's `+`: a 2-tuple `(key, value)`, a 3-tuple
      `(method, name, allow_args)`, or a tuple of any other length. */
  datatype Addition<H> =
    | Data(key: string, value: Events.Datum)
    | Handler(fn: H, name: string, allowArgs: bool)
    | Malformed(length: nat)

  const InvalidStructure: string := "Invalid data structure added"

  /** The old event's `__add__`, dispatching on the tuple's length: two
      entries store a bag value, three register a handler, any other length
      raises.  (The operator mutates the event and evaluates to None; the
      model returns the mutated event.) */
  function Add<H>(e: Events.Event<H>, info: Addition<H>): (r: Result<Events.Event<H>>)
    requires info.Malformed? ==> info.length != 2 && info.length != 3
    ensures r.Err? <==> info.Malformed?
    ensures r.Err? ==> r.error == Raised(InvalidStructure)
    ensures info.Data? ==> r.value.order == e.order && r.value.handlers == e.handlers
    ensures info.Data? ==> Events.Get(r.value, info.key) == Some(info.value)
    ensures info.Data? ==> forall k :: k != info.key ==> Events.Get(r.value, k) == Events.Get(e, k)
    ensures info.Handler? ==> r.value.data == e.data
    ensures info.Handler? ==>
      info.name in r.value.handlers && r.value.handlers[info.name] == Events.Entry(info.fn, info.allowArgs)
    ensures info.Handler? && info.name in e.handlers ==> r.value.order == e.order
    ensures info.Handler? && info.name !in e.handlers ==> r.value.order == e.order + [info.name]
    ensures Events.Valid(e) && r.Ok? ==> Events.Valid(r.value)
  {
    match info
    case Data(k, v) => Ok(Events.Put(e, k, v))
    case Handler(m, n, a) => Ok(Events.Set(e, m, n, a))
    case Malformed(_) => Err(Raised(InvalidStructure))
  }

  /** The old `-`: `del` on the registry, so a missing name raises `KeyError`
      and a present one leaves, the rest keeping its order. */
  function Sub<H>(e: Events.Event<H>, name: string): (r: Result<Events.Event<H>>)
    ensures r.Ok? <==> name in e.handlers
    ensures r.Err? ==> r.error == KeyError(name)
    ensures r.Ok? ==> name !in r.value.handlers && r.value.data == e.data
    ensures r.Ok? ==> r.value.order == Events.Without(e.order, name)
    ensures r.Ok? ==> forall n :: n != name && n in e.handlers ==> n in r.value.handlers && r.value.handlers[n] == e.handlers[n]
  {
    if name in e.handlers then
      Ok(Events.Event(Events.Without(e.order, name), e.handlers - {name}, e.data))
    else Err(KeyError(name))
  }

  /** Adding a handler and taking it away again restores the registry when
      the name was new; taking away an unregistered name always raises. */
  lemma {:induction false} AddThenSub<H>(e: Events.Event<H>, m: H, name: string, allowArgs: bool)
    requires Events.Valid(e) && name !in e.handlers
    ensures Add(e, Handler(m, name, allowArgs)).Ok?
    ensures var e1 := Add(e, Handler(m, name, allowArgs)).value;
      Sub(e1, name) == Ok(e)
    ensures Sub(e, name) == Err(KeyError(name))
  {
    var e1 := Add(e, Handler(m, name, allowArgs)).value;
    assert name !in e.order;
    WithoutAppended(e.order, name);
    assert e1.handlers - {name} == e.handlers;
  }

  /** Appending a name that was absent and taking it out gives the list back. */
  lemma {:induction false} WithoutAppended(s: seq<string>, x: string)
    requires x !in s
    ensures Events.Without(s + [x], x) == s
    decreases |s|
  {
    if s == [] {
      assert [x][1..] == [];
    } else {
      assert (s + [x])[0] == s[0];
      assert (s + [x])[1..] == s[1..] + [x];
      WithoutAppended(s[1..], x);
    }
  }
}

=== FILE: math_ops.dfy ===
/** The two numeric helpers every animation is built on: a linear step toward
    a target with a hard snap once the target is close, and clamping.
    Numbers are modelled as `real`; floating-point rounding is not modelled. */
module MathOps {

  /** The step before snapping: `start` moved the fraction `weight` of the way
      to `end`. */
  function Step(start: real, end: real, weight: real): real
  {
    (end - start) * weight + start
  }

  function Abs(x: real): real
  {
    if x < 0.0 then -x else x
  }

  /** `math.linear`: equal ends return `end`; otherwise take the step and snap
      to `end` when the step lands strictly closer than `hold`. */
  function Linear(start: real, end: real, weight: real, hold: real): (r: real)
    ensures start == end ==> r == end
    ensures start != end && Abs(Step(start, end, weight) - end) < hold ==> r == end
    ensures start != end && Abs(Step(start, end, weight) - end) >= hold ==> r == Step(start, end, weight)
  {
    if start == end then end
    else
      var delta := Step(start, end, weight);
      if Abs(delta - end) < hold then end else delta
  }

  /** `math.clamp`: the upper bound is checked first, then the lower one. */
  function Clamp(value: real, lo: real, hi: real): (r: real)
    ensures value > hi ==> r == hi
    ensures value <= hi && value < lo ==> r == lo
    ensures lo <= value <= hi ==> r == value
  {
    if value > hi then hi
    else if value < lo then lo
    else value
  }

  /** A weight of zero never moves a value that is at least `hold` away. */
  lemma LinearZeroWeight(start: real, end: real, hold: real)
    requires Abs(end - start) >= hold
    ensures Linear(start, end, 0.0, hold) == start
  {
  }

  /** For a weight in [0, 1] the result lies between the two ends, inclusive. */
  lemma LinearBetween(start: real, end: real, weight: real, hold: real)
    requires 0.0 <= weight <= 1.0
    ensures start <= end ==> start <= Linear(start, end, weight, hold) <= end
    ensures end <= start ==> end <= Linear(start, end, weight, hold) <= start
  {
    StepBetween(start, end, weight);
  }

  /** The unsnapped step for a weight in [0, 1] lies between the two ends. */
  lemma StepBetween(start: real, end: real, weight: real)
    requires 0.0 <= weight <= 1.0
    ensures start <= end ==> start <= Step(start, end, weight) <= end
    ensures end <= start ==> end <= Step(start, end, weight) <= start
  {
    var d := end - start;
    StepScale(d, weight);
    assert Step(start, end, weight) == d * weight + start;
  }

  /** Multiplying a non-negative distance by a weight in [0, 1] keeps it in [0, d]. */
  lemma StepScale(d: real, w: real)
    requires 0.0 <= w <= 1.0
    ensures d >= 0.0 ==> 0.0 <= d * w <= d
    ensures d <= 0.0 ==> d <= d * w <= 0.0
  {
    if d >= 0.0 {
      assert d * w <= d * 1.0;
    } else {
      assert d * w >= d * 1.0;
    }
  }

  /** A weight in [0, 1] never moves a value further from its target. */
  lemma LinearApproaches(start: real, end: real, weight: real, hold: real)
    requires 0.0 <= weight <= 1.0
    ensures Abs(Linear(start, end, weight, hold) - end) <= Abs(start - end)
  {
    LinearBetween(start, end, weight, hold);
  }

  /** Once a value is strictly within `hold` of its target, one more step with
      a weight in [0, 1] lands on the target exactly: the hard snap. */
  lemma LinearSnapsWhenClose(start: real, end: real, weight: real, hold: real)
    requires 0.0 <= weight <= 1.0
    requires Abs(start - end) < hold
    ensures Linear(start, end, weight, hold) == end
  {
    if start != end {
      var d := end - start;
      var step := Step(start, end, weight);
      assert step - end == d * weight - d;
      if d >= 0.0 {
        StepScale(d, weight);
      } else {
        StepScale(d, weight);
      }
    }
  }

  /** A full weight of one reaches the target in a single step. */
  lemma LinearFullWeight(start: real, end: real, hold: real)
    ensures Linear(start, end, 1.0, hold) == end
  {
  }

  /** For `lo <= hi` the clamped value lies in [lo, hi]. */
  lemma ClampInRange(value: real, lo: real, hi: real)
    requires lo <= hi
    ensures lo <= Clamp(value, lo, hi) <= hi
  {
  }

  /** Clamping twice is the same as clamping once. */
  lemma ClampIdempotent(value: real, lo: real, hi: real)
    requires lo <= hi
    ensures Clamp(Clamp(value, lo, hi), lo, hi) == Clamp(value, lo, hi)
  {
  }

  /** `math.clamp` on integers, as the scene-index code uses it. */
  function ClampInt(value: int, lo: int, hi: int): (r: int)
    ensures r as real == Clamp(value as real, lo as real, hi as real)
  {
    if value > hi then hi
    else if value < lo then lo
    else value
  }

  /** For `lo <= hi` the clamped integer lies in [lo, hi] and a value already
      inside is returned unchanged. */
  lemma ClampIntInRange(value: int, lo: int, hi: int)
    requires lo <= hi
    ensures lo <= ClampInt(value, lo, hi) <= hi
    ensures lo <= value <= hi ==> ClampInt(value, lo, hi) == value
  {
  }
}

=== FILE: scene.dfy ===
/** A scene of the current generation (user_interface/scene.py): a list of
    attached widgets, six named events, a show flag and a fade animation.
    Each input callback stores its raw arguments in its event's bag and
    invokes that event; handlers are either application callbacks (recorded
    as effects) or the mouse handlers of an attached button (which update the
    button or fire its press callback). */
module Scenes {
  import opened Wrappers
  import MathOps
  import Vectors
  import Colors
  import Events
  import Animation
  import Widgets

  /** `SCENE_ANIMATION_SPEED`. */
  const SceneAnimationSpeed: real := 10.0
  const Fade: string := "Fade"

  /** The six events every scene owns, and the names they are keyed by. */
  datatype EventKind = OnDraw | OnKeyboardInput | OnCharInput | OnMousePosition | OnMouseInput | OnMouseScroll

  function KindName(k: EventKind): string
  {
    match k
    case OnDraw => "draw"
    case OnKeyboardInput => "keyboard_input"
    case OnCharInput => "char_input"
    case OnMousePosition => "mouse_position"
    case OnMouseInput => "mouse_input"
    case OnMouseScroll => "mouse_scroll"
  }

  /** The event a name selects, if any. */
  function KindOf(name: string): (r: Option<EventKind>)
    ensures r.Some? ==> KindName(r.value) == name
  {
    if name == "draw" then Some(OnDraw)
    else if name == "keyboard_input" then Some(OnKeyboardInput)
    else if name == "char_input" then Some(OnCharInput)
    else if name == "mouse_position" then Some(OnMousePosition)
    else if name == "mouse_input" then Some(OnMouseInput)
    else if name == "mouse_scroll" then Some(OnMouseScroll)
    else None
  }

  /** Every event's own name selects it, and only the six names select anything. */
  lemma KindNameRoundTrip(k: EventKind, name: string)
    ensures KindOf(KindName(k)) == Some(k)
    ensures KindOf(name).Some? <==> name in {"draw", "keyboard_input", "char_input", "mouse_position", "mouse_input", "mouse_scroll"}
  {
  }

  /** A handler registered on a scene event: the mouse-position or
      mouse-input handler of the element at an index, or an application
      callable identified by a number. */
  datatype Callback = ButtonMousePosition(element: nat) | ButtonMouseInput(element: nat) | App(id: nat)

  /** What a scene does that can be observed: an application handler called
      (with the accessor's bag when it allows arguments), a button's press
      callback called, or a button drawn with a fade and background colour. */
  datatype Effect =
    | Called(id: nat, args: Option<Events.Bag>)
    | Pressed(callback: nat)
    | Drew(element: nat, fade: real, background: Colors.Color)

  datatype Scene = Scene(index: int, show: bool, elements: seq<Widgets.Widget>,
                         events: map<EventKind, Events.Event<Callback>>, anim: Animation.Animations)

  /** Exactly the six events exist and each registry is a dict. */
  ghost predicate Valid(s: Scene)
  {
    forall k: EventKind :: k in s.events && Events.Valid(s.events[k])
  }

  /** The fade is a number and every element's animations are prepared. */
  ghost predicate Ready(s: Scene)
  {
    && Fade in s.anim.cache && s.anim.cache[Fade].Num?
    && (forall i :: 0 <= i < |s.elements| ==> Widgets.Ready(s.elements[i]))
  }

  /** A map holding the six kinds holds every kind. */
  lemma EveryKind<V>(m: map<EventKind, V>)
    requires OnDraw in m && OnKeyboardInput in m && OnCharInput in m
    requires OnMousePosition in m && OnMouseInput in m && OnMouseScroll in m
    ensures forall k: EventKind :: k in m
  {
    forall k: EventKind ensures k in m {
      match k
      case OnDraw =>
      case OnKeyboardInput =>
      case OnCharInput =>
      case OnMousePosition =>
      case OnMouseInput =>
      case OnMouseScroll =>
    }
  }

  /** A new scene: index -1, hidden, no elements, the six empty events, and
      the fade prepared at 0. */
  function New(): (s: Scene)
    ensures Valid(s) && Ready(s)
    ensures s.index == -1 && !s.show && s.elements == []
    ensures forall k: EventKind :: k in s.events && s.events[k].order == [] && s.events[k].data == map[]
    ensures Animation.Value(s.anim, Fade) == Ok(Animation.Num(0.0))
  {
    var e := Events.New<Callback>();
    var events := map[OnDraw := e, OnKeyboardInput := e, OnCharInput := e,
                      OnMousePosition := e, OnMouseInput := e, OnMouseScroll := e];
    EveryKind(events);
    Scene(-1, false, [], events, Animation.Prepare(Animation.New(), Fade, Animation.Num(0.0)))
  }

  /** `set_event`: a name that is not one of the six events is silently
      ignored; otherwise the handler is registered under `name` with
      arguments allowed. */
  function SetEvent(s: Scene, event: string, fn: Callback, name: string): (r: Scene)
    ensures Valid(s) ==> Valid(r)
    ensures KindOf(event).None? ==> r == s
    ensures Valid(s) && KindOf(event).Some? ==>
      r == s.(events := s.events[KindOf(event).value := Events.Set(s.events[KindOf(event).value], fn, name, true)])
  {
    match KindOf(event)
    case None => s
    case Some(k) =>
      if k !in s.events then s
      else s.(events := s.events[k := Events.Set(s.events[k], fn, name, true)])
  }

  /** `attach_element`: append and return the new element's index (the
      element is a fresh object, so `list.index` finds it at the end). */
  function AttachElement(s: Scene, w: Widgets.Widget): (r: (Scene, nat))
    ensures r.1 == |s.elements| && r.0.elements == s.elements + [w]
    ensures r.0 == s.(elements := r.0.elements)
  {
    (s.(elements := s.elements + [w]), |s.elements|)
  }

  /** The attach step of a button's constructor: attach, then register its
      two mouse handlers under `ButtonIcon::<index>`. */
  function AttachButton(s: Scene, w: Widgets.Widget): (r: (Scene, nat))
    ensures Valid(s) ==> Valid(r.0)
    ensures r.1 == |s.elements| && r.0.elements == s.elements + [w]
    ensures r.0.index == s.index && r.0.show == s.show && r.0.anim == s.anim
  {
    var (s1, i) := AttachElement(s, w);
    var s2 := SetEvent(s1, "mouse_position", ButtonMousePosition(i), Widgets.HandlerName(i));
    var s3 := SetEvent(s2, "mouse_input", ButtonMouseInput(i), Widgets.HandlerName(i));
    (s3, i)
  }

  /** A button's two mouse handlers end up registered, with arguments, under
      its handler name, and the other four events are untouched. */
  lemma AttachButtonRegisters(s: Scene, w: Widgets.Widget)
    requires Valid(s)
    ensures var (r, i) := AttachButton(s, w);
      && r.events[OnMousePosition] == Events.Set(s.events[OnMousePosition], ButtonMousePosition(i), Widgets.HandlerName(i), true)
      && r.events[OnMouseInput] == Events.Set(s.events[OnMouseInput], ButtonMouseInput(i), Widgets.HandlerName(i), true)
      && (forall k :: k != OnMousePosition && k != OnMouseInput ==> r.events[k] == s.events[k])
  {
    var (s1, i) := AttachElement(s, w);
    assert KindOf("mouse_position") == Some(OnMousePosition);
    var s2 := SetEvent(s1, "mouse_position", ButtonMousePosition(i), Widgets.HandlerName(i));
    assert s2.events == s.events[OnMousePosition := Events.Set(s.events[OnMousePosition], ButtonMousePosition(i), Widgets.HandlerName(i), true)];
    assert KindOf("mouse_input") == Some(OnMouseInput);
  }

  /** Constructing an icon button on a scene: it takes the next index. */
  function AttachIconButton(s: Scene, position: Vectors.Vector, size: real, callback: Option<nat>): (r: (Scene, nat))
    ensures Valid(s) ==> Valid(r.0)
    ensures Ready(s) ==> Ready(r.0)
    ensures r.1 == |s.elements| && |r.0.elements| == |s.elements| + 1
    ensures r.0.elements[r.1] == Widgets.NewIconButton(r.1, position, size, callback)
  {
    AttachButton(s, Widgets.NewIconButton(|s.elements|, position, size, callback))
  }

  /** Constructing an icon-text button on a scene. */
  function AttachIconTextButton(s: Scene, position: Vectors.Vector, size: real, textWidth: real, callback: Option<nat>): (r: (Scene, nat))
    ensures Valid(s) ==> Valid(r.0)
    ensures Ready(s) ==> Ready(r.0)
    ensures r.1 == |s.elements| && |r.0.elements| == |s.elements| + 1
    ensures r.0.elements[r.1] == Widgets.NewIconTextButton(r.1, position, size, textWidth, callback)
  {
    AttachButton(s, Widgets.NewIconTextButton(|s.elements|, position, size, textWidth, callback))
  }

  /** `index(v)`: with no argument return the index, otherwise store it. */
  function Index(s: Scene, v: Option<int>): (r: (Scene, Option<int>))
    ensures v.None? ==> r.0 == s && r.1 == Some(s.index)
    ensures v.Some? ==> r.1.None? && r.0.index == v.value && r.0 == s.(index := r.0.index)
    ensures Valid(s) ==> Valid(r.0)
  {
    if v.None? then (s, Some(s.index)) else (s.(index := v.value), None)
  }

  /** `show(v)`: with no argument return the flag, otherwise store it. */
  function Show(s: Scene, v: Option<bool>): (r: (Scene, Option<bool>))
    ensures v.None? ==> r.0 == s && r.1 == Some(s.show)
    ensures v.Some? ==> r.1.None? && r.0.show == v.value && r.0 == s.(show := r.0.show)
    ensures Valid(s) ==> Valid(r.0)
  {
    if v.None? then (s, Some(s.show)) else (s.(show := v.value), None)
  }

  /** What is stored is what is read back, and storing changes nothing else. */
  lemma IndexShowRoundTrip(s: Scene, k: int, b: bool)
    ensures Index(Index(s, Some(k)).0, None).1 == Some(k)
    ensures Show(Show(s, Some(b)).0, None).1 == Some(b)
    ensures Show(Index(s, Some(k)).0, None).1 == Show(s, None).1
    ensures Index(Show(s, Some(b)).0, None).1 == Index(s, None).1
  {
  }

  /** Python's `==` between a widget and an `int`: widgets define no
      equality, so an object compares equal only to itself, never to a number. */
  function WidgetEqualsInt(w: Widgets.Widget, i: int): bool
  {
    false
  }

  /** `element(index)` as written: it asks whether the integer is one of the
      widgets (`index in self._ui`) rather than a valid position, so the
      subscript is never reached. */
  function ElementAsWritten(s: Scene, i: int): (r: Result<Option<Widgets.Widget>>)
    ensures r == Ok(None)
  {
    if exists k :: 0 <= k < |s.elements| && WidgetEqualsInt(s.elements[k], i) then
      match PyIndex(s.elements, i)
      case Ok(w) => Ok(Some(w))
      case Err(e) => Err(e)
    else Ok(None)
  }

  /** `element(index)` as evidently intended: the element at a valid index. */
  function ElementAt(s: Scene, i: int): (r: Option<Widgets.Widget>)
    ensures r.Some? <==> 0 <= i < |s.elements|
    ensures r.Some? ==> r.value == s.elements[i]
  {
    if 0 <= i < |s.elements| then Some(s.elements[i]) else None
  }

  /** The index `attach_element` hands out finds the element again with the
      corrected lookup, and never with the lookup as written. */
  lemma AttachThenElement(s: Scene, w: Widgets.Widget)
    ensures var (s1, i) := AttachElement(s, w);
      ElementAt(s1, i) == Some(w) && ElementAsWritten(s1, i) == Ok(None)
  {
  }

  // ---------------------------------------------------------------------
  // Running handlers

  /** `after` is `before` with at most the hover flags changed. */
  ghost predicate HoverOnly(before: seq<Widgets.Widget>, after: seq<Widgets.Widget>)
  {
    && |after| == |before|
    && forall j :: 0 <= j < |before| ==> after[j] == before[j].(hovered := after[j].hovered)
  }

  /** Whether a cursor at (`x`, `y`) lies on the button, by the test its
      position handler makes with the width it reads. */
  predicate CursorOn(w: Widgets.Widget, x: real, y: real)
  {
    Widgets.HitWidth(w).Ok? && Vectors.IsInBounds(Vectors.Vector(x, y, 0.0), w.position, Widgets.HitWidth(w).value, w.size)
  }

  /** The same test with the cursor read from a bag; false when the bag does
      not hold two numbers. */
  predicate CursorOnBag(w: Widgets.Widget, bag: Events.Bag)
  {
    && Widgets.NumberArg(bag, "x").Ok? && Widgets.NumberArg(bag, "y").Ok?
    && CursorOn(w, Widgets.NumberArg(bag, "x").value, Widgets.NumberArg(bag, "y").value)
  }

  /** A call that cannot raise: an application callable, or a button handler
      that receives the accessor and, when it is the position handler of an
      attached button, finds two numbers there and a width it can read. */
  ghost predicate Callable(elements: seq<Widgets.Widget>, c: Events.Call<Callback>)
  {
    || c.handler.App?
    || (&& c.args.Some?
        && (c.handler.ButtonMousePosition? && c.handler.element < |elements| ==>
              && Widgets.NumberArg(c.args.value, "x").Ok? && Widgets.NumberArg(c.args.value, "y").Ok?
              && Widgets.HitWidth(elements[c.handler.element]).Ok?))
  }

  /** One handler call.  A button handler whose element is not attached does
      nothing (buttons only register after attaching, so it does not arise). */
  function RunCall(elements: seq<Widgets.Widget>, c: Events.Call<Callback>): (r: Result<(seq<Widgets.Widget>, seq<Effect>)>)
    ensures r.Ok? ==> |r.value.0| == |elements|
    ensures c.handler.App? ==> r == Ok((elements, [Called(c.handler.id, c.args)]))
    ensures c.handler.ButtonMousePosition? && c.handler.element < |elements| ==>
      var hit := Widgets.OnMousePosition(elements[c.handler.element], c.args);
      (r.Ok? <==> hit.Ok?) && (r.Ok? ==> r.value == (elements[c.handler.element := hit.value], []))
    ensures c.handler.ButtonMouseInput? && c.handler.element < |elements| ==>
      var press := Widgets.OnMouseInput(elements[c.handler.element], c.args);
      (r.Ok? <==> press.Ok?)
      && (r.Ok? ==> r.value.0 == elements)
      && (r.Ok? ==> (r.value.1 != [] <==> press.value.Some?))
      && (r.Ok? && press.value.Some? ==> r.value.1 == [Pressed(press.value.value)])
    ensures !c.handler.App? && c.handler.element >= |elements| ==> r == Ok((elements, []))
    ensures r.Ok? && !c.handler.App? ==> forall e :: e in r.value.1 ==> e.Pressed?
    ensures r.Ok? ==> forall e :: e in r.value.1 ==> !e.Drew?
    ensures r.Ok? ==> forall i :: 0 <= i < |elements| && Widgets.Ready(elements[i]) ==> Widgets.Ready(r.value.0[i])
    ensures r.Ok? ==> HoverOnly(elements, r.value.0)
    ensures Callable(elements, c) ==> r.Ok?
  {
    match c.handler
    case App(id) => Ok((elements, [Called(id, c.args)]))
    case ButtonMousePosition(i) =>
      if i >= |elements| then Ok((elements, []))
      else
        (match Widgets.OnMousePosition(elements[i], c.args)
         case Err(e) => Err(e)
         case Ok(w) => Ok((elements[i := w], [])))
    case ButtonMouseInput(i) =>
      if i >= |elements| then Ok((elements, []))
      else
        (match Widgets.OnMouseInput(elements[i], c.args)
         case Err(e) => Err(e)
         case Ok(None) => Ok((elements, []))
         case Ok(Some(cb)) => Ok((elements, [Pressed(cb)])))
  }

  /** The application calls among `calls`, in order, as effects. */
  function AppCalls(calls: seq<Events.Call<Callback>>): (r: seq<Effect>)
    ensures forall e :: e in r ==> e.Called?
    ensures |r| <= |calls|
  {
    if calls == [] then []
    else (if calls[0].handler.App? then [Called(calls[0].handler.id, calls[0].args)] else [])
         + AppCalls(calls[1..])
  }

  /** The application-handler effects of a trace, in order. */
  function CalledOf(effects: seq<Effect>): (r: seq<Effect>)
    ensures forall e :: e in r ==> e in effects && e.Called?
    ensures forall e :: e in effects && e.Called? ==> e in r
  {
    if effects == [] then []
    else (if effects[0].Called? then [effects[0]] else []) + CalledOf(effects[1..])
  }

  lemma {:induction false} CalledOfAppend(a: seq<Effect>, b: seq<Effect>)
    ensures CalledOf(a + b) == CalledOf(a) + CalledOf(b)
    decreases |a|
  {
    if a != [] {
      assert (a + b)[1..] == a[1..] + b;
      CalledOfAppend(a[1..], b);
    } else {
      assert a + b == b;
    }
  }

  /** Invoking handlers in order; an exception from one handler propagates and
      the handlers after it do not run.  The application handlers are called
      exactly as the trace lists them, each once and in order. */
  function RunCalls(elements: seq<Widgets.Widget>, calls: seq<Events.Call<Callback>>): (r: Result<(seq<Widgets.Widget>, seq<Effect>)>)
    ensures r.Ok? ==> |r.value.0| == |elements|
    ensures r.Ok? ==> CalledOf(r.value.1) == AppCalls(calls)
    ensures r.Ok? ==> forall e :: e in r.value.1 ==> !e.Drew?
    ensures r.Ok? ==> forall i :: 0 <= i < |elements| && Widgets.Ready(elements[i]) ==> Widgets.Ready(r.value.0[i])
    ensures r.Ok? ==> HoverOnly(elements, r.value.0)
    ensures (forall i :: 0 <= i < |calls| ==> Callable(elements, calls[i])) ==> r.Ok?
    decreases |calls|
  {
    if calls == [] then Ok((elements, []))
    else
      match RunCall(elements, calls[0])
      case Err(e) => Err(e)
      case Ok((els, eff)) =>
        CallableKept(elements, els, calls);
        match RunCalls(els, calls[1..])
        case Err(e) => Err(e)
        case Ok((els2, effs)) =>
          CalledOfAppend(eff, effs);
          RunCallsStep(elements, els, els2, eff, effs);
          Ok((els2, eff + effs))
  }

  /** One call's result followed by the rest's keeps the elements' shape and
      readiness, and draws nothing. */
  lemma RunCallsStep(elements: seq<Widgets.Widget>, els: seq<Widgets.Widget>, els2: seq<Widgets.Widget>,
                     eff: seq<Effect>, effs: seq<Effect>)
    requires HoverOnly(elements, els) && HoverOnly(els, els2)
    requires forall i :: 0 <= i < |elements| && Widgets.Ready(elements[i]) ==> Widgets.Ready(els[i])
    requires forall i :: 0 <= i < |els| && Widgets.Ready(els[i]) ==> Widgets.Ready(els2[i])
    requires (forall e :: e in eff ==> !e.Drew?) && (forall e :: e in effs ==> !e.Drew?)
    ensures HoverOnly(elements, els2)
    ensures forall i :: 0 <= i < |elements| && Widgets.Ready(elements[i]) ==> Widgets.Ready(els2[i])
    ensures forall e :: e in eff + effs ==> !e.Drew?
  {
  }

  /** Running `calls` after an earlier result, whose error propagates. */
  function RunAfter(r: Result<(seq<Widgets.Widget>, seq<Effect>)>, calls: seq<Events.Call<Callback>>): Result<(seq<Widgets.Widget>, seq<Effect>)>
  {
    match r
    case Err(e) => Err(e)
    case Ok((els, effs)) =>
      match RunCalls(els, calls)
      case Err(e) => Err(e)
      case Ok((els2, effs2)) => Ok((els2, effs + effs2))
  }

  lemma RunCallsSingle(elements: seq<Widgets.Widget>, a: seq<Events.Call<Callback>>)
    requires |a| == 1
    ensures RunCalls(elements, a) == RunCall(elements, a[0])
  {
    assert a[1..] == [];
    match RunCall(elements, a[0])
    case Err(_) =>
    case Ok((els, eff)) => assert eff + [] == eff;
  }

  /** Running one call as a list is running that call, and running a
      concatenation is running its halves one after the other. */
  lemma {:induction false} RunCallsAppend(elements: seq<Widgets.Widget>, a: seq<Events.Call<Callback>>, b: seq<Events.Call<Callback>>)
    ensures |a| == 1 ==> RunCalls(elements, a) == RunCall(elements, a[0])
    ensures RunCalls(elements, a + b) == RunAfter(RunCalls(elements, a), b)
    decreases |a|
  {
    if a == [] {
      assert a + b == b;
      match RunCalls(elements, b)
      case Err(_) =>
      case Ok((els2, effs2)) => assert [] + effs2 == effs2;
    } else {
      assert (a + b)[0] == a[0];
      assert (a + b)[1..] == a[1..] + b;
      if |a| == 1 {
        RunCallsSingle(elements, a);
      }
      match RunCall(elements, a[0])
      case Err(_) =>
      case Ok((els, eff)) =>
        RunCallsAppend(els, a[1..], b);
        match RunCalls(els, a[1..])
        case Err(_) =>
        case Ok((els1, effs1)) =>
          match RunCalls(els1, b)
          case Err(_) =>
          case Ok((els2, effs2)) => assert eff + (effs1 + effs2) == (eff + effs1) + effs2;
    }
  }

  /** Hover changes never make a call raise that did not before. */
  lemma CallableKept(before: seq<Widgets.Widget>, after: seq<Widgets.Widget>, calls: seq<Events.Call<Callback>>)
    requires HoverOnly(before, after) && calls != []
    ensures (forall i :: 0 <= i < |calls| ==> Callable(before, calls[i])) ==>
      forall i :: 0 <= i < |calls[1..]| ==> Callable(after, calls[1..][i])
  {
    if forall i :: 0 <= i < |calls| ==> Callable(before, calls[i]) {
      forall i | 0 <= i < |calls[1..]| ensures Callable(after, calls[1..][i]) {
        var c := calls[i + 1];
        assert calls[1..][i] == c;
        assert Callable(before, c);
        if c.handler.ButtonMousePosition? && c.handler.element < |after| {
          assert after[c.handler.element] == before[c.handler.element].(hovered := after[c.handler.element].hovered);
        }
      }
    }
  }

  /** Some call among `calls` is the position handler of element `k`. */
  ghost predicate PositionCalled(calls: seq<Events.Call<Callback>>, k: nat)
  {
    exists i :: 0 <= i < |calls| && calls[i].handler == ButtonMousePosition(k)
  }

  /** After `calls` run, an attached button is hovered exactly when the
      cursor in the bag they share lies on it, if one of them is its position
      handler; otherwise its flag is what it was. */
  lemma {:induction false} RunCallsHover(elements: seq<Widgets.Widget>, calls: seq<Events.Call<Callback>>, bag: Events.Bag, k: nat)
    requires forall i :: 0 <= i < |calls| && calls[i].args.Some? ==> calls[i].args.value == bag
    requires k < |elements| && RunCalls(elements, calls).Ok?
    ensures RunCalls(elements, calls).value.0[k].hovered ==
      if PositionCalled(calls, k) then CursorOnBag(elements[k], bag) else elements[k].hovered
    decreases |calls|
  {
    if calls != [] {
      var c := calls[0];
      assert RunCall(elements, c).Ok?;
      var els := RunCall(elements, c).value.0;
      assert RunCalls(els, calls[1..]).Ok?;
      assert RunCalls(elements, calls).value.0 == RunCalls(els, calls[1..]).value.0;
      forall i | 0 <= i < |calls[1..]| && calls[1..][i].args.Some?
        ensures calls[1..][i].args.value == bag
      {
        assert calls[1..][i] == calls[i + 1];
      }
      RunCallsHover(els, calls[1..], bag, k);
      assert els[k] == elements[k].(hovered := els[k].hovered);
      assert CursorOnBag(els[k], bag) == CursorOnBag(elements[k], bag);
      if PositionCalled(calls[1..], k) {
        var j :| 0 <= j < |calls[1..]| && calls[1..][j].handler == ButtonMousePosition(k);
        assert calls[j + 1] == calls[1..][j];
      }
      if c.handler == ButtonMousePosition(k) {
        assert PositionCalled(calls, k);
        assert els[k].hovered == CursorOnBag(elements[k], bag);
      } else {
        if PositionCalled(calls, k) {
          var j :| 0 <= j < |calls| && calls[j].handler == ButtonMousePosition(k);
          assert j > 0 && calls[1..][j - 1] == calls[j];
        }
        assert els[k] == elements[k];
      }
    }
  }

  /** No call among `calls` is a position handler. */
  ghost predicate NoPositionCall(calls: seq<Events.Call<Callback>>)
  {
    forall i :: 0 <= i < |calls| ==> !calls[i].handler.ButtonMousePosition?
  }

  /** The press callback a call fires against `elements`, if any. */
  function Fired(elements: seq<Widgets.Widget>, c: Events.Call<Callback>): (r: Option<nat>)
    ensures r.Some? <==>
      c.handler.ButtonMouseInput? && c.handler.element < |elements|
      && Widgets.OnMouseInput(elements[c.handler.element], c.args).Ok?
      && Widgets.OnMouseInput(elements[c.handler.element], c.args).value.Some?
    ensures r.Some? ==> Widgets.OnMouseInput(elements[c.handler.element], c.args) == Ok(r)
  {
    if c.handler.ButtonMouseInput? && c.handler.element < |elements| then
      match Widgets.OnMouseInput(elements[c.handler.element], c.args)
      case Ok(Some(cb)) => Some(cb)
      case _ => None
    else None
  }

  /** The presses `calls` fire against unchanging elements, in call order. */
  function Firings(elements: seq<Widgets.Widget>, calls: seq<Events.Call<Callback>>): (r: seq<Effect>)
    ensures forall e :: e in r ==> e.Pressed?
  {
    if calls == [] then []
    else (if Fired(elements, calls[0]).Some? then [Pressed(Fired(elements, calls[0]).value)] else [])
         + Firings(elements, calls[1..])
  }

  /** A press is among the firings exactly when some call fires it. */
  lemma {:induction false} FiringsMember(elements: seq<Widgets.Widget>, calls: seq<Events.Call<Callback>>, cb: nat)
    ensures Pressed(cb) in Firings(elements, calls) <==>
      exists i :: 0 <= i < |calls| && Fired(elements, calls[i]) == Some(cb)
    decreases |calls|
  {
    if calls != [] {
      FiringsMember(elements, calls[1..], cb);
      if exists i :: 0 <= i < |calls[1..]| && Fired(elements, calls[1..][i]) == Some(cb) {
        var i :| 0 <= i < |calls[1..]| && Fired(elements, calls[1..][i]) == Some(cb);
        assert calls[i + 1] == calls[1..][i];
      }
      if exists i :: 0 <= i < |calls| && Fired(elements, calls[i]) == Some(cb) {
        var i :| 0 <= i < |calls| && Fired(elements, calls[i]) == Some(cb);
        if i > 0 {
          assert calls[1..][i - 1] == calls[i];
        }
      }
    }
  }

  /** The press effects of a trace, in order. */
  function PressedOf(effects: seq<Effect>): (r: seq<Effect>)
    ensures forall e :: e in r <==> e in effects && e.Pressed?
  {
    if effects == [] then []
    else (if effects[0].Pressed? then [effects[0]] else []) + PressedOf(effects[1..])
  }

  lemma {:induction false} PressedOfAppend(a: seq<Effect>, b: seq<Effect>)
    ensures PressedOf(a + b) == PressedOf(a) + PressedOf(b)
    decreases |a|
  {
    if a != [] {
      assert (a + b)[1..] == a[1..] + b;
      PressedOfAppend(a[1..], b);
    } else {
      assert a + b == b;
    }
  }

  /** Without position handlers no element changes, every call succeeds on
      its own, and the presses are exactly those the calls fire, in order. */
  lemma {:induction false} RunCallsPresses(elements: seq<Widgets.Widget>, calls: seq<Events.Call<Callback>>)
    requires NoPositionCall(calls) && RunCalls(elements, calls).Ok?
    ensures RunCalls(elements, calls).value.0 == elements
    ensures forall i :: 0 <= i < |calls| ==> RunCall(elements, calls[i]).Ok?
    ensures PressedOf(RunCalls(elements, calls).value.1) == Firings(elements, calls)
    decreases |calls|
  {
    if calls != [] {
      var c := calls[0];
      assert RunCall(elements, c).Ok?;
      var (els, eff) := RunCall(elements, c).value;
      assert !c.handler.ButtonMousePosition?;
      assert els == elements;
      assert PressedOf(eff) == if Fired(elements, c).Some? then [Pressed(Fired(elements, c).value)] else [];
      assert NoPositionCall(calls[1..]) by {
        forall i | 0 <= i < |calls[1..]| ensures !calls[1..][i].handler.ButtonMousePosition? {
          assert calls[1..][i] == calls[i + 1];
        }
      }
      var rest := RunCalls(elements, calls[1..]);
      assert rest.Ok?;
      RunCallsPresses(elements, calls[1..]);
      forall i | 0 <= i < |calls| ensures RunCall(elements, calls[i]).Ok? {
        if i > 0 {
          assert calls[1..][i - 1] == calls[i];
        }
      }
      assert RunCalls(elements, calls).value.1 == eff + rest.value.1;
      PressedOfAppend(eff, rest.value.1);
    }
  }

  /** When every handler is an application callable, running them cannot
      fail, changes no element, and yields exactly the application calls. */
  lemma {:induction false} RunCallsAppOnly(elements: seq<Widgets.Widget>, calls: seq<Events.Call<Callback>>)
    requires forall i :: 0 <= i < |calls| ==> calls[i].handler.App?
    ensures RunCalls(elements, calls) == Ok((elements, AppCalls(calls)))
    decreases |calls|
  {
    if calls != [] {
      assert calls[0].handler.App?;
      RunCallsAppOnly(elements, calls[1..]);
    }
  }

  /** Every application call carries either nothing or the given bag. */
  lemma {:induction false} AppCallsCarry(calls: seq<Events.Call<Callback>>, bag: Events.Bag)
    requires forall i :: 0 <= i < |calls| && calls[i].args.Some? ==> calls[i].args.value == bag
    ensures forall e :: e in AppCalls(calls) && e.args.Some? ==> e.args.value == bag
    decreases |calls|
  {
    if calls != [] {
      AppCallsCarry(calls[1..], bag);
    }
  }

  /** Every handler of the event is an application callable. */
  ghost predicate AppOnly(e: Events.Event<Callback>)
  {
    forall n :: n in e.handlers ==> e.handlers[n].call.App?
  }

  /** A trace of draws holds no application call. */
  lemma {:induction false} CalledOfDrew(effects: seq<Effect>)
    requires forall i :: 0 <= i < |effects| ==> effects[i].Drew?
    ensures CalledOf(effects) == []
    decreases |effects|
  {
    if effects != [] {
      CalledOfDrew(effects[1..]);
    }
  }

  /** An event whose handlers are all application callables invokes only those. */
  lemma InvokeAppOnly(ev: Events.Event<Callback>)
    requires Events.Valid(ev)
    ensures AppOnly(ev) ==> RunCalls([], Events.Invoke(ev)).Ok?
    ensures forall els :: AppOnly(ev) ==> RunCalls(els, Events.Invoke(ev)) == Ok((els, AppCalls(Events.Invoke(ev))))
  {
    if AppOnly(ev) {
      var calls := Events.Invoke(ev);
      forall i | 0 <= i < |calls| ensures calls[i].handler.App? {
        assert ev.order[i] in ev.handlers;
      }
      forall els {
        RunCallsAppOnly(els, calls);
      }
      RunCallsAppOnly([], calls);
    }
  }

  /** Some handler of the event is the position handler of element `k`. */
  ghost predicate HandlesPosition(e: Events.Event<Callback>, k: nat)
  {
    exists n :: n in e.handlers && e.handlers[n].call == ButtonMousePosition(k)
  }

  /** Some handler of the event is the input handler of element `k`. */
  ghost predicate HandlesInput(e: Events.Event<Callback>, k: nat)
  {
    exists n :: n in e.handlers && e.handlers[n].call == ButtonMouseInput(k)
  }

  /** No handler of the event is a position handler. */
  ghost predicate NoPositionHandler(e: Events.Event<Callback>)
  {
    forall n :: n in e.handlers ==> !e.handlers[n].call.ButtonMousePosition?
  }

  /** Every button handler of the event receives the accessor, as every
      button registers them. */
  ghost predicate ButtonsTakeArgs(e: Events.Event<Callback>)
  {
    forall n :: n in e.handlers && !e.handlers[n].call.App? ==> e.handlers[n].allowArgs
  }

  /** A registered position handler is among the calls an invocation makes,
      and a position call an invocation makes comes from a registered one. */
  lemma HandlesPositionCalled(ev: Events.Event<Callback>, k: nat)
    requires Events.Valid(ev)
    ensures HandlesPosition(ev, k) <==> PositionCalled(Events.Invoke(ev), k)
  {
    var calls := Events.Invoke(ev);
    Events.InvokeCovers(ev);
    if HandlesPosition(ev, k) {
      var n :| n in ev.handlers && ev.handlers[n].call == ButtonMousePosition(k);
      var i :| 0 <= i < |calls| && calls[i] == Events.CallOf(ev, n);
    }
  }

  /** Running an event's handlers: the hover of each button whose position
      handler is registered follows the cursor in the bag, every other flag
      stays. */
  lemma RunEventHover(elements: seq<Widgets.Widget>, ev: Events.Event<Callback>)
    requires Events.Valid(ev) && RunCalls(elements, Events.Invoke(ev)).Ok?
    ensures forall k :: 0 <= k < |elements| ==>
      RunCalls(elements, Events.Invoke(ev)).value.0[k].hovered ==
        if HandlesPosition(ev, k) then CursorOnBag(elements[k], ev.data) else elements[k].hovered
  {
    var calls := Events.Invoke(ev);
    forall k | 0 <= k < |elements|
      ensures RunCalls(elements, calls).value.0[k].hovered ==
        if HandlesPosition(ev, k) then CursorOnBag(elements[k], ev.data) else elements[k].hovered
    {
      HandlesPositionCalled(ev, k);
      RunCallsHover(elements, calls, ev.data, k);
    }
  }

  /** Running an event without position handlers changes no element, each
      registered handler succeeds on its own, and the presses are those the
      handlers fire, in registration order. */
  lemma RunEventPresses(elements: seq<Widgets.Widget>, ev: Events.Event<Callback>)
    requires Events.Valid(ev) && NoPositionHandler(ev) && RunCalls(elements, Events.Invoke(ev)).Ok?
    ensures RunCalls(elements, Events.Invoke(ev)).value.0 == elements
    ensures PressedOf(RunCalls(elements, Events.Invoke(ev)).value.1) == Firings(elements, Events.Invoke(ev))
    ensures forall n :: n in ev.handlers ==> RunCall(elements, Events.CallOf(ev, n)).Ok?
  {
    var calls := Events.Invoke(ev);
    Events.InvokeCovers(ev);
    assert NoPositionCall(calls) by {
      forall i | 0 <= i < |calls| ensures !calls[i].handler.ButtonMousePosition? {
        assert ev.order[i] in ev.handlers;
      }
    }
    RunCallsPresses(elements, calls);
    forall n | n in ev.handlers ensures RunCall(elements, Events.CallOf(ev, n)).Ok? {
      var i :| 0 <= i < |calls| && calls[i] == Events.CallOf(ev, n);
    }
  }

  /** The bag holds a cursor and every element's width can be read. */
  ghost predicate CursorReady(elements: seq<Widgets.Widget>, bag: Events.Bag)
  {
    && (forall k :: 0 <= k < |elements| ==> Widgets.Ready(elements[k]))
    && Widgets.NumberArg(bag, "x").Ok? && Widgets.NumberArg(bag, "y").Ok?
  }

  /** Running an event's handlers cannot raise when every button handler
      takes the accessor and either no position handler is registered or the
      bag holds a cursor and the widths can be read. */
  lemma RunEventSucceeds(elements: seq<Widgets.Widget>, ev: Events.Event<Callback>)
    requires Events.Valid(ev) && ButtonsTakeArgs(ev)
    requires NoPositionHandler(ev) || CursorReady(elements, ev.data)
    ensures RunCalls(elements, Events.Invoke(ev)).Ok?
  {
    var calls := Events.Invoke(ev);
    forall i | 0 <= i < |calls| ensures Callable(elements, calls[i]) {
      assert ev.order[i] in ev.handlers;
    }
  }

  /** The three facts above, each under its own condition. */
  lemma RunEvent(elements: seq<Widgets.Widget>, ev: Events.Event<Callback>)
    requires Events.Valid(ev)
    ensures RunCalls(elements, Events.Invoke(ev)).Ok? ==> forall k :: 0 <= k < |elements| ==>
      (RunCalls(elements, Events.Invoke(ev)).value.0[k].hovered ==
        if HandlesPosition(ev, k) then CursorOnBag(elements[k], ev.data) else elements[k].hovered)
    ensures RunCalls(elements, Events.Invoke(ev)).Ok? && NoPositionHandler(ev) ==>
      && RunCalls(elements, Events.Invoke(ev)).value.0 == elements
      && PressedOf(RunCalls(elements, Events.Invoke(ev)).value.1) == Firings(elements, Events.Invoke(ev))
      && forall n :: n in ev.handlers ==> RunCall(elements, Events.CallOf(ev, n)).Ok?
    ensures ButtonsTakeArgs(ev) && (NoPositionHandler(ev) || CursorReady(elements, ev.data)) ==>
      RunCalls(elements, Events.Invoke(ev)).Ok?
  {
    if RunCalls(elements, Events.Invoke(ev)).Ok? {
      RunEventHover(elements, ev);
      if NoPositionHandler(ev) {
        RunEventPresses(elements, ev);
      }
    }
    if ButtonsTakeArgs(ev) && (NoPositionHandler(ev) || CursorReady(elements, ev.data)) {
      RunEventSucceeds(elements, ev);
    }
  }

  /** Invoke a scene event whose bag the caller has just filled (`ev` is the
      stored event with new bag values) and run its handlers. */
  function Run(s: Scene, name: EventKind, ev: Events.Event<Callback>): (r: Result<(Scene, seq<Effect>)>)
    requires Valid(s)
    requires ev.order == s.events[name].order && ev.handlers == s.events[name].handlers
    ensures r.Ok? ==>
      && Valid(r.value.0)
      && r.value.0 == s.(events := s.events[name := ev], elements := r.value.0.elements)
      && |r.value.0.elements| == |s.elements|
    ensures r.Ok? ==> CalledOf(r.value.1) == AppCalls(Events.Invoke(ev))
    ensures r.Ok? ==> forall e :: e in r.value.1 && e.Called? && e.args.Some? ==> e.args.value == ev.data
    ensures r.Ok? ==> forall e :: e in r.value.1 ==> !e.Drew?
    ensures r.Ok? && Ready(s) ==> Ready(r.value.0)
    ensures AppOnly(ev) ==> r.Ok?
    ensures r.Ok? ==> HoverOnly(s.elements, r.value.0.elements)
    ensures r.Ok? ==> forall k :: 0 <= k < |s.elements| ==> (r.value.0.elements[k].hovered ==
      if HandlesPosition(ev, k) then CursorOnBag(s.elements[k], ev.data) else s.elements[k].hovered)
    ensures r.Ok? && NoPositionHandler(ev) ==>
      r.value.0.elements == s.elements && PressedOf(r.value.1) == Firings(s.elements, Events.Invoke(ev))
    ensures ButtonsTakeArgs(ev) && (NoPositionHandler(ev) || CursorReady(s.elements, ev.data)) ==> r.Ok?
  {
    var calls := Events.Invoke(ev);
    InvokeAppOnly(ev);
    RunEvent(s.elements, ev);
    match RunCalls(s.elements, calls)
    case Err(e) => Err(e)
    case Ok((els, effs)) =>
      RunKeeps(s, name, ev, els, effs);
      Ok((s.(events := s.events[name := ev], elements := els), effs))
  }

  /** A successful run of the calls keeps the scene valid and ready, and
      passes every application handler the event's bag. */
  lemma RunKeeps(s: Scene, name: EventKind, ev: Events.Event<Callback>, els: seq<Widgets.Widget>, effs: seq<Effect>)
    requires Valid(s)
    requires ev.order == s.events[name].order && ev.handlers == s.events[name].handlers
    requires RunCalls(s.elements, Events.Invoke(ev)) == Ok((els, effs))
    ensures Valid(s.(events := s.events[name := ev], elements := els))
    ensures Ready(s) ==> Ready(s.(events := s.events[name := ev], elements := els))
    ensures forall e :: e in effs && e.Called? && e.args.Some? ==> e.args.value == ev.data
  {
    AppCallsCarry(Events.Invoke(ev), ev.data);
  }

  /** The keyboard event with window, key, scancode, action and mods stored. */
  function KeyboardEvent(s: Scene, window: int, key: int, scancode: int, action: int, mods: int): (ev: Events.Event<Callback>)
    requires Valid(s)
    ensures ev.order == s.events[OnKeyboardInput].order && ev.handlers == s.events[OnKeyboardInput].handlers
    ensures Events.Get(ev, "window") == Some(Events.Handle(window))
    ensures Events.Get(ev, "key") == Some(Events.Num(key as real))
    ensures Events.Get(ev, "scancode") == Some(Events.Num(scancode as real))
    ensures Events.Get(ev, "action") == Some(Events.Num(action as real))
    ensures Events.Get(ev, "mods") == Some(Events.Num(mods as real))
  {
    var e0 := s.events[OnKeyboardInput];
    var e1 := Events.Put(e0, "window", Events.Handle(window));
    var e2 := Events.Put(e1, "key", Events.Num(key as real));
    var e3 := Events.Put(e2, "scancode", Events.Num(scancode as real));
    var e4 := Events.Put(e3, "action", Events.Num(action as real));
    Events.Put(e4, "mods", Events.Num(mods as real))
  }

  /** `event_keyboard_input`: stores window, key, scancode, action and mods,
      then invokes the event once: on success the filled event is kept, its
      application handlers are called exactly as invocation lists them, and
      an event with only application handlers cannot fail. */
  function KeyboardInput(s: Scene, window: int, key: int, scancode: int, action: int, mods: int): (r: Result<(Scene, seq<Effect>)>)
    requires Valid(s)
    ensures r.Ok? ==> Valid(r.value.0) && r.value.0.index == s.index && r.value.0.show == s.show
    ensures r.Ok? ==> r.value.0.anim == s.anim && forall k :: k != OnKeyboardInput ==> r.value.0.events[k] == s.events[k]
    ensures r.Ok? ==> r.value.0.events[OnKeyboardInput] == KeyboardEvent(s, window, key, scancode, action, mods)
    ensures r.Ok? ==> CalledOf(r.value.1) == AppCalls(Events.Invoke(KeyboardEvent(s, window, key, scancode, action, mods)))
    ensures AppOnly(s.events[OnKeyboardInput]) ==> r.Ok?
    ensures r.Ok? ==> forall e :: e in r.value.1 && e.Called? && e.args.Some? ==>
      Events.Lookup(e.args.value, "window") == Some(Events.Handle(window))
      && Events.Lookup(e.args.value, "key") == Some(Events.Num(key as real))
      && Events.Lookup(e.args.value, "scancode") == Some(Events.Num(scancode as real))
      && Events.Lookup(e.args.value, "action") == Some(Events.Num(action as real))
      && Events.Lookup(e.args.value, "mods") == Some(Events.Num(mods as real))
  {
    Run(s, OnKeyboardInput, KeyboardEvent(s, window, key, scancode, action, mods))
  }

  /** The char event with window and char stored. */
  function CharEvent(s: Scene, window: int, code: int): (ev: Events.Event<Callback>)
    requires Valid(s)
    ensures ev.order == s.events[OnCharInput].order && ev.handlers == s.events[OnCharInput].handlers
    ensures Events.Get(ev, "window") == Some(Events.Handle(window))
    ensures Events.Get(ev, "char") == Some(Events.Num(code as real))
  {
    var e0 := s.events[OnCharInput];
    var e1 := Events.Put(e0, "window", Events.Handle(window));
    Events.Put(e1, "char", Events.Num(code as real))
  }

  /** `event_char_input`: stores window and char, then invokes the event once. */
  function CharInput(s: Scene, window: int, code: int): (r: Result<(Scene, seq<Effect>)>)
    requires Valid(s)
    ensures r.Ok? ==> Valid(r.value.0) && r.value.0.index == s.index && r.value.0.show == s.show
    ensures r.Ok? ==> r.value.0.anim == s.anim && forall k :: k != OnCharInput ==> r.value.0.events[k] == s.events[k]
    ensures r.Ok? ==> r.value.0.events[OnCharInput] == CharEvent(s, window, code)
    ensures r.Ok? ==> CalledOf(r.value.1) == AppCalls(Events.Invoke(CharEvent(s, window, code)))
    ensures AppOnly(s.events[OnCharInput]) ==> r.Ok?
    ensures r.Ok? ==> forall e :: e in r.value.1 && e.Called? && e.args.Some? ==>
      Events.Lookup(e.args.value, "window") == Some(Events.Handle(window))
      && Events.Lookup(e.args.value, "char") == Some(Events.Num(code as real))
  {
    Run(s, OnCharInput, CharEvent(s, window, code))
  }

  /** The mouse-position event with window, x and y stored. */
  function MousePositionEvent(s: Scene, window: int, x: real, y: real): (ev: Events.Event<Callback>)
    requires Valid(s)
    ensures ev.order == s.events[OnMousePosition].order && ev.handlers == s.events[OnMousePosition].handlers
    ensures Events.Get(ev, "window") == Some(Events.Handle(window))
    ensures Events.Get(ev, "x") == Some(Events.Num(x)) && Events.Get(ev, "y") == Some(Events.Num(y))
  {
    var e0 := s.events[OnMousePosition];
    var e1 := Events.Put(e0, "window", Events.Handle(window));
    var e2 := Events.Put(e1, "x", Events.Num(x));
    Events.Put(e2, "y", Events.Num(y))
  }

  /** `event_mouse_position`: stores window, x and y, then invokes the event
      once; button handlers among its handlers update their button's hover. */
  function MousePosition(s: Scene, window: int, x: real, y: real): (r: Result<(Scene, seq<Effect>)>)
    requires Valid(s)
    ensures r.Ok? ==> Valid(r.value.0) && r.value.0.index == s.index && r.value.0.show == s.show
    ensures r.Ok? ==> r.value.0.anim == s.anim && forall k :: k != OnMousePosition ==> r.value.0.events[k] == s.events[k]
    ensures r.Ok? ==> r.value.0.events[OnMousePosition] == MousePositionEvent(s, window, x, y)
    ensures r.Ok? ==> CalledOf(r.value.1) == AppCalls(Events.Invoke(MousePositionEvent(s, window, x, y)))
    ensures AppOnly(s.events[OnMousePosition]) ==> r.Ok?
    ensures r.Ok? ==> forall e :: e in r.value.1 && e.Called? && e.args.Some? ==>
      Events.Lookup(e.args.value, "window") == Some(Events.Handle(window))
      && Events.Lookup(e.args.value, "x") == Some(Events.Num(x))
      && Events.Lookup(e.args.value, "y") == Some(Events.Num(y))
    ensures r.Ok? ==> HoverOnly(s.elements, r.value.0.elements)
    ensures r.Ok? ==> forall k :: 0 <= k < |s.elements| ==> (r.value.0.elements[k].hovered ==
      if HandlesPosition(s.events[OnMousePosition], k) then CursorOn(s.elements[k], x, y) else s.elements[k].hovered)
    ensures Ready(s) && ButtonsTakeArgs(s.events[OnMousePosition]) ==> r.Ok?
  {
    var ev := MousePositionEvent(s, window, x, y);
    assert Widgets.NumberArg(ev.data, "x") == Ok(x) && Widgets.NumberArg(ev.data, "y") == Ok(y);
    assert forall k: nat :: HandlesPosition(ev, k) == HandlesPosition(s.events[OnMousePosition], k);
    Run(s, OnMousePosition, ev)
  }

  /** The mouse-input event with window, button, action and mods stored. */
  function MouseInputEvent(s: Scene, window: int, button: int, action: int, mods: int): (ev: Events.Event<Callback>)
    requires Valid(s)
    ensures ev.order == s.events[OnMouseInput].order && ev.handlers == s.events[OnMouseInput].handlers
    ensures Events.Get(ev, "window") == Some(Events.Handle(window))
    ensures Events.Get(ev, "button") == Some(Events.Num(button as real))
    ensures Events.Get(ev, "action") == Some(Events.Num(action as real))
    ensures Events.Get(ev, "mods") == Some(Events.Num(mods as real))
  {
    var e0 := s.events[OnMouseInput];
    var e1 := Events.Put(e0, "window", Events.Handle(window));
    var e2 := Events.Put(e1, "button", Events.Num(button as real));
    var e3 := Events.Put(e2, "action", Events.Num(action as real));
    Events.Put(e3, "mods", Events.Num(mods as real))
  }

  /** `event_mouse_input`: stores window, button, action and mods, then
      invokes the event once; button handlers among its handlers may fire
      their press callbacks. */
  function MouseInput(s: Scene, window: int, button: int, action: int, mods: int): (r: Result<(Scene, seq<Effect>)>)
    requires Valid(s)
    ensures r.Ok? ==> Valid(r.value.0) && r.value.0.index == s.index && r.value.0.show == s.show
    ensures r.Ok? ==> r.value.0.anim == s.anim && forall k :: k != OnMouseInput ==> r.value.0.events[k] == s.events[k]
    ensures r.Ok? ==> r.value.0.events[OnMouseInput] == MouseInputEvent(s, window, button, action, mods)
    ensures r.Ok? ==> CalledOf(r.value.1) == AppCalls(Events.Invoke(MouseInputEvent(s, window, button, action, mods)))
    ensures AppOnly(s.events[OnMouseInput]) ==> r.Ok?
    ensures r.Ok? ==> forall e :: e in r.value.1 && e.Called? && e.args.Some? ==>
      Events.Lookup(e.args.value, "window") == Some(Events.Handle(window))
      && Events.Lookup(e.args.value, "button") == Some(Events.Num(button as real))
      && Events.Lookup(e.args.value, "action") == Some(Events.Num(action as real))
      && Events.Lookup(e.args.value, "mods") == Some(Events.Num(mods as real))
    ensures r.Ok? ==> HoverOnly(s.elements, r.value.0.elements)
    ensures r.Ok? && NoPositionHandler(s.events[OnMouseInput]) ==> r.value.0.elements == s.elements
    ensures r.Ok? && NoPositionHandler(s.events[OnMouseInput]) ==> forall k :: 0 <= k < |s.elements| ==>
      ((HandlesInput(s.events[OnMouseInput], k) && s.elements[k].hovered && button == 0 && action == 1
        && s.elements[k].callback.Some?) ==> Pressed(s.elements[k].callback.value) in r.value.1)
    ensures r.Ok? && NoPositionHandler(s.events[OnMouseInput]) ==> forall cb: nat :: Pressed(cb) in r.value.1 ==>
      && button == 0 && action == 1
      && exists k :: 0 <= k < |s.elements| && HandlesInput(s.events[OnMouseInput], k)
                     && s.elements[k].hovered && s.elements[k].callback == Some(cb)
    ensures ButtonsTakeArgs(s.events[OnMouseInput]) && NoPositionHandler(s.events[OnMouseInput]) ==> r.Ok?
  {
    MouseInputPresses(s, window, button, action, mods);
    Run(s, OnMouseInput, MouseInputEvent(s, window, button, action, mods))
  }

  /** A left press delivered to the input handler of a hovered button with a
      callback fires that callback. */
  lemma HoveredCallFires(elements: seq<Widgets.Widget>, c: Events.Call<Callback>, cb: nat)
    requires c.handler.ButtonMouseInput? && c.handler.element < |elements|
    requires elements[c.handler.element].hovered && elements[c.handler.element].callback == Some(cb)
    requires c.args.Some? && Events.Lookup(c.args.value, "button") == Some(Events.Num(0.0))
    requires Events.Lookup(c.args.value, "action") == Some(Events.Num(1.0))
    ensures Fired(elements, c) == Some(cb)
  {
  }

  /** Conversely, a call fires a callback only as the input handler of a
      hovered button holding it, given a left press. */
  lemma FiredCall(elements: seq<Widgets.Widget>, c: Events.Call<Callback>, cb: nat)
    requires Fired(elements, c) == Some(cb)
    ensures c.handler.ButtonMouseInput? && c.handler.element < |elements|
    ensures elements[c.handler.element].hovered && elements[c.handler.element].callback == Some(cb)
    ensures c.args.Some? && Events.Lookup(c.args.value, "button") == Some(Events.Num(0.0))
    ensures Events.Lookup(c.args.value, "action") == Some(Events.Num(1.0))
  {
  }

  /** When an event without position handlers runs without error, each of
      its button input handlers was given the event's bag. */
  lemma InputHandlerTookArgs(s: Scene, ev: Events.Event<Callback>, n: string)
    requires Valid(s) && ev.order == s.events[OnMouseInput].order && ev.handlers == s.events[OnMouseInput].handlers
    requires NoPositionHandler(ev) && Run(s, OnMouseInput, ev).Ok?
    requires n in ev.handlers && ev.handlers[n].call.ButtonMouseInput?
    requires ev.handlers[n].call.element < |s.elements|
    ensures Events.CallOf(ev, n).args == Some(ev.data)
  {
    assert RunCalls(s.elements, Events.Invoke(ev)).Ok?;
    RunEventPresses(s.elements, ev);
    assert RunCall(s.elements, Events.CallOf(ev, n)).Ok?;
  }

  /** A left press on a hovered button fires its callback, when the
      button's input handler is registered and no position handler is. */
  lemma HoveredButtonFires(s: Scene, window: int, action: int, mods: int, k: nat)
    requires Valid(s) && k < |s.elements|
    requires NoPositionHandler(s.events[OnMouseInput]) && HandlesInput(s.events[OnMouseInput], k)
    requires s.elements[k].hovered && s.elements[k].callback.Some? && action == 1
    requires Run(s, OnMouseInput, MouseInputEvent(s, window, 0, action, mods)).Ok?
    ensures Pressed(s.elements[k].callback.value) in Run(s, OnMouseInput, MouseInputEvent(s, window, 0, action, mods)).value.1
  {
    var ev := MouseInputEvent(s, window, 0, action, mods);
    var calls := Events.Invoke(ev);
    var r := Run(s, OnMouseInput, ev);
    var cb := s.elements[k].callback.value;
    var n :| n in ev.handlers && ev.handlers[n].call == ButtonMouseInput(k);
    var c := Events.CallOf(ev, n);
    InputHandlerTookArgs(s, ev, n);
    assert Events.Lookup(ev.data, "button") == Some(Events.Num(0.0));
    assert Events.Lookup(ev.data, "action") == Some(Events.Num(1.0));
    HoveredCallFires(s.elements, c, cb);
    Events.InvokeCovers(ev);
    var i :| 0 <= i < |calls| && calls[i] == c;
    FiringsMember(s.elements, calls, cb);
    assert Pressed(cb) in PressedOf(r.value.1);
  }

  /** Every press a mouse-input event fires comes from a left press on a
      hovered button whose input handler is registered. */
  lemma PressFromHoveredButton(s: Scene, window: int, button: int, action: int, mods: int, cb: nat)
    requires Valid(s) && NoPositionHandler(s.events[OnMouseInput])
    requires Run(s, OnMouseInput, MouseInputEvent(s, window, button, action, mods)).Ok?
    requires Pressed(cb) in Run(s, OnMouseInput, MouseInputEvent(s, window, button, action, mods)).value.1
    ensures button == 0 && action == 1
    ensures exists k :: 0 <= k < |s.elements| && HandlesInput(s.events[OnMouseInput], k)
                        && s.elements[k].hovered && s.elements[k].callback == Some(cb)
  {
    var ev := MouseInputEvent(s, window, button, action, mods);
    var calls := Events.Invoke(ev);
    var r := Run(s, OnMouseInput, ev);
    assert NoPositionHandler(ev);
    assert Pressed(cb) in PressedOf(r.value.1);
    FiringsMember(s.elements, calls, cb);
    var i :| 0 <= i < |calls| && Fired(s.elements, calls[i]) == Some(cb);
    Events.InvokeCovers(ev);
    var k := calls[i].handler.element;
    assert calls[i] == Events.CallOf(ev, ev.order[i]);
    assert ev.handlers[ev.order[i]].call == ButtonMouseInput(k);
    FiredCall(s.elements, calls[i], cb);
    assert calls[i].args == Some(ev.data);
    assert Events.Lookup(ev.data, "button") == Some(Events.Num(button as real));
    assert Events.Lookup(ev.data, "action") == Some(Events.Num(action as real));
  }

  /** Both directions of the press rule, each under its own condition. */
  lemma MouseInputPresses(s: Scene, window: int, button: int, action: int, mods: int)
    requires Valid(s)
    ensures var r := Run(s, OnMouseInput, MouseInputEvent(s, window, button, action, mods));
      r.Ok? && NoPositionHandler(s.events[OnMouseInput]) ==>
        && (forall k :: 0 <= k < |s.elements| ==>
             ((HandlesInput(s.events[OnMouseInput], k) && s.elements[k].hovered && button == 0 && action == 1
               && s.elements[k].callback.Some?) ==> Pressed(s.elements[k].callback.value) in r.value.1))
        && (forall cb: nat :: Pressed(cb) in r.value.1 ==>
             && button == 0 && action == 1
             && exists k :: 0 <= k < |s.elements| && HandlesInput(s.events[OnMouseInput], k)
                            && s.elements[k].hovered && s.elements[k].callback == Some(cb))
  {
    var r := Run(s, OnMouseInput, MouseInputEvent(s, window, button, action, mods));
    if r.Ok? && NoPositionHandler(s.events[OnMouseInput]) {
      forall k | 0 <= k < |s.elements| && HandlesInput(s.events[OnMouseInput], k) && s.elements[k].hovered
          && button == 0 && action == 1 && s.elements[k].callback.Some?
        ensures Pressed(s.elements[k].callback.value) in r.value.1
      {
        HoveredButtonFires(s, window, action, mods, k);
      }
      forall cb: nat | Pressed(cb) in r.value.1
        ensures button == 0 && action == 1
        ensures exists k :: 0 <= k < |s.elements| && HandlesInput(s.events[OnMouseInput], k)
                            && s.elements[k].hovered && s.elements[k].callback == Some(cb)
      {
        PressFromHoveredButton(s, window, button, action, mods, cb);
      }
    }
  }

  /** The scroll event with window and both offsets stored. */
  function ScrollEvent(s: Scene, window: int, xOffset: real, yOffset: real): (ev: Events.Event<Callback>)
    requires Valid(s)
    ensures ev.order == s.events[OnMouseScroll].order && ev.handlers == s.events[OnMouseScroll].handlers
    ensures Events.Get(ev, "window") == Some(Events.Handle(window))
    ensures Events.Get(ev, "x_offset") == Some(Events.Num(xOffset))
    ensures Events.Get(ev, "y_offset") == Some(Events.Num(yOffset))
  {
    var e0 := s.events[OnMouseScroll];
    var e1 := Events.Put(e0, "window", Events.Handle(window));
    var e2 := Events.Put(e1, "x_offset", Events.Num(xOffset));
    Events.Put(e2, "y_offset", Events.Num(yOffset))
  }

  /** `event_mouse_scroll`: stores window and both offsets, then invokes the
      event once. */
  function MouseScroll(s: Scene, window: int, xOffset: real, yOffset: real): (r: Result<(Scene, seq<Effect>)>)
    requires Valid(s)
    ensures r.Ok? ==> Valid(r.value.0) && r.value.0.index == s.index && r.value.0.show == s.show
    ensures r.Ok? ==> r.value.0.anim == s.anim && forall k :: k != OnMouseScroll ==> r.value.0.events[k] == s.events[k]
    ensures r.Ok? ==> r.value.0.events[OnMouseScroll] == ScrollEvent(s, window, xOffset, yOffset)
    ensures r.Ok? ==> CalledOf(r.value.1) == AppCalls(Events.Invoke(ScrollEvent(s, window, xOffset, yOffset)))
    ensures AppOnly(s.events[OnMouseScroll]) ==> r.Ok?
    ensures r.Ok? ==> forall e :: e in r.value.1 && e.Called? && e.args.Some? ==>
      Events.Lookup(e.args.value, "window") == Some(Events.Handle(window))
      && Events.Lookup(e.args.value, "x_offset") == Some(Events.Num(xOffset))
      && Events.Lookup(e.args.value, "y_offset") == Some(Events.Num(yOffset))
  {
    Run(s, OnMouseScroll, ScrollEvent(s, window, xOffset, yOffset))
  }

  /** A button's position handler registered on an event without handlers
      is the only one a cursor move invokes, and it sees the cursor's
      coordinates. */
  lemma SoleCursorHandler(s: Scene, k: nat, window: int, x: real, y: real)
    requires Valid(s) && s.events[OnMousePosition].order == []
    ensures var s1 := s.(events := s.events[OnMousePosition :=
        Events.Set(s.events[OnMousePosition], ButtonMousePosition(k), Widgets.HandlerName(k), true)]);
      Valid(s1)
      && var calls := Events.Invoke(MousePositionEvent(s1, window, x, y));
      && |calls| == 1 && calls[0].handler == ButtonMousePosition(k) && calls[0].args.Some?
      && Events.Lookup(calls[0].args.value, "x") == Some(Events.Num(x))
      && Events.Lookup(calls[0].args.value, "y") == Some(Events.Num(y))
  {
    var name := Widgets.HandlerName(k);
    var e0 := Events.Set(s.events[OnMousePosition], ButtonMousePosition(k), name, true);
    var s1 := s.(events := s.events[OnMousePosition := e0]);
    assert e0.order == [name] && e0.handlers[name] == Events.Entry(ButtonMousePosition(k), true);
    var ev := MousePositionEvent(s1, window, x, y);
    assert Events.Invoke(ev)[0] == Events.CallOf(ev, name);
  }

  /** A button responds to the cursor: on a scene whose mouse-position event
      had no handlers, attaching an icon button and moving the cursor onto
      its corner succeeds and leaves the button hovered. */
  lemma CursorInsideHovers(s: Scene, position: Vectors.Vector, size: real, callback: Option<nat>, window: int)
    requires Valid(s) && s.events[OnMousePosition].order == [] && size >= 0.0
    ensures var (s1, k) := AttachIconButton(s, position, size, callback);
      var r := MousePosition(s1, window, position.x, position.y);
      r.Ok? && k < |r.value.0.elements| && r.value.0.elements[k].hovered
  {
    var (s1, k) := AttachIconButton(s, position, size, callback);
    AttachButtonRegisters(s, Widgets.NewIconButton(k, position, size, callback));
    var sa := AttachElement(s, Widgets.NewIconButton(k, position, size, callback)).0;
    SoleCursorHandler(sa, k, window, position.x, position.y);
    assert s1.events[OnMousePosition] == sa.events[OnMousePosition :=
      Events.Set(sa.events[OnMousePosition], ButtonMousePosition(k), Widgets.HandlerName(k), true)][OnMousePosition];
    var ev := MousePositionEvent(s1, window, position.x, position.y);
    var calls := Events.Invoke(ev);
    assert calls == Events.Invoke(MousePositionEvent(sa.(events := sa.events[OnMousePosition :=
      Events.Set(sa.events[OnMousePosition], ButtonMousePosition(k), Widgets.HandlerName(k), true)]), window, position.x, position.y));
    var hit := Widgets.OnMousePosition(s1.elements[k], calls[0].args);
    assert hit.Ok? && hit.value.hovered;
    assert RunCall(s1.elements, calls[0]) == Ok((s1.elements[k := hit.value], []));
    assert calls[1..] == [];
    assert RunCalls(s1.elements, calls) == Ok((s1.elements[k := hit.value], []));
  }

  /** A left press on a hovered button whose input handler is the only one
      registered succeeds and fires the button's callback. */
  lemma SoleButtonClick(s: Scene, k: nat, callback: nat, window: int, mods: int)
    requires Valid(s) && k < |s.elements|
    requires s.events[OnMouseInput].handlers == map[Widgets.HandlerName(k) := Events.Entry(ButtonMouseInput(k), true)]
    requires s.elements[k].hovered && s.elements[k].callback == Some(callback)
    ensures MouseInput(s, window, 0, 1, mods).Ok?
    ensures Pressed(callback) in MouseInput(s, window, 0, 1, mods).value.1
  {
    var e := s.events[OnMouseInput];
    var name := Widgets.HandlerName(k);
    assert e.handlers[name].call == ButtonMouseInput(k);
    assert HandlesInput(e, k);
    assert NoPositionHandler(e) && ButtonsTakeArgs(e);
    var r := MouseInput(s, window, 0, 1, mods);
    assert r.Ok?;
  }

  /** A click on a fresh button fires its callback: on a scene whose two
      mouse events had no handlers, attaching an icon button with a callback,
      moving the cursor onto its corner and pressing the left button yields
      the press. */
  lemma ClickPresses(s: Scene, position: Vectors.Vector, size: real, callback: nat, window: int, mods: int)
    requires Valid(s) && s.events[OnMousePosition].order == [] && s.events[OnMouseInput].order == [] && size >= 0.0
    ensures var (s1, k) := AttachIconButton(s, position, size, Some(callback));
      var r1 := MousePosition(s1, window, position.x, position.y);
      r1.Ok? && var r2 := MouseInput(r1.value.0, window, 0, 1, mods);
      r2.Ok? && Pressed(callback) in r2.value.1
  {
    var w := Widgets.NewIconButton(|s.elements|, position, size, Some(callback));
    var (s1, k) := AttachIconButton(s, position, size, Some(callback));
    CursorInsideHovers(s, position, size, Some(callback), window);
    AttachButtonRegisters(s, w);
    var r1 := MousePosition(s1, window, position.x, position.y);
    var s2 := r1.value.0;
    var name := Widgets.HandlerName(k);
    assert s.events[OnMouseInput].handlers == map[];
    assert s2.events[OnMouseInput] == s1.events[OnMouseInput];
    assert s1.events[OnMouseInput].handlers == map[name := Events.Entry(ButtonMouseInput(k), true)];
    SoleButtonClick(s2, k, callback, window, mods);
  }

  // ---------------------------------------------------------------------
  // Drawing

  /** The elements drawn in list order, each with the scene's fade;
      `start` is the index of `ws[0]` in the scene. */
  /** `els` and `effs` are `ws` drawn in order at one fade: element i is
      what `Widgets.Draw` makes of it, and effect i records that draw, under
      the element's attachment index `start + i`. */
  predicate DrawnAs(ws: seq<Widgets.Widget>, start: nat, dt: real, fade: real, els: seq<Widgets.Widget>, effs: seq<Effect>)
  {
    && |els| == |ws| && |effs| == |ws|
    && forall i :: 0 <= i < |ws| ==>
      && Widgets.Draw(ws[i], dt, fade).Ok?
      && els[i] == Widgets.Draw(ws[i], dt, fade).value.0
      && effs[i] == Drew(start + i, fade, Widgets.Draw(ws[i], dt, fade).value.1)
  }

  function DrawElements(ws: seq<Widgets.Widget>, start: nat, dt: real, fade: real): (r: Result<(seq<Widgets.Widget>, seq<Effect>)>)
    ensures (forall i :: 0 <= i < |ws| ==> Widgets.Ready(ws[i])) ==> r.Ok?
    ensures r.Ok? ==> DrawnAs(ws, start, dt, fade, r.value.0, r.value.1)
    decreases |ws|
  {
    if ws == [] then Ok(([], []))
    else
      match Widgets.Draw(ws[0], dt, fade)
      case Err(e) => Err(e)
      case Ok((w, back)) =>
        match DrawElements(ws[1..], start + 1, dt, fade)
        case Err(e) => Err(e)
        case Ok((rest, effs)) =>
          DrawElementsStep(ws, start, dt, fade, w, back, rest, effs);
          Ok(([w] + rest, [Drew(start, fade, back)] + effs))
  }

  /** The first element drawn, put in front of the rest drawn, gives the
      drawn list. */
  lemma DrawElementsStep(ws: seq<Widgets.Widget>, start: nat, dt: real, fade: real,
                         w: Widgets.Widget, back: Colors.Color, rest: seq<Widgets.Widget>, effs: seq<Effect>)
    requires ws != [] && Widgets.Draw(ws[0], dt, fade) == Ok((w, back))
    requires DrawnAs(ws[1..], start + 1, dt, fade, rest, effs)
    ensures DrawnAs(ws, start, dt, fade, [w] + rest, [Drew(start, fade, back)] + effs)
  {
    forall i | 0 <= i < |ws|
      ensures Widgets.Draw(ws[i], dt, fade).Ok?
      ensures ([w] + rest)[i] == Widgets.Draw(ws[i], dt, fade).value.0
      ensures ([Drew(start, fade, back)] + effs)[i] == Drew(start + i, fade, Widgets.Draw(ws[i], dt, fade).value.1)
    {
      if i > 0 {
        assert ws[1..][i - 1] == ws[i];
      }
    }
  }


  /** The fade target: 1 while shown, 0 while hidden. */
  function FadeTarget(show: bool): real { if show then 1.0 else 0.0 }

  /** The last `n` effects of a trace. */
  function Last(effs: seq<Effect>, n: nat): seq<Effect>
    requires n <= |effs|
  {
    effs[|effs| - n..]
  }

  /** The fade animation of one frame: the delta time becomes the
      interpolation factor and "Fade" steps toward its target at speed 10. */
  function FadeStep(s: Scene, dt: real): (r: Result<(Animation.Animations, real)>)
    ensures r.Ok? <==> Fade in s.anim.cache && s.anim.cache[Fade].Num?
    ensures r.Ok? ==>
      && r.value.1 == MathOps.Linear(s.anim.cache[Fade].n, FadeTarget(s.show), SceneAnimationSpeed * dt, Animation.DefaultHold)
      && r.value.0 == Animation.Store(Animation.SetInterpolation(s.anim, dt), Fade, Animation.Num(r.value.1))
  {
    var a1 := Animation.SetInterpolation(s.anim, dt);
    match Animation.Preform(a1, Fade, Animation.Num(FadeTarget(s.show)), SceneAnimationSpeed, Animation.DefaultHold)
    case Err(e) => Err(e)
    case Ok((a2, v)) => if v.Num? then Ok((a2, v.n)) else Err(TypeError)
  }

  /** A frame's trace shape: it ends with one draw per element, element `i`
      at position `i` of that tail, all with the same fade, and nothing
      before the tail is a draw. */
  ghost predicate EndsWithDraws(effs: seq<Effect>, n: nat, fade: real)
  {
    && n <= |effs|
    && (forall i :: 0 <= i < |effs| - n ==> !effs[i].Drew?)
    && (forall i :: 0 <= i < n ==> Last(effs, n)[i].Drew? && Last(effs, n)[i].element == i && Last(effs, n)[i].fade == fade)
  }

  /** Handler effects followed by the element draws have that shape, and
      the application calls among them are the handlers'. */
  lemma DrawsAfterHandlers(effs: seq<Effect>, drawn: seq<Effect>, fade: real)
    requires forall e :: e in effs ==> !e.Drew?
    requires forall i :: 0 <= i < |drawn| ==> drawn[i].Drew? && drawn[i].element == i && drawn[i].fade == fade
    ensures EndsWithDraws(effs + drawn, |drawn|, fade)
    ensures CalledOf(effs + drawn) == CalledOf(effs)
  {
    CalledOfAppend(effs, drawn);
    CalledOfDrew(drawn);
    LastOfAppend(effs, drawn);
    forall i | 0 <= i < |effs + drawn| - |drawn| ensures !(effs + drawn)[i].Drew? {
      assert (effs + drawn)[i] == effs[i];
      assert effs[i] in effs;
    }
  }

  lemma LastOfAppend(effs: seq<Effect>, drawn: seq<Effect>)
    ensures Last(effs + drawn, |drawn|) == drawn
  {
    assert (effs + drawn)[|effs|..] == drawn;
  }

  /** The draw event as a frame invokes it: the scene stored under "scene". */
  function DrawEvent(s: Scene): (ev: Events.Event<Callback>)
    requires Valid(s)
    ensures ev.order == s.events[OnDraw].order && ev.handlers == s.events[OnDraw].handlers
    ensures Events.Get(ev, "scene") == Some(Events.Owner)
  {
    Events.Put(s.events[OnDraw], "scene", Events.Owner)
  }

  /** Element `k` as the draw event's handlers leave it: only a position
      handler registered on the draw event could touch it, and then only
      its hovered flag, by the cursor test on the event's bag. */
  ghost function HandledElement(s: Scene, k: nat): (w: Widgets.Widget)
    requires Valid(s) && k < |s.elements|
    ensures w == s.elements[k].(hovered := w.hovered)
    ensures !HandlesPosition(s.events[OnDraw], k) ==> w == s.elements[k]
  {
    var ev := DrawEvent(s);
    s.elements[k].(hovered := if HandlesPosition(ev, k) then CursorOnBag(s.elements[k], ev.data) else s.elements[k].hovered)
  }

  /** What a frame does to the elements: element `i` afterwards is exactly
      what `Widgets.Draw` makes of it at the frame's fade (once the draw
      handlers have run), and the i-th of the trailing draws records the
      background colour that draw computed. */
  ghost predicate FrameDraws(s: Scene, dt: real, fade: real, after: seq<Widgets.Widget>, effs: seq<Effect>)
    requires Valid(s)
  {
    && |after| == |s.elements| && |s.elements| <= |effs|
    && forall i :: 0 <= i < |s.elements| ==>
      && Widgets.Draw(HandledElement(s, i), dt, fade).Ok?
      && after[i] == Widgets.Draw(HandledElement(s, i), dt, fade).value.0
      && Last(effs, |s.elements|)[i] == Drew(i, fade, Widgets.Draw(HandledElement(s, i), dt, fade).value.1)
  }

  /** The handlers' run followed by the element draws is such a frame. */
  lemma DrawContentsFrame(s: Scene, dt: real, fade: real, s2: Scene, effs: seq<Effect>, els: seq<Widgets.Widget>, drawn: seq<Effect>)
    requires Valid(s)
    requires Run(s, OnDraw, DrawEvent(s)) == Ok((s2, effs))
    requires DrawElements(s2.elements, 0, dt, fade) == Ok((els, drawn))
    ensures FrameDraws(s, dt, fade, els, effs + drawn)
  {
    LastOfAppend(effs, drawn);
    forall i | 0 <= i < |s.elements| ensures s2.elements[i] == HandledElement(s, i) {
      assert s2.elements[i] == s.elements[i].(hovered := s2.elements[i].hovered);
    }
  }

  /** The rest of a frame, after the fade: the draw event with the scene
      stored under "scene", then every element in order. */
  function DrawContents(s: Scene, dt: real, fade: real): (r: Result<(Scene, seq<Effect>)>)
    requires Valid(s)
    ensures Ready(s) && AppOnly(s.events[OnDraw]) ==> r.Ok?
    ensures r.Ok? ==> Valid(r.value.0) && (Ready(s) ==> Ready(r.value.0))
    ensures r.Ok? ==> r.value.0 == s.(events := r.value.0.events, elements := r.value.0.elements)
    ensures r.Ok? ==> |r.value.0.elements| == |s.elements| && EndsWithDraws(r.value.1, |s.elements|, fade)
    ensures r.Ok? ==>
      CalledOf(r.value.1) == AppCalls(Events.Invoke(Events.Put(s.events[OnDraw], "scene", Events.Owner)))
    ensures r.Ok? ==> FrameDraws(s, dt, fade, r.value.0.elements, r.value.1)
  {
    match Run(s, OnDraw, DrawEvent(s))
    case Err(e) => Err(e)
    case Ok((s2, effs)) =>
      match DrawElements(s2.elements, 0, dt, fade)
      case Err(e) => Err(e)
      case Ok((els, drawn)) =>
        DrawContentsCons(s, dt, fade, s2, effs, els, drawn);
        Ok((s2.(elements := els), effs + drawn))
  }

  /** The successful frame's scene and trace, from the handlers' run and the
      element draws. */
  lemma DrawContentsCons(s: Scene, dt: real, fade: real, s2: Scene, effs: seq<Effect>, els: seq<Widgets.Widget>, drawn: seq<Effect>)
    requires Valid(s)
    requires Run(s, OnDraw, DrawEvent(s)) == Ok((s2, effs))
    requires DrawElements(s2.elements, 0, dt, fade) == Ok((els, drawn))
    ensures Valid(s2.(elements := els)) && (Ready(s) ==> Ready(s2.(elements := els)))
    ensures s2.(elements := els) == s.(events := s2.events, elements := els)
    ensures |els| == |s.elements| && EndsWithDraws(effs + drawn, |s.elements|, fade)
    ensures CalledOf(effs + drawn) == AppCalls(Events.Invoke(DrawEvent(s)))
    ensures FrameDraws(s, dt, fade, els, effs + drawn)
  {
    DrawsAfterHandlers(effs, drawn, fade);
    DrawContentsFrame(s, dt, fade, s2, effs, els, drawn);
  }

  /** `draw()`: the frame's delta time becomes the interpolation factor, the
      fade steps toward 1 (shown) or 0 (hidden) at speed 10, the draw event
      runs with the scene stored under "scene", and then every element draws,
      in attach order, with that fade: the trace ends with one draw per
      element, and nothing before that is a draw. */
  function Draw(s: Scene, dt: real): (r: Result<(Scene, seq<Effect>)>)
    requires Valid(s)
    ensures Ready(s) && AppOnly(s.events[OnDraw]) ==> r.Ok?
    ensures r.Ok? ==> Valid(r.value.0) && (Ready(s) ==> Ready(r.value.0))
    ensures r.Ok? ==> r.value.0.index == s.index && r.value.0.show == s.show
    ensures r.Ok? ==> Fade in s.anim.cache && s.anim.cache[Fade].Num?
    ensures r.Ok? ==>
      var fade := MathOps.Linear(s.anim.cache[Fade].n, FadeTarget(s.show), SceneAnimationSpeed * dt, Animation.DefaultHold);
      && Animation.Value(r.value.0.anim, Fade) == Ok(Animation.Num(fade))
      && |r.value.0.elements| == |s.elements|
      && EndsWithDraws(r.value.1, |s.elements|, fade)
      && FrameDraws(s, dt, fade, r.value.0.elements, r.value.1)
    ensures r.Ok? ==>
      CalledOf(r.value.1) == AppCalls(Events.Invoke(Events.Put(s.events[OnDraw], "scene", Events.Owner)))
  {
    match FadeStep(s, dt)
    case Err(e) => Err(e)
    case Ok((a, fade)) =>
      FrameDrawsSameScene(s, s.(anim := a), dt, fade);
      DrawContents(s.(anim := a), dt, fade)
  }

  /** Whether a frame draws its elements right depends only on the elements
      and the draw event, not on the scene's other fields. */
  lemma FrameDrawsSameScene(s: Scene, t: Scene, dt: real, fade: real)
    requires Valid(s) && Valid(t) && t.elements == s.elements && t.events == s.events
    ensures forall after, effs :: FrameDraws(t, dt, fade, after, effs) <==> FrameDraws(s, dt, fade, after, effs)
  {
    assert forall i :: 0 <= i < |s.elements| ==> HandledElement(t, i) == HandledElement(s, i);
  }
}

=== FILE: ui.dfy ===
/** The application root of the current generation (`c_ui` in
    user_interface/ui.py): the window set-up outcome, the scene list with its
    active index, the application-level events, input forwarding and the
    per-frame scene pass.  GLFW, imgui and OpenGL are outside the model: the
    outcome of each set-up step is a parameter, and GLFW's callbacks are the
    `Input` values handed to `HandleInput`. */
module Ui {
  import opened Wrappers
  import MathOps
  import Events
  import Animation
  import Scenes

  /** The eleven application events created by `initialize_events`. */
  datatype UiEventKind =
    | PreDraw | PostDraw | Unload
    | KeyboardInput | CharInput | MousePosition | MouseInput | MouseScroll
    | WindowResize | WindowPosition | WindowMaximize

  function KindName(k: UiEventKind): string
  {
    match k
    case PreDraw => "pre_draw"
    case PostDraw => "post_draw"
    case Unload => "unload"
    case KeyboardInput => "keyboard_input"
    case CharInput => "char_input"
    case MousePosition => "mouse_position"
    case MouseInput => "mouse_input"
    case MouseScroll => "mouse_scroll"
    case WindowResize => "window_resize"
    case WindowPosition => "window_position"
    case WindowMaximize => "window_maximize"
  }

  /** The event a name selects, if any. */
  function KindOf(name: string): (r: Option<UiEventKind>)
    ensures r.Some? ==> KindName(r.value) == name
  {
    if name == "pre_draw" then Some(PreDraw)
    else if name == "post_draw" then Some(PostDraw)
    else if name == "unload" then Some(Unload)
    else if name == "keyboard_input" then Some(KeyboardInput)
    else if name == "char_input" then Some(CharInput)
    else if name == "mouse_position" then Some(MousePosition)
    else if name == "mouse_input" then Some(MouseInput)
    else if name == "mouse_scroll" then Some(MouseScroll)
    else if name == "window_resize" then Some(WindowResize)
    else if name == "window_position" then Some(WindowPosition)
    else if name == "window_maximize" then Some(WindowMaximize)
    else None
  }

  /** Every event's own name selects it. */
  lemma KindNameRoundTrip(k: UiEventKind)
    ensures KindOf(KindName(k)) == Some(k)
  {
  }

  type AppEvents = map<UiEventKind, Events.Event<nat>>

  /** `window` is `_application` (a GLFW handle once created); `hasData` says
      whether `_data` exists (it is created by `initialize`);
      `eventsInitialized` is the `is_events_initialize` flag; `events` is
      `None` until `initialize_events` creates the attribute.  Application
      handlers are identified by numbers. */
  datatype Root = Root(window: Option<int>, hasData: bool, eventsInitialized: bool,
                       scenes: seq<Scenes.Scene>, active: int, lastError: string,
                       events: Option<AppEvents>)

  /** Every application event exists and is a dict registry. */
  ghost predicate EventsValid(m: AppEvents)
  {
    forall k: UiEventKind :: k in m && Events.Valid(m[k])
  }

  /** Every scene is valid and stores its own position as its index. */
  ghost predicate Numbered(scenes: seq<Scenes.Scene>)
  {
    forall k :: 0 <= k < |scenes| ==> Scenes.Valid(scenes[k]) && scenes[k].index == k
  }

  /** The scenes are numbered, the active index is not negative, every
      application event is a dict registry, and the flags agree with the
      order of set-up. */
  ghost predicate Valid(u: Root)
  {
    && Numbered(u.scenes)
    && 0 <= u.active
    && (u.events.Some? ==> EventsValid(u.events.value))
    && (u.window.Some? ==> u.hasData)
    && (u.eventsInitialized ==> u.hasData && u.events.Some?)
  }

  /** `c_ui()`: no window, no scenes, active index 0, empty last error. */
  function New(): (u: Root)
    ensures Valid(u)
    ensures u.window.None? && !u.hasData && !u.eventsInitialized && u.events.None?
    ensures u.scenes == [] && u.active == 0 && u.lastError == ""
  {
    Root(None, false, false, [], 0, "", None)
  }

  const GlfwFailed: string := "Failed to initialize OpenGL context"
  const WindowFailed: string := "Could not initialize Application"

  /** `initialize(title, position, size)` with the three set-up outcomes as
      inputs: whether GLFW initialised, the window handle GLFW returned (or
      none), and whether the imgui backend came up.  A failed GLFW start
      records its error and stops before `_data` is created; a missing
      window records its error; `_data` is recreated from scratch, so an
      earlier `initialize_events` flag is lost. */
  function Initialize(u: Root, glfwOk: bool, window: Option<int>, backendOk: bool): (r: (Root, bool))
    ensures Valid(u) ==> Valid(r.0)
    ensures r.1 <==> glfwOk && window.Some? && backendOk
    ensures !glfwOk ==> r.0 == u.(lastError := GlfwFailed)
    ensures glfwOk ==> r.0.hasData && !r.0.eventsInitialized && r.0.window == window
    ensures glfwOk && window.None? ==> r.0.lastError == WindowFailed
    ensures glfwOk && window.Some? ==> r.0.lastError == u.lastError
    ensures r.0.scenes == u.scenes && r.0.active == u.active && r.0.events == u.events
  {
    if !glfwOk then (u.(lastError := GlfwFailed), false)
    else
      var u1 := u.(hasData := true, eventsInitialized := false);
      if window.None? then (u1.(window := None, lastError := WindowFailed), false)
      else
        var u2 := u1.(window := window);
        (u2, backendOk)
  }

  /** Eleven fresh events. */
  function FreshEvents(): (m: AppEvents)
    ensures forall k: UiEventKind :: k in m && Events.Valid(m[k]) && m[k].order == [] && m[k].data == map[]
  {
    var e := Events.New<nat>();
    var m := map[PreDraw := e, PostDraw := e, Unload := e, KeyboardInput := e, CharInput := e,
                 MousePosition := e, MouseInput := e, MouseScroll := e,
                 WindowResize := e, WindowPosition := e, WindowMaximize := e];
    EveryKind(m);
    m
  }

  /** A map holding the eleven kinds holds every kind. */
  lemma EveryKind<V>(m: map<UiEventKind, V>)
    requires PreDraw in m && PostDraw in m && Unload in m && KeyboardInput in m && CharInput in m
    requires MousePosition in m && MouseInput in m && MouseScroll in m
    requires WindowResize in m && WindowPosition in m && WindowMaximize in m
    ensures forall k: UiEventKind :: k in m
  {
    forall k: UiEventKind ensures k in m {
      match k
      case PreDraw =>
      case PostDraw =>
      case Unload =>
      case KeyboardInput =>
      case CharInput =>
      case MousePosition =>
      case MouseInput =>
      case MouseScroll =>
      case WindowResize =>
      case WindowPosition =>
      case WindowMaximize =>
    }
  }

  /** `initialize_events`: the eleven events are created afresh (dropping any
      earlier registrations) and then the flag is written into `_data`, which
      raises when `initialize` never created it.  The root after the call is
      returned together with the error raised, if any. */
  function InitializeEvents(u: Root): (r: (Root, Option<Error>))
    ensures Valid(u) ==> Valid(r.0)
    ensures r.0.events == Some(FreshEvents())
    ensures r.1.None? <==> u.hasData
    ensures u.hasData ==> r.0.eventsInitialized
    ensures !u.hasData ==> r.0.eventsInitialized == u.eventsInitialized
    ensures r.0.scenes == u.scenes && r.0.active == u.active && r.0.window == u.window
  {
    var u1 := u.(events := Some(FreshEvents()));
    if !u.hasData then (u1, Some(AttributeError("_data")))
    else (u1.(eventsInitialized := true), None)
  }

  /** `new_scene`: a fresh scene appended to the list, whose index is set to
      its position (a new object, so `list.index` finds it at the end). */
  function NewScene(u: Root): (r: (Root, nat))
    ensures Valid(u) ==> Valid(r.0)
    ensures r.1 == |u.scenes| && |r.0.scenes| == |u.scenes| + 1
    ensures r.0.scenes[..|u.scenes|] == u.scenes
    ensures r.0.scenes[r.1] == Scenes.New().(index := r.1)
    ensures r.0 == u.(scenes := r.0.scenes)
  {
    var k := |u.scenes|;
    var s := Scenes.Index(Scenes.New(), Some(k)).0;
    (u.(scenes := u.scenes + [s]), k)
  }

  /** The k-th scene created carries index k. */
  lemma NewScenesNumbered(u: Root)
    requires Valid(u)
    ensures var (u1, a) := NewScene(u);
      var (u2, b) := NewScene(u1);
      a == |u.scenes| && b == a + 1 && u2.scenes[a].index == a && u2.scenes[b].index == b
  {
  }

  /** `active_scene()`: the scene at the active index; an index equal to the
      number of scenes raises `IndexError`. */
  function ActiveScene(u: Root): (r: Result<Scenes.Scene>)
    ensures 0 <= u.active < |u.scenes| ==> r == Ok(u.scenes[u.active])
    ensures u.active >= |u.scenes| ==> r == Err(IndexError)
  {
    PyIndex(u.scenes, u.active)
  }

  /** `active_scene(i)`: the active index clamped into [0, number of scenes]. */
  function SetActive(u: Root, i: int): (r: Root)
    ensures 0 <= r.active <= |u.scenes|
    ensures 0 <= i <= |u.scenes| ==> r.active == i
    ensures i < 0 ==> r.active == 0
    ensures i > |u.scenes| ==> r.active == |u.scenes|
    ensures r == u.(active := r.active)
  {
    MathOps.ClampIntInRange(i, 0, |u.scenes|);
    u.(active := MathOps.ClampInt(i, 0, |u.scenes|))
  }

  /** `next_scene`: one forward, clamped into [0, number of scenes]. */
  function NextScene(u: Root): (r: Root)
    ensures 0 <= r.active <= |u.scenes|
    ensures -1 <= u.active < |u.scenes| ==> r.active == u.active + 1
    ensures u.active < -1 ==> r.active == 0
    ensures u.active >= |u.scenes| ==> r.active == |u.scenes|
    ensures r == u.(active := r.active)
  {
    SetActive(u, u.active + 1)
  }

  /** `previous_scene`: one back, clamped into [0, number of scenes]. */
  function PreviousScene(u: Root): (r: Root)
    ensures 0 <= r.active <= |u.scenes|
    ensures 0 < u.active <= |u.scenes| + 1 ==> r.active == u.active - 1
    ensures u.active <= 0 ==> r.active == 0
    ensures u.active > |u.scenes| + 1 ==> r.active == |u.scenes|
    ensures r == u.(active := r.active)
  {
    SetActive(u, u.active - 1)
  }

  /** The clamp as written admits one index too many: stepping forward from
      the last scene, or asking for index `len`, makes the active index point
      past the end and `active_scene()` raise. */
  lemma ActivePastEnd(u: Root)
    requires |u.scenes| > 0 && u.active == |u.scenes| - 1
    ensures NextScene(u).active == |u.scenes|
    ensures ActiveScene(NextScene(u)) == Err(IndexError)
    ensures ActiveScene(SetActive(u, |u.scenes|)) == Err(IndexError)
  {
  }

  /** The clamp as evidently intended: into [0, number of scenes - 1]. */
  function SetActiveWithin(u: Root, i: int): (r: Root)
    ensures |u.scenes| > 0 ==> 0 <= r.active < |u.scenes|
    ensures 0 <= i < |u.scenes| ==> r.active == i
    ensures r == u.(active := r.active)
  {
    if |u.scenes| > 0 then MathOps.ClampIntInRange(i, 0, |u.scenes| - 1); u.(active := MathOps.ClampInt(i, 0, |u.scenes| - 1))
    else u.(active := MathOps.ClampInt(i, 0, |u.scenes| - 1))
  }

  function NextSceneWithin(u: Root): Root { SetActiveWithin(u, u.active + 1) }
  function PreviousSceneWithin(u: Root): Root { SetActiveWithin(u, u.active - 1) }

  /** With the intended clamp, as long as there is a scene, any sequence of
      selections keeps `active_scene()` valid, and stepping forward from the
      last scene stays on it. */
  lemma ActiveWithinAlwaysValid(u: Root, i: int)
    requires |u.scenes| > 0
    ensures ActiveScene(SetActiveWithin(u, i)).Ok?
    ensures ActiveScene(NextSceneWithin(u)).Ok?
    ensures ActiveScene(PreviousSceneWithin(u)).Ok?
    ensures u.active == |u.scenes| - 1 ==> NextSceneWithin(u).active == u.active
  {
  }

  const InvalidEventName: string := "Invalid Event Name"

  /** `set_event`: before `initialize_events` the events attribute is missing
      and the lookup raises; an unknown name records "Invalid Event Name" and
      returns false without registering; a known name registers the handler
      with arguments allowed and returns true. */
  function SetEvent(u: Root, event: string, fn: nat, name: string): (r: Result<(Root, bool)>)
    ensures u.events.None? ==> r == Err(AttributeError("_events"))
    ensures u.events.Some? ==> r.Ok? && (r.value.1 <==> KindOf(event).Some?)
    ensures u.events.Some? && KindOf(event).None? ==> r.value.0 == u.(lastError := InvalidEventName)
    ensures u.events.Some? && KindOf(event).Some? && KindOf(event).value in u.events.value ==>
      var k := KindOf(event).value;
      r.value.0 == u.(events := Some(u.events.value[k := Events.Set(u.events.value[k], fn, name, true)]))
    ensures Valid(u) && r.Ok? ==> Valid(r.value.0)
  {
    if u.events.None? then Err(AttributeError("_events"))
    else
      match KindOf(event)
      case None => Ok((u.(lastError := InvalidEventName), false))
      case Some(k) =>
        if k !in u.events.value then Ok((u, true))
        else Ok((u.(events := Some(u.events.value[k := Events.Set(u.events.value[k], fn, name, true)])), true))
  }

  // ---------------------------------------------------------------------
  // Input

  /** One GLFW callback with its arguments. */
  datatype Input =
    | Key(window: int, key: int, scancode: int, action: int, mods: int)
    | Char(window: int, code: int)
    | CursorPos(window: int, x: real, y: real)
    | MouseButton(window: int, button: int, action: int, mods: int)
    | Scroll(window: int, xOffset: real, yOffset: real)
    | Resize(window: int, width: int, height: int)
    | Moved(window: int, xPos: int, yPos: int)
    | Maximize(window: int, maximized: int)

  /** The application event an input fills and invokes. */
  function InputKind(i: Input): UiEventKind
  {
    match i
    case Key(_, _, _, _, _) => KeyboardInput
    case Char(_, _) => CharInput
    case CursorPos(_, _, _) => MousePosition
    case MouseButton(_, _, _, _) => MouseInput
    case Scroll(_, _, _) => MouseScroll
    case Resize(_, _, _) => WindowResize
    case Moved(_, _, _) => WindowPosition
    case Maximize(_, _) => WindowMaximize
  }

  /** Keyboard, char, cursor, mouse-button and scroll input also goes to the
      active scene; the three window callbacks do not. */
  predicate Forwarded(i: Input)
  {
    !(i.Resize? || i.Moved? || i.Maximize?)
  }

  /** The scene's own handling of a forwarded input. */
  function SceneStep(s: Scenes.Scene, i: Input): (r: Result<(Scenes.Scene, seq<Scenes.Effect>)>)
    requires Scenes.Valid(s) && Forwarded(i)
    ensures r.Ok? ==> Scenes.Valid(r.value.0) && r.value.0.index == s.index && r.value.0.show == s.show
  {
    match i
    case Key(w, k, sc, a, m) => Scenes.KeyboardInput(s, w, k, sc, a, m)
    case Char(w, c) => Scenes.CharInput(s, w, c)
    case CursorPos(w, x, y) => Scenes.MousePosition(s, w, x, y)
    case MouseButton(w, b, a, m) => Scenes.MouseInput(s, w, b, a, m)
    case Scroll(w, x, y) => Scenes.MouseScroll(s, w, x, y)
  }

  /** A scene whose event for the input holds only application handlers
      handles it without error. */
  lemma SceneStepSucceeds(s: Scenes.Scene, i: Input)
    requires Scenes.Valid(s) && Forwarded(i)
    ensures Scenes.AppOnly(s.events[SceneKind(i)]) ==> SceneStep(s, i).Ok?
  {
    match i
    case Key(_, _, _, _, _) =>
    case Char(_, _) =>
    case CursorPos(_, _, _) =>
    case MouseButton(_, _, _, _) =>
    case Scroll(_, _, _) =>
  }

  /** The scene event a forwarded input goes to. */
  function SceneKind(i: Input): Scenes.EventKind
    requires Forwarded(i)
  {
    match i
    case Key(_, _, _, _, _) => Scenes.OnKeyboardInput
    case Char(_, _) => Scenes.OnCharInput
    case CursorPos(_, _, _) => Scenes.OnMousePosition
    case MouseButton(_, _, _, _) => Scenes.OnMouseInput
    case Scroll(_, _, _) => Scenes.OnMouseScroll
  }

  /** The bag keys an input stores besides "window". */
  function FieldKeys(i: Input): set<string>
  {
    match i
    case Key(_, _, _, _, _) => {"key", "scancode", "action", "mods"}
    case Char(_, _) => {"char"}
    case CursorPos(_, _, _) => {"x", "y"}
    case MouseButton(_, _, _, _) => {"button", "action", "mods"}
    case Scroll(_, _, _) => {"x_offset", "y_offset"}
    case Resize(_, _, _) => {"width", "height"}
    case Moved(_, _, _) => {"x_pos", "y_pos"}
    case Maximize(_, _) => {"maximized"}
  }

  /** The application event with the input's fields stored, in the source's
      order: the window first, then each raw field under its own key; no other
      bag value changes and the registry is untouched. */
  function Fill<H>(e: Events.Event<H>, i: Input): (r: Events.Event<H>)
    ensures r.order == e.order && r.handlers == e.handlers
    ensures Events.Get(r, "window") == Some(Events.Handle(i.window))
    ensures i.Key? ==>
      && Events.Get(r, "key") == Some(Events.Num(i.key as real))
      && Events.Get(r, "scancode") == Some(Events.Num(i.scancode as real))
      && Events.Get(r, "action") == Some(Events.Num(i.action as real))
      && Events.Get(r, "mods") == Some(Events.Num(i.mods as real))
    ensures i.Char? ==> Events.Get(r, "char") == Some(Events.Num(i.code as real))
    ensures i.CursorPos? ==>
      Events.Get(r, "x") == Some(Events.Num(i.x)) && Events.Get(r, "y") == Some(Events.Num(i.y))
    ensures i.MouseButton? ==>
      && Events.Get(r, "button") == Some(Events.Num(i.button as real))
      && Events.Get(r, "action") == Some(Events.Num(i.action as real))
      && Events.Get(r, "mods") == Some(Events.Num(i.mods as real))
    ensures i.Scroll? ==>
      Events.Get(r, "x_offset") == Some(Events.Num(i.xOffset)) && Events.Get(r, "y_offset") == Some(Events.Num(i.yOffset))
    ensures i.Resize? ==>
      Events.Get(r, "width") == Some(Events.Num(i.width as real)) && Events.Get(r, "height") == Some(Events.Num(i.height as real))
    ensures i.Moved? ==>
      Events.Get(r, "x_pos") == Some(Events.Num(i.xPos as real)) && Events.Get(r, "y_pos") == Some(Events.Num(i.yPos as real))
    ensures i.Maximize? ==> Events.Get(r, "maximized") == Some(Events.Num(i.maximized as real))
    ensures forall k :: k != "window" && k !in FieldKeys(i) ==> Events.Get(r, k) == Events.Get(e, k)
  {
    var d := e.data["window" := Events.Handle(i.window)];
    var data := match i
      case Key(_, k, sc, a, m) =>
        d["key" := Events.Num(k as real)]["scancode" := Events.Num(sc as real)]
         ["action" := Events.Num(a as real)]["mods" := Events.Num(m as real)]
      case Char(_, c) => d["char" := Events.Num(c as real)]
      case CursorPos(_, x, y) => d["x" := Events.Num(x)]["y" := Events.Num(y)]
      case MouseButton(_, b, a, m) =>
        d["button" := Events.Num(b as real)]["action" := Events.Num(a as real)]["mods" := Events.Num(m as real)]
      case Scroll(_, x, y) => d["x_offset" := Events.Num(x)]["y_offset" := Events.Num(y)]
      case Resize(_, wd, h) => d["width" := Events.Num(wd as real)]["height" := Events.Num(h as real)]
      case Moved(_, x, y) => d["x_pos" := Events.Num(x as real)]["y_pos" := Events.Num(y as real)]
      case Maximize(_, m) => d["maximized" := Events.Num(m as real)];
    e.(data := data)
  }

  /** What a root does: something a scene did (by scene position), or an
      application-level handler called.  Generic in the scene's effects, so
      both generations' roots share it. */
  datatype RootEffect<E> = InScene(scene: nat, effect: E) | AppCalled(id: nat, args: Option<Events.Bag>)

  function Lift<E>(k: nat, effs: seq<E>): (r: seq<RootEffect<E>>)
    ensures |r| == |effs| && forall i :: 0 <= i < |r| ==> r[i] == InScene(k, effs[i])
  {
    seq(|effs|, i requires 0 <= i < |effs| => InScene(k, effs[i]))
  }

  function AppEffects<E>(calls: seq<Events.Call<nat>>): (r: seq<RootEffect<E>>)
    ensures |r| == |calls| && forall i :: 0 <= i < |r| ==> r[i] == AppCalled(calls[i].handler, calls[i].args)
  {
    seq(|calls|, i requires 0 <= i < |calls| => AppCalled(calls[i].handler, calls[i].args))
  }

  /** Storing an event with the same registry keeps the events valid. */
  lemma FilledEventsValid(m: AppEvents, k: UiEventKind, ev: Events.Event<nat>)
    requires EventsValid(m)
    requires ev.order == m[k].order && ev.handlers == m[k].handlers
    ensures EventsValid(m[k := ev])
  {
    var m1 := m[k := ev];
    forall j: UiEventKind ensures j in m1 && Events.Valid(m1[j]) {
      assert j in m;
    }
  }

  /** The forwarding half of an input callback: the active scene handles the
      input, and its effects are attributed to it.  `active_scene()` raises
      when the active index is past the end. */
  function ForwardToScene(u: Root, i: Input): (r: Result<(seq<Scenes.Scene>, seq<RootEffect<Scenes.Effect>>)>)
    requires Valid(u) && Forwarded(i)
    ensures u.active >= |u.scenes| ==> r == Err(IndexError)
    ensures r.Ok? <==> u.active < |u.scenes| && SceneStep(u.scenes[u.active], i).Ok?
    ensures r.Ok? ==> u.active < |u.scenes| && Numbered(r.value.0) && |r.value.0| == |u.scenes|
    ensures r.Ok? ==>
      var step := SceneStep(u.scenes[u.active], i);
      step.Ok? && r.value.0 == u.scenes[u.active := step.value.0] && r.value.1 == Lift(u.active, step.value.1)
  {
    match ActiveScene(u)
    case Err(e) => Err(e)
    case Ok(s) =>
      match SceneStep(s, i)
      case Err(e) => Err(e)
      case Ok((s1, effs)) => Ok((u.scenes[u.active := s1], Lift(u.active, effs)))
  }

  /** Forwarding succeeds when the active scene exists and its event for the
      input holds only application handlers. */
  lemma ForwardSucceeds(u: Root, i: Input)
    requires Valid(u) && Forwarded(i)
    ensures u.active < |u.scenes| && Scenes.AppOnly(u.scenes[u.active].events[SceneKind(i)]) ==> ForwardToScene(u, i).Ok?
  {
    if u.active < |u.scenes| {
      SceneStepSucceeds(u.scenes[u.active], i);
    }
  }

  /** The application half: the input's fields stored in its event, then one
      call per handler in registration order. */
  function AppTrace(u: Root, i: Input): seq<RootEffect<Scenes.Effect>>
    requires Valid(u) && u.events.Some?
  {
    AppEffects(Events.Invoke(Fill(u.events.value[InputKind(i)], i)))
  }

  /** The input callbacks installed by `initialize_events` (so the events
      exist when GLFW calls them).  A forwarded input first runs through the
      active scene, then the application event is filled and invoked; the
      window callbacks only fill and invoke their application event. */
  function HandleInput(u: Root, i: Input): (r: Result<(Root, seq<RootEffect<Scenes.Effect>>)>)
    requires Valid(u) && u.events.Some?
    ensures r.Ok? ==> Valid(r.value.0) && r.value.0.active == u.active && |r.value.0.scenes| == |u.scenes|
    ensures Forwarded(i) && u.active >= |u.scenes| ==> r == Err(IndexError)
    ensures !Forwarded(i) ==> r.Ok? && r.value.0.scenes == u.scenes && r.value.1 == AppTrace(u, i)
    ensures Forwarded(i) && r.Ok? ==>
      ForwardToScene(u, i).Ok?
      && r.value.0.scenes == ForwardToScene(u, i).value.0
      && r.value.1 == ForwardToScene(u, i).value.1 + AppTrace(u, i)
    ensures Forwarded(i) ==> (r.Ok? <==> ForwardToScene(u, i).Ok?)
    ensures Forwarded(i) && u.active < |u.scenes| && Scenes.AppOnly(u.scenes[u.active].events[SceneKind(i)]) ==> r.Ok?
    ensures r.Ok? ==> r.value.0 == u.(scenes := r.value.0.scenes,
                                      events := Some(u.events.value[InputKind(i) := Fill(u.events.value[InputKind(i)], i)]))
  {
    var k := InputKind(i);
    var ev := Fill(u.events.value[k], i);
    FilledEventsValid(u.events.value, k, ev);
    var events := Some(u.events.value[k := ev]);
    if !Forwarded(i) then
      Ok((u.(events := events), AppTrace(u, i)))
    else
      ForwardSucceeds(u, i);
      match ForwardToScene(u, i)
      case Err(e) => Err(e)
      case Ok((scenes, pre)) => Ok((u.(scenes := scenes, events := events), pre + AppTrace(u, i)))
  }

  /** A scene's effects followed by application calls: no scene effect
      follows an application call, and every scene effect is the given
      scene's. */
  ghost predicate SceneThenApp<E>(effs: seq<RootEffect<E>>, k: nat)
  {
    && (forall j1, j2 :: 0 <= j1 < j2 < |effs| && effs[j1].AppCalled? ==> effs[j2].AppCalled?)
    && (forall j :: 0 <= j < |effs| && effs[j].InScene? ==> effs[j].scene == k)
  }

  lemma LiftThenApp<E>(k: nat, pre: seq<E>, calls: seq<Events.Call<nat>>)
    ensures SceneThenApp(Lift(k, pre) + AppEffects<E>(calls), k)
  {
    var lifted := Lift(k, pre);
    var app := AppEffects<E>(calls);
    var effs := lifted + app;
    forall j1, j2 | 0 <= j1 < j2 < |effs| && effs[j1].AppCalled? ensures effs[j2].AppCalled? {
      assert effs[j2] == app[j2 - |lifted|];
    }
  }

  /** A forwarded input's trace: everything the active scene did comes first,
      then the application handlers; every scene effect is the active
      scene's. */
  lemma SceneBeforeApp(u: Root, i: Input)
    requires Valid(u) && u.events.Some? && Forwarded(i)
    ensures HandleInput(u, i).Ok? ==> SceneThenApp(HandleInput(u, i).value.1, u.active as nat)
  {
    if HandleInput(u, i).Ok? {
      var step := SceneStep(u.scenes[u.active], i);
      LiftThenApp(u.active, step.value.1, Events.Invoke(Fill(u.events.value[InputKind(i)], i)));
    }
  }

  // ---------------------------------------------------------------------
  // Frame

  /** A trace of scene effects grouped by scene: all attributed to scenes in
      [lo, hi), and in non-decreasing scene order. */
  ghost predicate Grouped<E>(effs: seq<RootEffect<E>>, lo: nat, hi: nat)
  {
    && (forall j :: 0 <= j < |effs| ==> effs[j].InScene? && lo <= effs[j].scene < hi)
    && (forall j1, j2 :: 0 <= j1 < j2 < |effs| ==> effs[j1].scene <= effs[j2].scene)
  }

  /** One scene's effects followed by a trace of later scenes stays grouped. */
  lemma GroupedPrepend<E>(k: nat, effs: seq<E>, rest: seq<RootEffect<E>>, hi: nat)
    requires k < hi && Grouped(rest, k + 1, hi)
    ensures Grouped(Lift(k, effs) + rest, k, hi)
  {
    var lifted := Lift(k, effs);
    var all := lifted + rest;
    forall j | 0 <= j < |all| ensures all[j].InScene? && k <= all[j].scene < hi {
      if j >= |lifted| { assert all[j] == rest[j - |lifted|]; }
    }
    forall j1, j2 | 0 <= j1 < j2 < |all| ensures all[j1].scene <= all[j2].scene {
      if j2 >= |lifted| {
        assert all[j2] == rest[j2 - |lifted|];
        if j1 >= |lifted| { assert all[j1] == rest[j1 - |lifted|]; }
      }
    }
  }

  /** The effects of a root trace attributed to scene `k`, in order. */
  function EffectsOf<E>(effs: seq<RootEffect<E>>, k: nat): (r: seq<E>)
    ensures |r| <= |effs|
  {
    if effs == [] then []
    else (if effs[0].InScene? && effs[0].scene == k then [effs[0].effect] else []) + EffectsOf(effs[1..], k)
  }

  lemma {:induction false} EffectsOfAppend<E>(a: seq<RootEffect<E>>, b: seq<RootEffect<E>>, k: nat)
    ensures EffectsOf(a + b, k) == EffectsOf(a, k) + EffectsOf(b, k)
    decreases |a|
  {
    if a != [] {
      assert (a + b)[1..] == a[1..] + b;
      EffectsOfAppend(a[1..], b, k);
    } else {
      assert a + b == b;
    }
  }

  /** A lifted trace is all of its scene's effects and none of another's. */
  lemma {:induction false} EffectsOfLift<E>(k: nat, effs: seq<E>, j: nat)
    ensures EffectsOf(Lift(k, effs), j) == if j == k then effs else []
    decreases |effs|
  {
    if effs != [] {
      assert Lift(k, effs)[1..] == Lift(k, effs[1..]);
      EffectsOfLift(k, effs[1..], j);
      if j == k {
        assert [effs[0]] + effs[1..] == effs;
      }
    }
  }

  /** A trace grouped in scenes from `lo` on holds nothing of an earlier scene. */
  lemma {:induction false} EffectsOfBelow<E>(effs: seq<RootEffect<E>>, lo: nat, hi: nat, j: nat)
    requires Grouped(effs, lo, hi) && j < lo
    ensures EffectsOf(effs, j) == []
    decreases |effs|
  {
    if effs != [] {
      assert effs[0].scene >= lo;
      assert Grouped(effs[1..], lo, hi) by {
        forall i | 0 <= i < |effs[1..]| ensures effs[1..][i] == effs[i + 1] {}
      }
      EffectsOfBelow(effs[1..], lo, hi, j);
    }
  }

  /** Putting one scene's effects in front of a trace of later scenes:
      that scene gets exactly its effects, every other scene keeps its own. */
  lemma EffectsOfPrepend<E>(k: nat, effs: seq<E>, rest: seq<RootEffect<E>>, hi: nat)
    requires Grouped(rest, k + 1, hi)
    ensures EffectsOf(Lift(k, effs) + rest, k) == effs
    ensures forall j: nat :: j != k ==> EffectsOf(Lift(k, effs) + rest, j) == EffectsOf(rest, j)
  {
    EffectsOfAppend(Lift(k, effs), rest, k);
    EffectsOfLift(k, effs, k);
    EffectsOfBelow(rest, k + 1, hi, k);
    assert effs + [] == effs;
    forall j: nat | j != k ensures EffectsOf(Lift(k, effs) + rest, j) == EffectsOf(rest, j) {
      EffectsOfAppend(Lift(k, effs), rest, j);
      EffectsOfLift(k, effs, j);
    }
  }

  /** `after` is `before` with every scene still valid and numbered alike,
      and shown exactly when its index is the active one. */
  ghost predicate ShownIfActive(before: seq<Scenes.Scene>, after: seq<Scenes.Scene>, active: int)
  {
    && |after| == |before|
    && forall k :: 0 <= k < |before| ==>
      Scenes.Valid(after[k]) && after[k].index == before[k].index && after[k].show == (before[k].index == active)
  }

  lemma ShownIfActivePrepend(before: seq<Scenes.Scene>, s1: Scenes.Scene, rest: seq<Scenes.Scene>, active: int)
    requires before != []
    requires Scenes.Valid(s1) && s1.index == before[0].index && s1.show == (before[0].index == active)
    requires ShownIfActive(before[1..], rest, active)
    ensures ShownIfActive(before, [s1] + rest, active)
  {
    var after := [s1] + rest;
    forall k | 0 <= k < |before|
      ensures Scenes.Valid(after[k]) && after[k].index == before[k].index && after[k].show == (before[k].index == active)
    {
      if k > 0 {
        assert after[k] == rest[k - 1] && before[k] == before[1..][k - 1];
      }
    }
  }

  /** One scene of the frame: shown exactly when its index is the active
      one, then drawn. */
  function DrawOne(s: Scenes.Scene, active: int, dt: real): (r: Result<(Scenes.Scene, seq<Scenes.Effect>)>)
    requires Scenes.Valid(s)
    ensures r.Ok? ==> Scenes.Valid(r.value.0) && r.value.0.index == s.index && r.value.0.show == (s.index == active)
    ensures Scenes.Ready(s) && Scenes.AppOnly(s.events[Scenes.OnDraw]) ==> r.Ok?
    ensures r.Ok? && Scenes.Ready(s) ==> Scenes.Ready(r.value.0)
  {
    Scenes.Draw(Scenes.Show(s, Some(s.index == active)).0, dt)
  }

  /** What drawing one scene of the frame does: its fade steps toward 1 when
      it is the active one and toward 0 otherwise, its trace ends with one
      draw per element at that fade, recording the background each element's
      draw computed, each element ends as that draw left it, and its
      application calls are those of its draw event with the scene stored. */
  lemma DrawOneFades(s: Scenes.Scene, active: int, dt: real)
    requires Scenes.Valid(s) && DrawOne(s, active, dt).Ok?
    ensures Scenes.Fade in s.anim.cache && s.anim.cache[Scenes.Fade].Num?
    ensures var r := DrawOne(s, active, dt).value;
      var fade := MathOps.Linear(s.anim.cache[Scenes.Fade].n, Scenes.FadeTarget(s.index == active),
                                 Scenes.SceneAnimationSpeed * dt, Animation.DefaultHold);
      && Animation.Value(r.0.anim, Scenes.Fade) == Ok(Animation.Num(fade))
      && |r.0.elements| == |s.elements|
      && Scenes.EndsWithDraws(r.1, |s.elements|, fade)
      && Scenes.CalledOf(r.1) == Scenes.AppCalls(Events.Invoke(Events.Put(s.events[Scenes.OnDraw], "scene", Events.Owner)))
      && Scenes.FrameDraws(s, dt, fade, r.0.elements, r.1)
  {
    Scenes.FrameDrawsSameScene(s, Scenes.Show(s, Some(s.index == active)).0, dt,
      MathOps.Linear(s.anim.cache[Scenes.Fade].n, Scenes.FadeTarget(s.index == active),
                     Scenes.SceneAnimationSpeed * dt, Animation.DefaultHold));
  }

  /** Every scene of the list can be drawn. */
  ghost predicate AllDrawable(scenes: seq<Scenes.Scene>, active: int, dt: real)
    requires forall k :: 0 <= k < |scenes| ==> Scenes.Valid(scenes[k])
  {
    forall k :: 0 <= k < |scenes| ==> DrawOne(scenes[k], active, dt).Ok?
  }

  lemma AllDrawableSplit(scenes: seq<Scenes.Scene>, active: int, dt: real)
    requires scenes != [] && forall k :: 0 <= k < |scenes| ==> Scenes.Valid(scenes[k])
    ensures AllDrawable(scenes, active, dt) <==> DrawOne(scenes[0], active, dt).Ok? && AllDrawable(scenes[1..], active, dt)
  {
    assert forall k :: 1 <= k < |scenes| ==> scenes[1..][k - 1] == scenes[k];
  }

  /** What each scene of the list gives when drawn on its own. */
  function DrawOuts(scenes: seq<Scenes.Scene>, active: int, dt: real): (r: seq<(Scenes.Scene, seq<Scenes.Effect>)>)
    requires forall k :: 0 <= k < |scenes| ==> Scenes.Valid(scenes[k])
    requires AllDrawable(scenes, active, dt)
    ensures |r| == |scenes|
    ensures forall k :: 0 <= k < |scenes| ==> r[k] == DrawOne(scenes[k], active, dt).value
  {
    seq(|scenes|, k requires 0 <= k < |scenes| => DrawOne(scenes[k], active, dt).value)
  }

  /** Scene `start + k` of a result list and trace is `outs[k]`: its entry
      in the list and exactly its effects in the trace. */
  ghost predicate Attributed<S, E>(outs: seq<(S, seq<E>)>, start: nat, after: seq<S>, effs: seq<RootEffect<E>>)
  {
    && |after| == |outs|
    && forall k :: 0 <= k < |outs| ==> after[k] == outs[k].0 && EffectsOf(effs, start + k) == outs[k].1
  }

  lemma AttributedPrepend<S, E>(s1: S, e1: seq<E>, outs: seq<(S, seq<E>)>, start: nat,
                                rest: seq<S>, restEffs: seq<RootEffect<E>>, hi: nat)
    requires Attributed(outs, start + 1, rest, restEffs) && Grouped(restEffs, start + 1, hi)
    ensures Attributed([(s1, e1)] + outs, start, [s1] + rest, Lift(start, e1) + restEffs)
  {
    EffectsOfPrepend(start, e1, restEffs, hi);
    var all := [(s1, e1)] + outs;
    var after := [s1] + rest;
    forall k | 0 <= k < |all|
      ensures after[k] == all[k].0 && EffectsOf(Lift(start, e1) + restEffs, start + k) == all[k].1
    {
      if k > 0 {
        assert all[k] == outs[k - 1] && after[k] == rest[k - 1];
        assert EffectsOf(restEffs, start + 1 + (k - 1)) == outs[k - 1].1;
      }
    }
  }

  /** A list whose head is `head` and whose later entries are `rest`,
      shifted by one, is `head` followed by `rest`. */
  lemma ShiftByOne<T>(a: seq<T>, head: T, rest: seq<T>)
    requires |a| == |rest| + 1 && a[0] == head
    requires forall k :: 1 <= k < |a| ==> a[k] == rest[k - 1]
    ensures a == [head] + rest
  {
    assert forall k :: 0 <= k < |a| ==> a[k] == ([head] + rest)[k];
  }

  lemma DrawOutsShift(scenes: seq<Scenes.Scene>, active: int, dt: real, k: nat)
    requires 1 <= k < |scenes| && forall k :: 0 <= k < |scenes| ==> Scenes.Valid(scenes[k])
    requires AllDrawable(scenes, active, dt) && AllDrawable(scenes[1..], active, dt)
    ensures DrawOuts(scenes, active, dt)[k] == DrawOuts(scenes[1..], active, dt)[k - 1]
  {
    assert scenes[1..][k - 1] == scenes[k];
  }

  lemma DrawOutsCons(scenes: seq<Scenes.Scene>, active: int, dt: real)
    requires scenes != [] && forall k :: 0 <= k < |scenes| ==> Scenes.Valid(scenes[k])
    requires AllDrawable(scenes, active, dt)
    ensures AllDrawable(scenes[1..], active, dt)
    ensures DrawOuts(scenes, active, dt) == [DrawOne(scenes[0], active, dt).value] + DrawOuts(scenes[1..], active, dt)
  {
    AllDrawableSplit(scenes, active, dt);
    var a := DrawOuts(scenes, active, dt);
    var rest := DrawOuts(scenes[1..], active, dt);
    forall k | 1 <= k < |a| ensures a[k] == rest[k - 1] {
      DrawOutsShift(scenes, active, dt, k);
    }
    ShiftByOne(a, DrawOne(scenes[0], active, dt).value, rest);
  }

  /** Each scene in list order: `show` set to whether its index is the
      active one, then drawn; `start` is the position of `scenes[0]`. */
  function DrawAll(scenes: seq<Scenes.Scene>, start: nat, active: int, dt: real): (r: Result<(seq<Scenes.Scene>, seq<RootEffect<Scenes.Effect>>)>)
    requires forall k :: 0 <= k < |scenes| ==> Scenes.Valid(scenes[k])
    ensures r.Ok? ==> ShownIfActive(scenes, r.value.0, active)
    ensures r.Ok? ==> Grouped(r.value.1, start, start + |scenes|)
    ensures r.Ok? <==> AllDrawable(scenes, active, dt)
    ensures r.Ok? ==> Attributed(DrawOuts(scenes, active, dt), start, r.value.0, r.value.1)
    decreases |scenes|
  {
    if scenes == [] then Ok(([], []))
    else
      AllDrawableSplit(scenes, active, dt);
      match DrawOne(scenes[0], active, dt)
      case Err(e) => Err(e)
      case Ok((s1, effs)) =>
        match DrawAll(scenes[1..], start + 1, active, dt)
        case Err(e) => Err(e)
        case Ok((rest, restEffs)) =>
          DrawAllCons(scenes, start, active, dt, s1, effs, rest, restEffs);
          Ok(([s1] + rest, Lift(start, effs) + restEffs))
  }

  /** The first scene drawn, put in front of the rest of the list drawn,
      keeps every property of the drawn list. */
  lemma DrawAllCons(scenes: seq<Scenes.Scene>, start: nat, active: int, dt: real,
                    s1: Scenes.Scene, effs: seq<Scenes.Effect>,
                    rest: seq<Scenes.Scene>, restEffs: seq<RootEffect<Scenes.Effect>>)
    requires scenes != [] && forall k :: 0 <= k < |scenes| ==> Scenes.Valid(scenes[k])
    requires AllDrawable(scenes, active, dt) && DrawOuts(scenes, active, dt)[0] == (s1, effs)
    requires Scenes.Valid(s1) && s1.index == scenes[0].index && s1.show == (scenes[0].index == active)
    requires ShownIfActive(scenes[1..], rest, active) && Grouped(restEffs, start + 1, start + |scenes|)
    requires AllDrawable(scenes[1..], active, dt)
    requires Attributed(DrawOuts(scenes[1..], active, dt), start + 1, rest, restEffs)
    ensures ShownIfActive(scenes, [s1] + rest, active)
    ensures Grouped(Lift(start, effs) + restEffs, start, start + |scenes|)
    ensures Attributed(DrawOuts(scenes, active, dt), start, [s1] + rest, Lift(start, effs) + restEffs)
  {
    GroupedPrepend(start, effs, restEffs, start + |scenes|);
    ShownIfActivePrepend(scenes, s1, rest, active);
    DrawOutsCons(scenes, active, dt);
    AttributedPrepend(s1, effs, DrawOuts(scenes[1..], active, dt), start, rest, restEffs, start + |scenes|);
  }

  /** `__draw_scenes`: every scene, in creation order, is shown exactly when
      its index equals the active one, then drawn; the trace is grouped by
      scene in list order. */
  function DrawScenes(u: Root, dt: real): (r: Result<(Root, seq<RootEffect<Scenes.Effect>>)>)
    requires Valid(u)
    ensures r.Ok? ==> Valid(r.value.0) && r.value.0 == u.(scenes := r.value.0.scenes)
    ensures r.Ok? ==> |r.value.0.scenes| == |u.scenes|
    ensures r.Ok? ==> forall k :: 0 <= k < |u.scenes| ==> r.value.0.scenes[k].show == (k == u.active)
    ensures r.Ok? ==> Grouped(r.value.1, 0, |u.scenes|)
    ensures r.Ok? <==> forall k :: 0 <= k < |u.scenes| ==> DrawOne(u.scenes[k], u.active, dt).Ok?
    ensures (forall k :: 0 <= k < |u.scenes| ==> Scenes.Ready(u.scenes[k]) && Scenes.AppOnly(u.scenes[k].events[Scenes.OnDraw])) ==> r.Ok?
    ensures r.Ok? ==> forall k :: 0 <= k < |u.scenes| ==>
      && r.value.0.scenes[k] == DrawOne(u.scenes[k], u.active, dt).value.0
      && EffectsOf(r.value.1, k) == DrawOne(u.scenes[k], u.active, dt).value.1
  {
    match DrawAll(u.scenes, 0, u.active, dt)
    case Err(e) => Err(e)
    case Ok((scenes, effs)) => Ok((u.(scenes := scenes), effs))
  }

  /** With the clamp as written the active index can equal the number of
      scenes; then a whole frame shows no scene at all. */
  lemma NoSceneShownPastEnd(u: Root, dt: real)
    requires Valid(u) && u.active == |u.scenes|
    ensures DrawScenes(u, dt).Ok? ==> forall k :: 0 <= k < |u.scenes| ==> !DrawScenes(u, dt).value.0.scenes[k].show
  {
  }

  // ---------------------------------------------------------------------
  // Run and lookup

  const NoWindow: string := "Failed to find application window. make sure you have first called .create_window()"
  const NoEvents: string := "Failed to verify events initialize. make sure you have first called .initialize_events() before .run()"

  /** The checks `run` makes before its frame loop: the error it raises, or
      none when the loop would start. */
  function Run(u: Root): (r: Option<Error>)
    requires Valid(u)
    ensures r.None? <==> u.window.Some? && u.eventsInitialized
    ensures u.window.None? ==> r == Some(Raised(NoWindow))
    ensures u.window.Some? && !u.eventsInitialized ==> r == Some(Raised(NoEvents))
  {
    if u.window.None? then Some(Raised(NoWindow))
    else if !u.eventsInitialized then Some(Raised(NoEvents))
    else None
  }

  /** The set-up order matters: a fresh root cannot run; a successful
      `initialize` followed by `initialize_events` can; `initialize_events`
      before `initialize` raises and a later `initialize` clears its flag. */
  lemma SetupOrder(h: int)
    ensures Run(New()) == Some(Raised(NoWindow))
    ensures var u1 := Initialize(New(), true, Some(h), true).0;
      Run(u1) == Some(Raised(NoEvents)) && Run(InitializeEvents(u1).0).None?
    ensures var u2 := InitializeEvents(New());
      u2.1 == Some(AttributeError("_data"))
      && Run(Initialize(u2.0, true, Some(h), true).0) == Some(Raised(NoEvents))
  {
  }

  /** What `ui(key)` returns. */
  datatype Lookup = ErrorText(text: string) | SceneValue(scene: Scenes.Scene) | EventValue(event: Events.Event<nat>) | NoValue

  /** `__call__(key)`: "last error" and "active scene" first, then an event
      name, else nothing; before `initialize_events` the event lookup raises. */
  function Call(u: Root, key: string): (r: Result<Lookup>)
    ensures key == "last error" ==> r == Ok(ErrorText(u.lastError))
    ensures key == "active scene" ==> (r.Ok? <==> ActiveScene(u).Ok?) && (r.Ok? ==> r.value == SceneValue(ActiveScene(u).value))
    ensures key != "last error" && key != "active scene" && u.events.None? ==> r.Err?
    ensures key != "last error" && key != "active scene" && u.events.Some? && KindOf(key).Some? && KindOf(key).value in u.events.value ==>
      r == Ok(EventValue(u.events.value[KindOf(key).value]))
    ensures key != "last error" && key != "active scene" && u.events.Some? && KindOf(key).None? ==> r == Ok(NoValue)
  {
    if key == "last error" then Ok(ErrorText(u.lastError))
    else if key == "active scene" then
      match ActiveScene(u)
      case Ok(s) => Ok(SceneValue(s))
      case Err(e) => Err(e)
    else if u.events.None? then Err(AttributeError("_events"))
    else
      match KindOf(key)
      case Some(k) => if k in u.events.value then Ok(EventValue(u.events.value[k])) else Ok(NoValue)
      case None => Ok(NoValue)
  }

  /** A failed `set_event` is visible through `ui("last error")`. */
  lemma InvalidNameReported(u: Root, fn: nat, name: string)
    requires u.events.Some?
    ensures SetEvent(u, "no_such_event", fn, name) == Ok((u.(lastError := InvalidEventName), false))
    ensures Call(SetEvent(u, "no_such_event", fn, name).value.0, "last error") == Ok(ErrorText(InvalidEventName))
  {
  }
}

=== FILE: vector.dfy ===
/** The three-component vector of the SDK (sdk/vector.py): positions, sizes
    and 2D points, with component-wise arithmetic that also accepts a scalar. */
module Vectors {
  import opened Wrappers
  import MathOps

  datatype Vector = Vector(x: real, y: real, z: real)

  /** The default constructor `vector()`. */
  function Origin(): (v: Vector)
    ensures v.x == 0.0 && v.y == 0.0 && v.z == 0.0
  {
    Vector(0.0, 0.0, 0.0)
  }

  /** `unpack`: the vector as a 3-tuple. */
  function Unpack(v: Vector): (t: seq<real>)
    ensures |t| == 3
    ensures t[0] == v.x && t[1] == v.y && t[2] == v.z
  {
    [v.x, v.y, v.z]
  }

  /** `raw`: overwrite `x` and `y` from the tuple, and `z` only when the tuple
      has exactly three entries; a tuple shorter than two raises. */
  function Raw(v: Vector, tpl: seq<real>): (r: Result<Vector>)
    ensures r.Ok? <==> |tpl| >= 2
    ensures r.Ok? ==> r.value.x == tpl[0] && r.value.y == tpl[1]
    ensures r.Ok? && |tpl| == 3 ==> r.value.z == tpl[2]
    ensures r.Ok? && |tpl| != 3 ==> r.value.z == v.z
  {
    if |tpl| < 2 then Err(IndexError)
    else if |tpl| == 3 then Ok(Vector(tpl[0], tpl[1], tpl[2]))
    else Ok(v.(x := tpl[0], y := tpl[1]))
  }

  /** `copy`: a new vector with the same components. */
  function Copy(v: Vector): (r: Vector)
    ensures r == v
  {
    Vector(v.x, v.y, v.z)
  }

  /** `is_in_bounds`: the point lies in the rectangle with top-left corner
      `start`, width `w` and height `h`; every edge belongs to the rectangle. */
  function IsInBounds(p: Vector, start: Vector, w: real, h: real): (r: bool)
    ensures r <==> start.x <= p.x <= start.x + w && start.y <= p.y <= start.y + h
  {
    if p.x < start.x || p.x > start.x + w then false
    else if p.y < start.y || p.y > start.y + h then false
    else true
  }

  /** `linear`: `MathOps.Linear` applied to each component independently with
      the same weight and hold. */
  function Linear(a: Vector, b: Vector, weight: real, hold: real): (r: Vector)
    ensures r.x == MathOps.Linear(a.x, b.x, weight, hold)
    ensures r.y == MathOps.Linear(a.y, b.y, weight, hold)
    ensures r.z == MathOps.Linear(a.z, b.z, weight, hold)
  {
    Vector(MathOps.Linear(a.x, b.x, weight, hold),
           MathOps.Linear(a.y, b.y, weight, hold),
           MathOps.Linear(a.z, b.z, weight, hold))
  }

  /** The right operand of an arithmetic operator: another vector, a number
      (`int` or `float`), or a value of any other type. */
  datatype Operand = VecArg(v: Vector) | NumArg(n: real) | OtherArg

  /** The vector a scalar operand stands for: the scalar in every component. */
  function Broadcast(n: real): Vector
  {
    Vector(n, n, n)
  }

  datatype Op = Plus | Minus | Times | Divide

  /** One component of an operator; `/` by zero raises. */
  function Apply(op: Op, a: real, b: real): Result<real>
  {
    match op
    case Plus => Ok(a + b)
    case Minus => Ok(a - b)
    case Times => Ok(a * b)
    case Divide => if b == 0.0 then Err(ZeroDivisionError) else Ok(a / b)
  }

  /** The component-wise operator applied to two vectors, components evaluated
      in the order x, y, z as the source does. */
  function ApplyVec(op: Op, a: Vector, b: Vector): Result<Vector>
  {
    match Apply(op, a.x, b.x)
    case Err(e) => Err(e)
    case Ok(x) =>
      match Apply(op, a.y, b.y)
      case Err(e) => Err(e)
      case Ok(y) =>
        match Apply(op, a.z, b.z)
        case Err(e) => Err(e)
        case Ok(z) => Ok(Vector(x, y, z))
  }

  /** `__add__`, `__sub__`, `__mul__`, `__truediv__`: component-wise for a
      vector operand, the scalar broadcast for a number, a raise otherwise. */
  function Arith(op: Op, a: Vector, other: Operand): (r: Result<Vector>)
    ensures other.OtherArg? ==> r == Err(Raised(InvalidOperand))
    ensures other.NumArg? ==> r == ApplyVec(op, a, Broadcast(other.n))
    ensures other.VecArg? ==> r == ApplyVec(op, a, other.v)
  {
    match other
    case VecArg(b) => ApplyVec(op, a, b)
    case NumArg(n) => ApplyVec(op, a, Vector(n, n, n))
    case OtherArg => Err(Raised(InvalidOperand))
  }

  const InvalidOperand: string := "Invalid other data type. Must be vector / int / float"
  const InvalidComparand: string := "Invalid other data type. Must be vector / tuple"

  function Add(a: Vector, other: Operand): Result<Vector> { Arith(Plus, a, other) }
  function Sub(a: Vector, other: Operand): Result<Vector> { Arith(Minus, a, other) }
  function Mul(a: Vector, other: Operand): Result<Vector> { Arith(Times, a, other) }
  function Div(a: Vector, other: Operand): Result<Vector> { Arith(Divide, a, other) }

  /** Addition, subtraction and multiplication never fail on a vector or a
      number, and act on each component separately. */
  lemma ArithComponentWise(op: Op, a: Vector, b: Vector)
    requires op != Divide
    ensures ApplyVec(op, a, b).Ok?
    ensures op == Plus ==> ApplyVec(op, a, b).value == Vector(a.x + b.x, a.y + b.y, a.z + b.z)
    ensures op == Minus ==> ApplyVec(op, a, b).value == Vector(a.x - b.x, a.y - b.y, a.z - b.z)
    ensures op == Times ==> ApplyVec(op, a, b).value == Vector(a.x * b.x, a.y * b.y, a.z * b.z)
  {
  }

  /** Division fails exactly when some component of the divisor is zero, and
      otherwise divides component by component. */
  lemma DivComponentWise(a: Vector, b: Vector)
    ensures Div(a, VecArg(b)).Ok? <==> b.x != 0.0 && b.y != 0.0 && b.z != 0.0
    ensures Div(a, VecArg(b)).Ok? ==> Div(a, VecArg(b)).value == Vector(a.x / b.x, a.y / b.y, a.z / b.z)
    ensures Div(a, NumArg(0.0)) == Err(ZeroDivisionError)
  {
  }

  /** Subtracting what was added gives the vector back. */
  lemma AddSubRoundTrip(a: Vector, other: Operand)
    requires !other.OtherArg?
    ensures Add(a, other).Ok?
    ensures Sub(Add(a, other).value, other) == Ok(a)
  {
  }

  /** The argument of `==`: a vector, a tuple, or a value of any other type. */
  datatype Comparand = EqVec(v: Vector) | EqTuple(t: seq<real>) | EqOther

  /** `__eq__`: all three components against a vector or a tuple; Python's
      short-circuit `and` stops at the first mismatch, so a tuple that is too
      short raises only when its leading entries all match. */
  function Eq(a: Vector, other: Comparand): (r: Result<bool>)
    ensures other.EqVec? ==> r == Ok(a == other.v)
    ensures other.EqOther? ==> r == Err(Raised(InvalidComparand))
    ensures other.EqTuple? && |other.t| >= 3 ==> r == Ok(a.x == other.t[0] && a.y == other.t[1] && a.z == other.t[2])
  {
    match other
    case EqVec(b) => Ok(a.x == b.x && a.y == b.y && a.z == b.z)
    case EqOther => Err(Raised(InvalidComparand))
    case EqTuple(t) =>
      if |t| < 1 then Err(IndexError)
      else if a.x != t[0] then Ok(false)
      else if |t| < 2 then Err(IndexError)
      else if a.y != t[1] then Ok(false)
      else if |t| < 3 then Err(IndexError)
      else Ok(a.z == t[2])
  }

  /** A tuple of fewer than three entries raises only if every entry present
      matches, and otherwise compares unequal. */
  lemma EqShortTuple(a: Vector, t: seq<real>)
    requires |t| < 3
    ensures Eq(a, EqTuple(t)).Err? <==> (forall i :: 0 <= i < |t| ==> Unpack(a)[i] == t[i])
  {
  }

  /** Unpacking and reading the tuple back with `raw` returns the same vector,
      and the vector compares equal to its own tuple. */
  lemma UnpackRoundTrip(v: Vector, w: Vector)
    ensures Raw(w, Unpack(v)) == Ok(v)
    ensures Eq(v, EqTuple(Unpack(v))) == Ok(true)
  {
  }

  /** `linear` with a weight of one lands on the other vector; a vector
      interpolated toward itself does not move. */
  lemma LinearEnds(a: Vector, b: Vector, hold: real)
    ensures Linear(a, b, 1.0, hold) == b
    ensures Linear(a, a, 0.5, hold) == a
  {
  }
}

=== FILE: widgets.dfy ===
/** The buttons of the current generation (user_interface/widgets.py): an icon
    button and an icon-and-text button.  Each keeps a hover flag updated by its
    mouse-position handler, fires its press callback from its mouse-input
    handler, and animates its background, underline (and width) toward
    targets chosen by hover every frame.  The draw calls themselves are not
    modelled; a frame reports the background colour the button would draw.

    Attaching a button to its scene (and registering its handlers there) is
    modelled in the `Scenes` module, which owns the element list. */
module Widgets {
  import opened Wrappers
  import MathOps
  import Vectors
  import Colors
  import Events
  import Animation

  /** `DEFAULT_SPEED` and `INVALID` of the source. */
  const DefaultSpeed: real := 10.0
  const Invalid: int := -1

  /** `COLOR_BUTTON_BACK`: `color(253, 231, 236)` with the default alpha. */
  const ButtonBack: Colors.Color := Colors.Color(253.0, 231.0, 236.0, 255.0)

  /** The GLFW codes the input handler compares against. */
  const MouseButtonLeft: real := 0.0
  const Press: real := 1.0

  /** Animation keys. */
  const Background: string := "Background"
  const Underline: string := "Underline"
  const Width: string := "Width"

  /** `textWidth` is what the renderer measures for the icon-text button's
      font and text; both are fixed at construction, so the measurement is too. */
  datatype Widget =
    | IconButton(index: int, position: Vectors.Vector, size: real,
                 callback: Option<nat>, hovered: bool, anim: Animation.Animations)
    | IconTextButton(index: int, position: Vectors.Vector, size: real,
                     callback: Option<nat>, hovered: bool, anim: Animation.Animations,
                     textWidth: real)

  /** The decimal digits of `n`, as an f-string renders an `int`. */
  function Digits(n: nat): (s: string)
    ensures |s| >= 1
    ensures n >= 10 ==> |s| >= 2
    ensures forall i :: 0 <= i < |s| ==> '0' <= s[i] <= '9'
    ensures DigitsValue(s) == n
    ensures n > 0 ==> s[0] != '0'
    decreases n
  {
    var d := ['0' + (n % 10) as char];
    if n < 10 then d
    else
      var s := Digits(n / 10) + d;
      assert s[..|s| - 1] == Digits(n / 10);
      s
  }

  /** The number a string of decimal digits spells. */
  function DigitsValue(s: string): nat
    requires forall i :: 0 <= i < |s| ==> '0' <= s[i] <= '9'
  {
    if s == [] then 0
    else 10 * DigitsValue(s[..|s| - 1]) + (s[|s| - 1] as int - '0' as int)
  }

  /** Different numbers print differently. */
  lemma {:induction false} DigitsInjective(a: nat, b: nat)
    requires Digits(a) == Digits(b)
    ensures a == b
    decreases a
  {
    var sa := Digits(a);
    var sb := Digits(b);
    assert sa[|sa| - 1] == sb[|sb| - 1];
    assert a % 10 == b % 10;
    if a >= 10 && b >= 10 {
      assert Digits(a / 10) == sa[..|sa| - 1];
      assert Digits(b / 10) == sb[..|sb| - 1];
      DigitsInjective(a / 10, b / 10);
    }
  }

  /** The name a button registers its handlers under: `ButtonIcon::<index>`. */
  function HandlerName(index: nat): string
  {
    "ButtonIcon::" + Digits(index)
  }

  /** Buttons at different indices register under different names, so one
      button's registration never replaces another's. */
  lemma HandlerNamesDistinct(i: nat, j: nat)
    requires i != j
    ensures HandlerName(i) != HandlerName(j)
  {
    var p := "ButtonIcon::";
    assert Digits(i) == HandlerName(i)[|p|..];
    assert Digits(j) == HandlerName(j)[|p|..];
    assert DigitsValue(Digits(i)) != DigitsValue(Digits(j));
  }

  /** The set-up of `__complete_setup`: not hovered, Background 50, Underline 0. */
  function NewIconButton(index: nat, position: Vectors.Vector, size: real, callback: Option<nat>): (w: Widget)
    ensures w.IconButton? && w.index == index && w.size == size && w.callback == callback
    ensures w.position == position && !w.hovered
    ensures Animation.Value(w.anim, Background) == Ok(Animation.Num(50.0))
    ensures Animation.Value(w.anim, Underline) == Ok(Animation.Num(0.0))
    ensures Ready(w)
  {
    var a := Animation.Prepare(Animation.Prepare(Animation.New(), Background, Animation.Num(50.0)),
                               Underline, Animation.Num(0.0));
    IconButton(index, Vectors.Copy(position), size, callback, false, a)
  }

  /** The icon-text button adds a "Width" animation, prepared to `size`. */
  function NewIconTextButton(index: nat, position: Vectors.Vector, size: real, textWidth: real, callback: Option<nat>): (w: Widget)
    ensures w.IconTextButton? && w.index == index && w.size == size && w.callback == callback
    ensures w.position == position && !w.hovered && w.textWidth == textWidth
    ensures Animation.Value(w.anim, Background) == Ok(Animation.Num(50.0))
    ensures Animation.Value(w.anim, Underline) == Ok(Animation.Num(0.0))
    ensures Animation.Value(w.anim, Width) == Ok(Animation.Num(size))
    ensures Ready(w)
  {
    var a := Animation.Prepare(Animation.Prepare(Animation.Prepare(Animation.New(),
               Background, Animation.Num(50.0)), Underline, Animation.Num(0.0)), Width, Animation.Num(size));
    IconTextButton(index, Vectors.Copy(position), size, callback, false, a, textWidth)
  }

  /** Every animation key the button reads holds a number. */
  ghost predicate Ready(w: Widget)
  {
    && (Background in w.anim.cache && w.anim.cache[Background].Num?)
    && (Underline in w.anim.cache && w.anim.cache[Underline].Num?)
    && (w.IconTextButton? ==> Width in w.anim.cache && w.anim.cache[Width].Num?)
  }

  /** `position()` returns the stored vector. */
  function Position(w: Widget): Vectors.Vector
  {
    w.position
  }

  /** `position(v)`: only `x` and `y` are taken over; `z` stays. */
  function SetPosition(w: Widget, v: Vectors.Vector): (r: Widget)
    ensures Position(r) == Vectors.Vector(v.x, v.y, Position(w).z)
    ensures r == w.(position := Position(r))
  {
    w.(position := w.position.(x := v.x, y := v.y))
  }

  /** The rectangle width the hover test uses: the side for the icon button,
      the current animated "Width" for the icon-text button. */
  function HitWidth(w: Widget): (r: Result<real>)
    ensures w.IconButton? ==> r == Ok(w.size)
    ensures Ready(w) && w.IconTextButton? ==> r == Ok(w.anim.cache[Width].n)
  {
    if w.IconButton? then Ok(w.size)
    else
      match Animation.Value(w.anim, Width)
      case Err(e) => Err(e)
      case Ok(v) => if v.Num? then Ok(v.n) else Err(TypeError)
  }

  /** A number read through the accessor; `None` or another kind of value makes
      the comparisons in `is_in_bounds` raise. */
  function NumberArg(bag: Events.Bag, key: string): (r: Result<real>)
    ensures r.Ok? <==> key in bag && bag[key].Num?
    ensures r.Ok? ==> r.value == bag[key].n
  {
    var v := Events.Lookup(bag, key);
    if v.Some? && v.value.Num? then Ok(v.value.n) else Err(TypeError)
  }

  /** The mouse-position handler: hovered becomes whether the mouse lies in
      the button's rectangle, edges included.  Registered with `allow_args`,
      it reads `x` and `y` through the accessor; called without it, it raises. */
  function OnMousePosition(w: Widget, args: Option<Events.Bag>): (r: Result<Widget>)
    ensures r.Ok? ==> r.value == w.(hovered := r.value.hovered)
    ensures args.Some? && NumberArg(args.value, "x").Ok? && NumberArg(args.value, "y").Ok? && HitWidth(w).Ok? ==>
      r.Ok? && (r.value.hovered <==>
        Vectors.IsInBounds(Vectors.Vector(args.value["x"].n, args.value["y"].n, 0.0),
                           w.position, HitWidth(w).value, w.size))
    ensures r.Ok? <==> args.Some? && NumberArg(args.value, "x").Ok? && NumberArg(args.value, "y").Ok? && HitWidth(w).Ok?
  {
    if args.None? then Err(TypeError)
    else
      match (NumberArg(args.value, "x"), NumberArg(args.value, "y"))
      case (Ok(x), Ok(y)) =>
        (match HitWidth(w)
         case Err(e) => Err(e)
         case Ok(width) =>
           var mouse := Vectors.Vector(x, y, 0.0);
           Ok(w.(hovered := Vectors.IsInBounds(mouse, w.position, width, w.size))))
      case _ => Err(TypeError)
  }

  /** The mouse-input handler: the press callback runs (its id is returned)
      exactly when the button is hovered, the button is the left one, the
      action is a press and a callback is set; nothing changes otherwise. */
  function OnMouseInput(w: Widget, args: Option<Events.Bag>): (r: Result<Option<nat>>)
    ensures args.None? <==> r.Err?
    ensures r.Ok? ==> (r.value.Some? <==>
      w.hovered
      && Events.Lookup(args.value, "button") == Some(Events.Num(MouseButtonLeft))
      && Events.Lookup(args.value, "action") == Some(Events.Num(Press))
      && w.callback.Some?)
    ensures r.Ok? && r.value.Some? ==> r.value == w.callback
  {
    if args.None? then Err(TypeError)
    else if !w.hovered then Ok(None)
    else if Events.Lookup(args.value, "button") != Some(Events.Num(MouseButtonLeft)) then Ok(None)
    else if Events.Lookup(args.value, "action") != Some(Events.Num(Press)) then Ok(None)
    else Ok(w.callback)
  }

  /** The targets chosen by hover: Background 150 / 50, Underline 255 / 0. */
  function BackgroundTarget(hovered: bool): real { if hovered then 150.0 else 50.0 }
  function UnderlineTarget(hovered: bool): real { if hovered then 255.0 else 0.0 }

  /** The width target of the icon-text button: `size + text width + 12` when
      hovered, else `size`.  Python's `hovered and wide or size` falls back to
      `size` also when the wide value is zero. */
  function WidthTarget(w: Widget): real
    requires w.IconTextButton?
  {
    var wide := w.size + w.textWidth + 12.0;
    if w.hovered && wide != 0.0 then wide else w.size
  }

  /** One animated key: `preform` at the default speed and hold, keeping the
      resulting cache. */
  function Animate(a: Animation.Animations, key: string, target: real): (r: Result<Animation.Animations>)
    ensures key in a.cache && a.cache[key].Num? ==> r.Ok?
    ensures r.Ok? ==> key in a.cache && a.cache[key].Num? && r.value == Animation.Store(a, key,
      Animation.Num(MathOps.Linear(a.cache[key].n, target, DefaultSpeed * a.interpolation, Animation.DefaultHold)))
  {
    match Animation.Preform(a, key, Animation.Num(target), DefaultSpeed, Animation.DefaultHold)
    case Err(e) => Err(e)
    case Ok((a', _)) => Ok(a')
  }

  /** The next value of a number key after one frame toward `target`. */
  function Stepped(a: Animation.Animations, key: string, target: real, dt: real): real
    requires key in a.cache && a.cache[key].Num?
  {
    MathOps.Linear(a.cache[key].n, target, DefaultSpeed * dt, Animation.DefaultHold)
  }

  /** `draw(fade)` without its draw calls: the frame's delta time becomes the
      interpolation factor, each key steps toward its hover target (in the
      source's order), and the background colour drawn is the button colour
      with the animated background as alpha, scaled by the scene's fade. */
  function Draw(w: Widget, dt: real, fade: real): (r: Result<(Widget, Colors.Color)>)
    ensures Ready(w) ==> r.Ok? && Ready(r.value.0)
    ensures Ready(w) ==> r.value.0 == w.(anim := r.value.0.anim)
    ensures Ready(w) ==> r.value.0.anim.cache[Background] == Animation.Num(Stepped(w.anim, Background, BackgroundTarget(w.hovered), dt))
    ensures Ready(w) ==> r.value.0.anim.cache[Underline] == Animation.Num(Stepped(w.anim, Underline, UnderlineTarget(w.hovered), dt))
    ensures Ready(w) && w.IconTextButton? ==> r.value.0.anim.cache[Width] == Animation.Num(Stepped(w.anim, Width, WidthTarget(w), dt))
    ensures Ready(w) ==> r.value.1 == Colors.Mul(Colors.AlphaOverride(ButtonBack, r.value.0.anim.cache[Background].n), fade)
  {
    var a0 := Animation.SetInterpolation(w.anim, dt);
    match Animate(a0, Background, BackgroundTarget(w.hovered))
    case Err(e) => Err(e)
    case Ok(a1) =>
      var a2 := if w.IconTextButton? then Animate(a1, Width, WidthTarget(w)) else Ok(a1);
      match a2
      case Err(e) => Err(e)
      case Ok(a2) =>
        match Animate(a2, Underline, UnderlineTarget(w.hovered))
        case Err(e) => Err(e)
        case Ok(a3) =>
          var back := Animation.Value(a3, Background);
          if back.Ok? && back.value.Num? then
            Ok((w.(anim := a3), Colors.Mul(Colors.AlphaOverride(ButtonBack, back.value.n), fade)))
          else Err(TypeError)
  }

  /** The icon-text button hit-tests against the width on screen now, not the
      width it is growing toward: right after construction, with the text
      making the target wider, a point just right of `size` misses. */
  lemma HoverUsesAnimatedWidth(p: Vectors.Vector, size: real, textWidth: real)
    requires size >= 0.0 && textWidth > 0.0
    ensures var w := NewIconTextButton(0, p, size, textWidth, None).(hovered := true);
      var bag := map["x" := Events.Num(p.x + size + 1.0), "y" := Events.Num(p.y)];
      WidthTarget(w) > size + 1.0
      && OnMousePosition(w, Some(bag)) == Ok(w.(hovered := false))
  {
  }

  /** A hovered left press fires the callback; a right press or a release
      does not. */
  lemma PressFiresOnlyOnLeftPress(w: Widget, c: nat)
    requires w.hovered && w.callback == Some(c)
    ensures OnMouseInput(w, Some(map["button" := Events.Num(0.0), "action" := Events.Num(1.0)])) == Ok(Some(c))
    ensures OnMouseInput(w, Some(map["button" := Events.Num(1.0), "action" := Events.Num(1.0)])) == Ok(None)
    ensures OnMouseInput(w, Some(map["button" := Events.Num(0.0), "action" := Events.Num(0.0)])) == Ok(None)
  {
  }
}

=== FILE: wrappers.dfy ===
/** Failure-carrying datatypes shared by every module of the model.

    The toolkit is written in Python, where a failing operation raises an
    exception.  The model turns each raise into an `Err` carrying the kind of
    exception, so that error paths are values that contracts can talk about.
 */
module Wrappers {

  datatype Option<+T> = None | Some(value: T)

  /** The Python exception kinds the modelled code can raise. */
  datatype Error =
    | KeyError(key: string)          // a dict lookup or `del` of a missing key
    | IndexError                     // a list or tuple index out of range
    | AttributeError(name: string)   // a missing attribute or method
    | TypeError                      // an operator applied to unsupported operands
    | ZeroDivisionError              // `/` by zero
    | Raised(message: string)        // an explicit `raise Exception(message)`

  datatype Result<+T> = Ok(value: T) | Err(error: Error)

  /** Python's `s[i]`: a negative index counts from the end, anything outside
      `[-|s|, |s|)` raises `IndexError`. */
  function PyIndex<T>(s: seq<T>, i: int): (r: Result<T>)
    ensures r.Ok? <==> -|s| <= i < |s|
    ensures 0 <= i < |s| ==> r == Ok(s[i])
    ensures -|s| <= i < 0 ==> r == Ok(s[|s| + i])
  {
    if 0 <= i < |s| then Ok(s[i])
    else if -|s| <= i < 0 then Ok(s[|s| + i])
    else Err(IndexError)
  }

  /** The position Python's `s[i]` refers to, when it refers to one. */
  function PyPosition(n: nat, i: int): (p: Option<nat>)
    ensures p.Some? <==> -(n as int) <= i < n
    ensures p.Some? ==> p.value < n && (p.value == i || p.value == n + i)
  {
    if 0 <= i < n then Some(i)
    else if -(n as int) <= i < 0 then Some(n + i)
    else None
  }
}
